=== FILE: README.md ===
# MovieReviewApp, modelled in Dafny

This project models the core of MovieReviewApp. MovieReviewApp is an ASP.NET Core web API with an
Angular front end: users add movies, review each movie once, and rate each movie from one to five
stars.

The model covers:

- **The database.** The four tables of `ApplicationDbContext` with their keys, column widths, unique
  `(UserId, MovieId)` indexes and delete rules (`Schema`). The context itself is a class whose
  fields are the tables and the identity counters (`Store.Context`).
- **The services.** `MovieService`, `ReviewService` and `RatingService`. Their commands are methods
  on the context that check ownership, keep every constraint and state the whole new state. Their
  queries are functions over the tables that follow each query's `Include` graph, filter, order,
  skip and take.
- **The mapping profile.** `AutoMapperProfile` projects loaded rows into DTOs. This covers the
  "System" creator of summaries whose creator was not loaded, a rating shown only when it was
  loaded, and `Movie.AverageRating` / `Movie.ReviewCount` from `Models/Movie.cs`.
- **The controllers.** `MoviesController` and `ReviewsController`: request validation from the DTO
  annotations, default query arguments, the paging envelope with
  `totalPages = ceil(totalCount / pageSize)`, and the HTTP result of each action.
- **The Angular side.**
  - The query strings `movie.service.ts` builds, its rating check and its genre colours.
  - The state of the three pages `movie-management.ts`, `movie-list.ts` and `movie-detail.ts`. Each
    page is a class whose fields are the component's signals, plus the log of requests it has
    sent; answers arrive through `On…` methods.

Text is `seq<char>`. Trimming is modelled twice: for .NET (`char.IsWhiteSpace`) and for
JavaScript (`String.prototype.trim`). Times are integers, and the clock is a `now` parameter.

## Model

| member | source | states |
|---|---|---|
| Entities.AverageRating | MovieReviewApp/Models/Movie.cs:39-40 | 0 for a movie without ratings; between 1 and 5 when the values are on the scale |
| Entities.AverageIsMean | MovieReviewApp/Models/Movie.cs:39-40 | the average of a non-empty list of ratings is their mean: times their number it gives back their total |
| Entities.AverageOfOne | MovieReviewApp/Models/Movie.cs:40 | a single rating averages to its own value |
| Schema.DeleteMovieCascade | MovieReviewApp/Data/ApplicationDbContext.cs:67-71 | deleting a movie keeps the users; the cascade is applied to reviews and ratings |
| Schema.CascadeRemovesExactly | MovieReviewApp/Data/ApplicationDbContext.cs:67-71 | after the cascade the movie and all its reviews and ratings are gone, and every other movie, review and rating remains |
| Schema.CascadeKeepsConsistent | MovieReviewApp/Data/ApplicationDbContext.cs:59-109 | the cascade keeps keys unique, columns within width and every foreign key resolved |
| Schema.DeleteUser | MovieReviewApp/Data/ApplicationDbContext.cs:111-119 | removing a user's row leaves that user absent and the other tables untouched |
| Schema.DeleteUserAllowedIff | MovieReviewApp/Data/ApplicationDbContext.cs:41-45 | with Restrict on all three user keys, a user's deletion is admissible exactly when no movie, review or rating refers to them |
| Store.Context.constructor | MovieReviewApp/Data/ApplicationDbContext.cs:9-16 | a fresh context holds only the given users and satisfies the constraints |
| Store.AddMovieKeepsConsistent | MovieReviewApp/Data/ApplicationDbContext.cs:23-45 | a fitting movie by an existing user under a fresh key keeps the database consistent |
| Store.AddReviewKeepsConsistent | MovieReviewApp/Data/ApplicationDbContext.cs:59-82 | a fitting review of an existing movie by an existing user, with a fresh key and a fresh (user, movie) pair, keeps it consistent |
| Store.AddRatingKeepsConsistent | MovieReviewApp/Data/ApplicationDbContext.cs:86-108 | the same for a new rating |
| Store.RemoveReviewsKeepsConsistent | MovieReviewApp/Data/ApplicationDbContext.cs:59-82 | removing any reviews keeps the database consistent |
| Store.RemoveRatingsKeepsConsistent | MovieReviewApp/Data/ApplicationDbContext.cs:86-108 | removing any ratings keeps the database consistent |
| Mapping.ToMovieSummary | MovieReviewApp/Mappings/AutoMapperProfile.cs:20-29 | copies the columns; the creator's name and email, or "System" and null when the creator was not loaded; the mean rating and the review count |
| Mapping.ToReviewDto | MovieReviewApp/Mappings/AutoMapperProfile.cs:36-40 | author name and movie title present exactly when loaded; the rating value is a loaded rating of the author for the same movie, or null |
| Mapping.ToMovieDto | MovieReviewApp/Mappings/AutoMapperProfile.cs:15-18 | copies the columns; the creator name only when loaded; the same average and count as the summary |
| Mapping.ToRatingDto | MovieReviewApp/Mappings/AutoMapperProfile.cs:47-50 | copies the rating; the average is `Movie.AverageRating` over the movie's loaded ratings |
| Mapping.ToUserProfile | MovieReviewApp/Mappings/AutoMapperProfile.cs:59-62 | the three counts are the sizes of the user's movies, reviews and ratings |
| Mapping.UserProfile | MovieReviewApp/Services/AuthService.cs:82-91 | no profile exactly when the user does not exist; otherwise the counts of everything the user created |
| MovieService.OwnedMovieIndex | MovieReviewApp/Services/MovieService.cs:35-36 | finds the movie with this id created by the caller, or proves that there is none |
| MovieService.CreateMovie | MovieReviewApp/Services/MovieService.cs:21-31 | the new movie takes the next key, the caller and `now`; it is appended exactly when it fits and the caller exists, and nothing changes otherwise |
| MovieService.UpdateMovie | MovieReviewApp/Services/MovieService.cs:33-45 | not the caller's movie: nothing changes; otherwise only title, director, genre and description are rewritten (refused when too long) |
| MovieService.DeleteMovie | MovieReviewApp/Services/MovieService.cs:47-58 | deletes exactly when the movie is the caller's, and then the new state is the cascade |
| MovieService.GetMovieById | MovieReviewApp/Services/MovieService.cs:60-70 | absent exactly when no movie has the id; otherwise the stored movie's title, director, genre, description and date, its creator's name exactly when the creator exists, and the mean of its ratings; its reviews are the movie's reviews in table order, each with its own id, text and date, its author's name exactly when the author exists, and the movie's title |
| MovieService.MoviePageRowShowsOwnRating | MovieReviewApp/Mappings/AutoMapperProfile.cs:38-40 | with one rating per user and movie, a review loaded for the movie page shows its author's rating of the movie, or null |
| MovieService.MovieDetailShowsOwnRatings | MovieReviewApp/Services/MovieService.cs:60-70 | in a consistent database every review on the movie's page shows its author's own rating of the movie, or null |
| MovieService.GetAllMovies | MovieReviewApp/Services/MovieService.cs:72-83 | exactly the summaries of page `page` of all movies ordered newest first; at most a page, every creator shown as "System"; non-empty exactly for the pages within the page count |
| MovieService.EveryMovieIsListed | MovieReviewApp/Services/MovieService.cs:76-80 | every movie's summary is on one of the pages 1..ceil(count / pageSize) of the list |
| MovieService.SearchFilter | MovieReviewApp/Services/MovieService.cs:119-126 | an empty term keeps every movie; otherwise exactly the movies whose title, director or genre contains the term |
| MovieService.SearchMovies | MovieReviewApp/Services/MovieService.cs:111-135 | exactly the summaries of page `page` of the title matches ordered newest first; non-empty exactly for pages within the search count's page count |
| MovieService.SearchListsEveryHit | MovieReviewApp/Services/MovieService.cs:117-132 | every movie whose title matches (or every movie, for an empty term) is on one of the pages 1..ceil(search count / pageSize) |
| MovieService.GetSearchCount | MovieReviewApp/Services/MovieService.cs:139-154 | the number of title matches, the same filter `SearchMovies` pages; at most the number of movies, and all of them for an empty term |
| MovieService.GetMoviesByUser | MovieReviewApp/Services/MovieService.cs:164-176 | exactly the summaries of page `page` of the user's own movies ordered newest first |
| MovieService.EveryMovieOfUserIsListed | MovieReviewApp/Services/MovieService.cs:166-173 | every movie the user created is on one of the pages of the user's list |
| MovieService.GridFilter | MovieReviewApp/Services/MovieService.cs:197-210 | keeps exactly the movies that pass the search and the genre filter |
| MovieService.ColumnNamed | MovieReviewApp/Services/MovieService.cs:238-256 | a known lower-case column name selects its column; any other name selects none |
| MovieService.SortSpec | MovieReviewApp/Services/MovieService.cs:227-236 | blank sort column means creation date; blank order means descending; ascending only for "asc" in any case; an unknown column sorts newest first whatever the order |
| MovieService.ApplySorting | MovieReviewApp/Services/MovieService.cs:227-259 | a permutation of the rows, sorted by the chosen column in the chosen direction |
| MovieService.GridRows | MovieReviewApp/Services/MovieService.cs:190-213 | the filtered movies, each loaded with its creator, sorted |
| MovieService.GetMoviesWithSorting | MovieReviewApp/Services/MovieService.cs:181-223 | the count is the number of movies passing the search and genre filters, taken before paging; the page is exactly the summaries of page `page` of those movies in the requested column order; with no filters the count is every movie |
| MovieService.GridPageIsSorted | MovieReviewApp/Services/MovieService.cs:217-220 | the rows behind any grid page are sorted by the requested column and direction, so paging keeps the order |
| MovieService.GridListsEveryMatch | MovieReviewApp/Services/MovieService.cs:189-220 | every movie passing the search and genre filters is on one of the pages 1..ceil(count / pageSize) of the grid |
| MovieService.GridPagePassesFilters | MovieReviewApp/Services/MovieService.cs:197-220 | every movie on any grid page is a stored movie that passes the search and the genre filter |
| MovieService.GridDefaultsToNewestFirst | MovieReviewApp/Services/MovieService.cs:229-232 | without sort arguments the grid rows are newest first |
| MovieService.GenrelessFirstWhenAscending | MovieReviewApp/Services/MovieService.cs:244-246 | sorting by genre ascending puts movies without a genre before every movie with one |
| MovieService.UnratedFirstWhenAscending | MovieReviewApp/Services/MovieService.cs:248-250 | sorting by average ascending puts unrated movies before every rated one |
| MovieService.GridGenrelessFirst | MovieReviewApp/Services/MovieService.cs:244-246 | the same for the grid's own rows |
| MovieService.GridShowsCreators | MovieReviewApp/Services/MovieService.cs:193 | in a consistent database every grid row shows its creator's name and email, never "System" |
| ReviewService.OwnedReviewIndex | MovieReviewApp/Services/ReviewService.cs:48-49 | finds the caller's review with this id, or proves that there is none |
| ReviewService.CreateReview | MovieReviewApp/Services/ReviewService.cs:21-44 | missing movie, then an existing review, refuse with no change; otherwise the review is appended under the next key, unless the database refuses it |
| ReviewService.UpdateReview | MovieReviewApp/Services/ReviewService.cs:46-58 | only the caller's review is found, and only its text changes |
| ReviewService.DeleteReview | MovieReviewApp/Services/ReviewService.cs:60-71 | deletes exactly when the review is the caller's, removing that row only |
| ReviewService.AddedReviewFillsSlot | MovieReviewApp/Services/ReviewService.cs:28-40 | after a review is added its author has reviewed the movie, and the movie has one review more |
| ReviewService.DeletedReviewFreesSlot | MovieReviewApp/Data/ApplicationDbContext.cs:80-82 | with the unique index, deleting a review lets its author review the movie again |
| ReviewService.GetReviewById | MovieReviewApp/Services/ReviewService.cs:73-81 | absent exactly when no review has the id; the rating value is always null |
| ReviewService.GetReviewsForMovie | MovieReviewApp/Services/ReviewService.cs:83-97 | item k is the DTO of review k of page `page` of the movie's reviews ordered newest first; non-empty exactly within the page count |
| ReviewService.EveryReviewOfMovieIsListed | MovieReviewApp/Services/ReviewService.cs:87-94 | every review of the movie is on one of the pages 1..ceil(review count / pageSize) |
| ReviewService.ReviewsShowOwnRating | MovieReviewApp/Services/ReviewService.cs:85-96 | on the movie page each review shows its author's own rating of that movie, or null |
| ReviewService.GetReviewsByUser | MovieReviewApp/Services/ReviewService.cs:99-111 | item k is the DTO (with author and movie, without rating value) of review k of page `page` of the user's reviews ordered newest first |
| ReviewService.EveryReviewByUserIsListed | MovieReviewApp/Services/ReviewService.cs:101-108 | every review the user wrote is on one of the pages 1..ceil(review count / pageSize) |
| ReviewService.GetReviewsCountForMovie | MovieReviewApp/Services/ReviewService.cs:115-120 | 0 exactly when the movie has no review |
| ReviewService.GetReviewsCountByUser | MovieReviewApp/Services/ReviewService.cs:123-128 | 0 exactly when the user has no review |
| ReviewService.CanUserReviewMovie | MovieReviewApp/Services/ReviewService.cs:131-135 | true exactly when the user has no review of the movie |
| RatingService.RatingIndex | MovieReviewApp/Services/RatingService.cs:29-31 | finds the user's rating of the movie, or proves that there is none |
| RatingService.RowIsTheUsersRating | MovieReviewApp/Data/ApplicationDbContext.cs:106-108 | with the unique index, a row is the one rating its user gave its movie |
| RatingService.CreateOrUpdateRating | MovieReviewApp/Services/RatingService.cs:21-51 | missing movie: no change; an existing rating is overwritten with value and date, otherwise a new one is added; afterwards the caller's rating is the new value |
| RatingService.OverwriteRating | MovieReviewApp/Services/RatingService.cs:33-38 | the row keeps its key and gets the new value and date |
| RatingService.AddRating | MovieReviewApp/Services/RatingService.cs:39-47 | a new row under the next key, and the caller's rating is its value |
| RatingService.DeleteRating | MovieReviewApp/Services/RatingService.cs:53-64 | deletes exactly when the caller rated the movie; afterwards the caller has no rating of it |
| RatingService.GetAverageRatingForMovie | MovieReviewApp/Services/RatingService.cs:76-83 | 0 without ratings; between 1 and 5 when the stored ratings are on the scale |
| RatingService.MovieAverageIsMean | MovieReviewApp/Services/RatingService.cs:76-83 | the reported average is the mean of exactly the ratings given to that movie |
| RatingService.MoviePageShowsAverage | MovieReviewApp/Services/MovieService.cs:60-70 | the movie page and the average endpoint report the same mean |
| RatingService.GetUserRatingForMovie | MovieReviewApp/Services/RatingService.cs:66-74 | present exactly when the user rated the movie; its value is that rating and its average is the movie's mean |
| RatingService.GetUserRatingForMovieAsWritten | MovieReviewApp/Services/RatingService.cs:66-74 | present exactly when the user rated the movie |
| RatingService.AsWrittenAverageIsOwnValue | MovieReviewApp/Mappings/AutoMapperProfile.cs:50 | as written, the reported average is the user's own value |
| RatingService.AsWrittenAverageDiffers | MovieReviewApp/Services/RatingService.cs:66-74 | ratings 5 and 1: as written the first user sees an average of 5, while the corrected one is 3 |
| RatingService.GetRatingsByUser | MovieReviewApp/Services/RatingService.cs:85-97 | item k is the DTO, with the movie's mean rating, of rating k of page `page` of the user's ratings ordered newest first |
| RatingService.EveryRatingByUserIsListed | MovieReviewApp/Services/RatingService.cs:87-94 | every rating the user gave is on one of the pages 1..ceil(rating count / pageSize) |
| RatingService.GetRatingsByUserAsWritten | MovieReviewApp/Services/RatingService.cs:85-97 | as written, each reported average is that rating's own value |
| RatingService.RatingsByUserShowMovieMeans | MovieReviewApp/Services/RatingService.cs:85-97 | each corrected DTO carries its movie's mean rating |
| Responses.Envelope | MovieReviewApp/Controllers/MoviesController.cs:34-41 | the page and size are echoed; totalPages is the least page count that holds totalCount |
| Paging.Page | MovieReviewApp/Services/MovieService.cs:217-220 | at most pageSize items; item k of the page is item offset+k of the source |
| Paging.PageNonEmptyIff | MovieReviewApp/Services/MovieService.cs:217-220 | a page is non-empty exactly when its number is within the page count |
| Paging.ItemOnPage | MovieReviewApp/Services/MovieService.cs:217-220 | every item appears on exactly the page k / size + 1 |
| Paging.SortedPage | MovieReviewApp/Services/ReviewService.cs:91-93 | `OrderBy…Skip((page - 1) * pageSize).Take(pageSize)`: exactly page `page` of the ordered rows, so at most pageSize rows of the input, sorted, non-empty exactly within the page count |
| Paging.PageCovers | MovieReviewApp/Services/MovieService.cs:217-220 | every item lies on some page 1..ceil(count / pageSize) |
| Paging.OrderedPageCovers | MovieReviewApp/Services/MovieService.cs:77-79 | paging an ordering skips no row: each row is on some page of it |
| Paging.UniqueKeysCoverAnyTieOrder | MovieReviewApp/Services/MovieService.cs:239-257 | when the sort key identifies its rows, every row is on some page 1..ceil(count / pageSize), whichever sorted order the database gives each page request |
| Paging.TiedRowsCanBeSkipped | MovieReviewApp/Services/MovieService.cs:239-257 | two rows with the same key, one page to a row: page 1 sorted one way and page 2 the other both show the same row, and the other row is never shown |
| Query.SortedOrderIsUnique | MovieReviewApp/Services/ReviewService.cs:91 | two sorted orders of the same rows are equal when the key identifies the rows |
| Query.OrderByIsTheSortedOrder | MovieReviewApp/Services/ReviewService.cs:91 | without ties every sorted permutation of the rows is `OrderBy`'s |
| MoviesController.MovieRequestErrors | MovieReviewApp/DTOs/MovieDtos.cs:5-37 | no errors exactly when title and director are present and within width and genre and description fit |
| MoviesController.AcceptedRequestFits | MovieReviewApp/DTOs/MovieDtos.cs:5-37 | an accepted body always builds a movie that fits its table |
| MoviesController.GetAllMovies | MovieReviewApp/Controllers/MoviesController.cs:28-44 | 200 with the envelope over every movie; items exactly on pages within the count |
| MoviesController.GetById | MovieReviewApp/Controllers/MoviesController.cs:48-56 | 404 exactly when the movie does not exist |
| MoviesController.Search | MovieReviewApp/Controllers/MoviesController.cs:66-82 | the envelope's count is the search count, so its pages match the items |
| MoviesController.GetUserMovies | MovieReviewApp/Controllers/MoviesController.cs:140-147 | a page of the caller's own movies without an envelope |
| MoviesController.GetMoviesForGrid | MovieReviewApp/Controllers/MoviesController.cs:154-176 | 200 with the grid envelope, whose total count is the number of movies passing the search and genre filters; without filters the count is every movie |
| MoviesController.GridDefaultSort | MovieReviewApp/Controllers/MoviesController.cs:158-159 | the default arguments sort by creation date, newest first |
| MoviesController.NewMovieShown | MovieReviewApp/Services/MovieService.cs:60-70 | a just-added movie reads back with its columns, its creator and no reviews or ratings |
| MoviesController.Create | MovieReviewApp/Controllers/MoviesController.cs:89-105 | invalid body: 400 with the fields; unknown caller: 400 with the message; otherwise 201 with the new movie as read back |
| MoviesController.Update | MovieReviewApp/Controllers/MoviesController.cs:107-125 | invalid body: 400; not the caller's: 404; otherwise 200 with the updated movie |
| MoviesController.Delete | MovieReviewApp/Controllers/MoviesController.cs:127-138 | 204 exactly when the caller's movie was deleted with its dependents, else 404 and no change |
| ReviewsController.ReviewRequestErrors | MovieReviewApp/DTOs/ReviewDtos.cs:5-17 | no errors exactly when the text is not blank and at most 2000 characters |
| ReviewsController.AcceptedTextFits | MovieReviewApp/DTOs/ReviewDtos.cs:5-17 | an accepted text fits the column and is non-empty |
| ReviewsController.GetById | MovieReviewApp/Controllers/ReviewsController.cs:20-28 | 404 exactly when no review has the id |
| ReviewsController.GetByMovie | MovieReviewApp/Controllers/ReviewsController.cs:40-56 | 200 with the envelope over the movie's reviews, five to a page by default |
| ReviewsController.GetUserReviews | MovieReviewApp/Controllers/ReviewsController.cs:120-138 | 200 with the envelope over the caller's reviews |
| ReviewsController.CanUserReview | MovieReviewApp/Controllers/ReviewsController.cs:143-150 | true exactly when the caller has not reviewed the movie |
| ReviewsController.ReviewShown | MovieReviewApp/Services/ReviewService.cs:73-81 | a stored review reads back with its text, movie, date, author and title, without a rating |
| ReviewsController.Create | MovieReviewApp/Controllers/ReviewsController.cs:58-74 | 400 for an invalid text, a missing movie, a second review or an unknown caller, with no change; otherwise 201 with the review as read back |
| ReviewsController.Update | MovieReviewApp/Controllers/ReviewsController.cs:76-94 | invalid text: 400; not the caller's: 404; otherwise 200 with the new text |
| ReviewsController.Delete | MovieReviewApp/Controllers/ReviewsController.cs:96-107 | 204 exactly when the caller's review was deleted, else 404 and no change |
| MovieApiClient.GetAllMovies | movie-review-ui/src/app/core/services/movie.service.ts:143-149 | a list request for page 1 and ten movies to a page unless told otherwise |
| MovieApiClient.SearchMovies | movie-review-ui/src/app/core/services/movie.service.ts:179-192 | page 1 and ten to a page unless told otherwise; title, director and genre are all the trimmed term, and absent exactly when the term is blank |
| MovieApiClient.SentSearchTermIsTrimmed | movie-review-ui/src/app/core/services/movie.service.ts:184-188 | a sent term is never empty and never padded |
| MovieApiClient.GetMoviesForGrid | movie-review-ui/src/app/core/services/movie.service.ts:469-491 | page 1, ten to a page and createdDate/desc unless told otherwise; search sent trimmed when not blank; genre sent trimmed unless blank or "all" |
| MovieApiClient.GetReviewsForMovie | movie-review-ui/src/app/core/services/movie.service.ts:256-262 | a reviews request for the movie, for page 1 and four reviews to a page unless told otherwise |
| MovieApiClient.ValidRatingsAreTheFiveStars | movie-review-ui/src/app/core/services/movie.service.ts:435-437 | the check accepts exactly 1, 2, 3, 4 and 5 |
| MovieApiClient.GenreColor | movie-review-ui/src/app/core/services/movie.service.ts:442-464 | the listed colour of a known genre, slate grey otherwise; always a hex colour |
| MovieManagement.ToggledSort | movie-review-ui/src/app/features/movies/movie-management/movie-management.ts:140-150 | the clicked column is selected; descending exactly when it was already ascending |
| MovieManagement.SecondClickReverses | movie-review-ui/src/app/features/movies/movie-management/movie-management.ts:140-150 | clicking the same column again always changes the order |
| MovieManagement.SortIcon | movie-review-ui/src/app/features/movies/movie-management/movie-management.ts:185-189 | no arrow exactly on an inactive column; up exactly when it is ascending |
| MovieManagement.GenreFilter | movie-review-ui/src/app/features/movies/movie-management/movie-management.ts:100-101 | no genre exactly for "All" or no selection |
| MovieManagement.CanEditMovie | movie-review-ui/src/app/features/movies/movie-management/movie-management.ts:192-203 | signed in and the creator's id is the current user's id |
| MovieManagement.AllGenresCountEveryMovie | movie-review-ui/src/app/features/movies/movie-management/movie-management.ts:93-113 | with a blank search and "All", the server counts every movie |
| MovieManagement.MovieManagementPage.constructor | movie-review-ui/src/app/features/movies/movie-management/movie-management.ts:46-65 | newest first, page 1 of 10, every genre, no search |
| MovieManagement.MovieManagementPage.QueryFor | movie-review-ui/src/app/features/movies/movie-management/movie-management.ts:93-113 | a grid request with the current sort, page size and filters |
| MovieManagement.MovieManagementPage.LoadMovies | movie-review-ui/src/app/features/movies/movie-management/movie-management.ts:93-137 | shows the spinner and sends the request for the page (the current one by default) |
| MovieManagement.MovieManagementPage.OnInit | movie-review-ui/src/app/features/movies/movie-management/movie-management.ts:76-89 | the first load requests the current page |
| MovieManagement.MovieManagementPage.OnSort | movie-review-ui/src/app/features/movies/movie-management/movie-management.ts:140-150 | the sort toggles and page 1 is requested |
| MovieManagement.MovieManagementPage.OnPageChange | movie-review-ui/src/app/features/movies/movie-management/movie-management.ts:152-154 | the chosen page is requested under the current controls |
| MovieManagement.MovieManagementPage.OnSearchChanged | movie-review-ui/src/app/features/movies/movie-management/movie-management.ts:80-84 | a new search reloads page 1 |
| MovieManagement.MovieManagementPage.OnGenreChanged | movie-review-ui/src/app/features/movies/movie-management/movie-management.ts:86-88 | a new genre reloads page 1; "All" sends no genre |
| MovieManagement.MovieManagementPage.OnGridResponse | movie-review-ui/src/app/features/movies/movie-management/movie-management.ts:115-129 | the answer's movies and paging replace the shown ones |
| MovieManagement.MovieManagementPage.OnGridError | movie-review-ui/src/app/features/movies/movie-management/movie-management.ts:130-135 | a failure only hides the spinner |
| MovieList.PageRequest | movie-review-ui/src/app/features/movies/movie-list/movie-list.ts:202-227 | the search for a non-blank box, the plain list otherwise, ten to a page |
| MovieList.SearchSendsTrimmedTerm | movie-review-ui/src/app/features/movies/movie-list/movie-list.ts:202-227 | a search request carries the trimmed box |
| MovieList.ClientListDefaultsAreServerDefaults | movie-review-ui/src/app/core/services/movie.service.ts:143-149 | a list request built with the client's defaults is answered as one that sends no paging parameters |
| MovieList.NavigablePagesAreNonEmpty | movie-review-ui/src/app/features/movies/movie-list/movie-list.ts:171-180 | every page the navigation allows is a non-empty page on the server |
| MovieList.MovieListPage.constructor | movie-review-ui/src/app/features/movies/movie-list/movie-list.ts:49-59 | no movies, no pages, empty search box |
| MovieList.MovieListPage.LoadMovies | movie-review-ui/src/app/features/movies/movie-list/movie-list.ts:101-120 | shows the spinner and requests the plain list page |
| MovieList.MovieListPage.OnSearch | movie-review-ui/src/app/features/movies/movie-list/movie-list.ts:202-227 | requests the search or the plain list, as the box decides |
| MovieList.MovieListPage.GoToPage | movie-review-ui/src/app/features/movies/movie-list/movie-list.ts:171-180 | requests only pages between 1 and the page count |
| MovieList.MovieListPage.GoToNextPage | movie-review-ui/src/app/features/movies/movie-list/movie-list.ts:182-187 | moves only from a page before the last |
| MovieList.MovieListPage.GoToPreviousPage | movie-review-ui/src/app/features/movies/movie-list/movie-list.ts:189-194 | moves only from a page after the first |
| MovieList.MovieListPage.ClearSearch | movie-review-ui/src/app/features/movies/movie-list/movie-list.ts:230-233 | clears the box and reloads page 1 of the plain list |
| MovieList.MovieListPage.OnPageResponse | movie-review-ui/src/app/features/movies/movie-list/movie-list.ts:104-113 | the answer's movies and paging replace the shown ones |
| MovieList.MovieListPage.OnPageError | movie-review-ui/src/app/features/movies/movie-list/movie-list.ts:114-118 | a failure only hides the spinner |
| MovieDetail.Choose | movie-review-ui/src/app/features/movies/movie-detail/movie-detail.ts:200-212 | a chosen username is never blank |
| MovieDetail.ChooseStopsAtFirstUnskipped | movie-review-ui/src/app/features/movies/movie-detail/movie-detail.ts:200-212 | the search stops at the first claim it does not pass over; it comes back empty exactly when every claim is passed over |
| MovieDetail.CurrentUsername | movie-review-ui/src/app/features/movies/movie-detail/movie-detail.ts:187-220 | non-empty exactly when signed in, the payload parses and some claim is a usable string |
| MovieDetail.UsernameIsFirstUsableClaim | movie-review-ui/src/app/features/movies/movie-detail/movie-detail.ts:200-212 | the username is the earliest usable claim; a usable `unique_name` always wins |
| MovieDetail.NonStringClaimBlanksUsername | movie-review-ui/src/app/features/movies/movie-detail/movie-detail.ts:212-220 | a truthy non-string claim met first makes the username empty |
| MovieDetail.PostedText | movie-review-ui/src/app/features/movies/movie-detail/movie-detail.ts:322 | the posted text is never longer than the box |
| MovieDetail.PostedTextIsTrimmed | movie-review-ui/src/app/features/movies/movie-detail/movie-detail.ts:322 | the posted text is not padded, and is empty exactly when the box is blank |
| MovieDetail.PaddedShortReviewPasses | movie-review-ui/src/app/features/movies/movie-detail/movie-detail.ts:87-89 | as written, "a" and nine spaces pass the form and the server stores "a" |
| MovieDetail.BlankReviewPassesFormOnly | movie-review-ui/src/app/features/movies/movie-detail/movie-detail.ts:87-89 | as written, ten spaces pass the form and the server refuses the empty post |
| MovieDetail.ValidFormPostsAcceptableText | movie-review-ui/src/app/features/movies/movie-detail/movie-detail.ts:314-323 | under the corrected check the post has 10 to 2000 characters, is trimmed and is not blank |
| MovieDetail.ServerRefusesOnlyBlank | MovieReviewApp/DTOs/ReviewDtos.cs:7-9 | a text within the width is refused exactly when it is blank to .NET |
| MovieDetail.NavigableReviewPagesAreNonEmpty | movie-review-ui/src/app/features/movies/movie-detail/movie-detail.ts:401-406 | every review page the navigation allows is non-empty on the server |
| MovieDetail.ReviewSubmission | movie-review-ui/src/app/features/movies/movie-detail/movie-detail.ts:314-323 | under the corrected form check (10 to 2000 characters in the trimmed text, not the raw box that movie-detail.ts:88 validates): a post exactly when that check passes, the user is signed in and a movie with a non-zero id is shown; it carries the trimmed text, which then has 10 to 2000 characters |
| MovieDetail.ReviewSubmissionAsWritten | movie-review-ui/src/app/features/movies/movie-detail/movie-detail.ts:87-89 | as written: a post exactly when the raw box passes `required`, `minLength(10)` and `maxLength(2000)`, the user is signed in and a movie with a non-zero id is shown; it carries the trimmed text |
| MovieDetail.PaddedReviewPostedOnlyAsWritten | movie-review-ui/src/app/features/movies/movie-detail/movie-detail.ts:314-323 | "a" and nine spaces: as written the page posts the review "a"; under the corrected check it posts nothing |
| MovieDetail.MovieDetailPage.constructor | movie-review-ui/src/app/features/movies/movie-detail/movie-detail.ts:56-90 | no movie yet and the page in its loading state (`loading` starts true), no review, rating or review-page request in flight, an empty form, review paging of five with no pages |
| MovieDetail.MovieDetailPage.IsMovieOwner | movie-review-ui/src/app/features/movies/movie-detail/movie-detail.ts:161-185 | signed in, a movie shown, and its creator name equals the token's username |
| MovieDetail.OwnerHasMatchingClaim | movie-review-ui/src/app/features/movies/movie-detail/movie-detail.ts:176-184 | an owner always has a usable claim equal to the creator's name |
| MovieDetail.MovieDetailPage.LoadMovieDetails | movie-review-ui/src/app/features/movies/movie-detail/movie-detail.ts:128-157 | shows the spinner and requests the movie |
| MovieDetail.MovieDetailPage.LoadReviews | movie-review-ui/src/app/features/movies/movie-detail/movie-detail.ts:367-399 | requests the page of reviews, five to a page |
| MovieDetail.MovieDetailPage.OnMovieLoaded | movie-review-ui/src/app/features/movies/movie-detail/movie-detail.ts:133-143 | shows the movie and requests its first review page |
| MovieDetail.MovieDetailPage.OnMovieError | movie-review-ui/src/app/features/movies/movie-detail/movie-detail.ts:145-155 | a failure only hides the spinner |
| MovieDetail.MovieDetailPage.OnReviewsResponse | movie-review-ui/src/app/features/movies/movie-detail/movie-detail.ts:371-390 | with a movie shown, its reviews and the review paging become the answer's |
| MovieDetail.MovieDetailPage.OnReviewsError | movie-review-ui/src/app/features/movies/movie-detail/movie-detail.ts:393-397 | a failure only hides the review spinner |
| MovieDetail.MovieDetailPage.GoToReviewPage | movie-review-ui/src/app/features/movies/movie-detail/movie-detail.ts:401-406 | requests only pages between 1 and the page count of a shown movie |
| MovieDetail.MovieDetailPage.GoToNextReviewPage | movie-review-ui/src/app/features/movies/movie-detail/movie-detail.ts:408-413 | moves only from a page before the last |
| MovieDetail.MovieDetailPage.GoToPreviousReviewPage | movie-review-ui/src/app/features/movies/movie-detail/movie-detail.ts:415-420 | moves only from a page after the first |
| MovieDetail.MovieDetailPage.OnSubmitReview | movie-review-ui/src/app/features/movies/movie-detail/movie-detail.ts:314-340 | posts the trimmed review exactly when the corrected form check and the guards pass |
| MovieDetail.MovieDetailPage.OnReviewPosted | movie-review-ui/src/app/features/movies/movie-detail/movie-detail.ts:326-331 | resets the form and reloads the first review page |
| MovieDetail.MovieDetailPage.OnReviewPostError | movie-review-ui/src/app/features/movies/movie-detail/movie-detail.ts:333-338 | the form keeps its text |
| MovieDetail.MovieDetailPage.OnRatingClick | movie-review-ui/src/app/features/movies/movie-detail/movie-detail.ts:281-311 | signed out: nothing; signed in: the star is selected and posted for a shown movie |
| MovieDetail.MovieDetailPage.OnRatingPosted | movie-review-ui/src/app/features/movies/movie-detail/movie-detail.ts:299-304 | the movie is requested again |
| MovieDetail.MovieDetailPage.OnRatingPostError | movie-review-ui/src/app/features/movies/movie-detail/movie-detail.ts:305-309 | a failure only hides the rating spinner |

## Left out

- Authentication is not modelled.
  - The caller's id is a parameter.
  - The JWT payload reaches the detail page as a `Payload` value; base64 and JSON decoding are not modelled.
  - `AuthController`, `AuthService` (except the user-profile query) and `RatingsController` are not part of this model.
- Asynchrony, the HTTP transport and EF Core query translation become plain function and method calls.
- `Program.cs` and the configuration are not part of this model. The other UI files (home, carousel, header, login, register, add-movie, routes and guard) are not part of this model either.
- Time is not modelled.
  - The clock is a `now` parameter.
  - Dates are integers, and creation dates are compared as integers.
  - `setTimeout`, debounce times and the minimum spinner times are not modelled.
- Doubles are exact reals: averages are exact means, with no rounding.
- Some display helpers are not modelled: `getStars`, `getStarsArray` and `formatDate`.
- Logging and UI side effects are not modelled.
  - `console.log` output and snack-bar messages are left out.
  - Router navigation is left out: route parsing in `ngOnInit`, edit, delete with `confirm`, and going back.
  - Commented-out code is left out.
- Paging arguments below 1 are excluded by the `requires` of the list functions; the source does not guard them.
- Every page request sorts on its own in the database, which promises no order among rows with equal keys and may break ties differently for each request. The model breaks ties one fixed way, the same for every request. So the skip-free paging that `Paging.OrderedPageCovers`, `MovieService.EveryMovieIsListed`, `MovieService.SearchListsEveryHit`, `MovieService.EveryMovieOfUserIsListed`, `MovieService.GridListsEveryMatch`, `ReviewService.EveryReviewOfMovieIsListed`, `ReviewService.EveryReviewByUserIsListed` and `RatingService.EveryRatingByUserIsListed` state holds for the database only when the sort key identifies its rows (`Paging.UniqueKeysCoverAnyTieOrder`). The grid's title, director, genre, average and review-count keys tie routinely, and then a row can be shown twice and another never (`Paging.TiedRowsCanBeSkipped`).
- Some text handling is approximated.
  - Text lengths count Unicode code points (Dafny `char`s). .NET's `MaxLength`/`StringLength`, the `nvarchar(n)` columns and JavaScript's `minLength` count UTF-16 code units, so a text with characters outside the Basic Multilingual Plane is shorter in the model than in the source. This applies to `MoviesController.MovieRequestErrors`, `ReviewsController.ReviewRequestErrors`, `MoviesController.AcceptedRequestFits`, `Schema.MovieFits`, `Schema.ReviewFits` and `MovieDetail.ReviewFormValidAsWritten`.
  - `ToLower` lower-cases ASCII letters only.
  - String ordering is ordinal, not the database collation.
  - Whether `SearchMoviesAsync`'s `Contains` ignores case depends on the database collation, so it is the parameter `caseInsensitive`.
- The paging envelope names its list `movies` or `reviews` in the source. The model's `Paged` calls it `items`.
- Query-string binding is not modelled. A parameter is either absent or a given string.
- The `Range(1, 5)` annotation on rating requests belongs to `RatingsController` and is not enforced by the database, so the service accepts any value. The model keeps that, and `OnScale` is an assumption of the bounds lemmas.
- MovieApiClient.GenreColor: looks genres up in a map. JavaScript's `colors[genre]` would also find inherited keys such as `constructor`; these are not modelled.
- MovieApiClient.ValidRatingsAreTheFiveStars: is over real numbers. `NaN` and values that are not numbers are not modelled.
- MovieDetail.MovieDetailPage.IsMovieOwner: answers false when the movie has no creator name. In the source, the debug log at movie-detail.ts:182 would throw on a null name first.
- RatingService.GetUserRatingForMovieAsWritten: states only when a DTO is present. Its average is stated by `AsWrittenAverageIsOwnValue`.
- MovieService.GetMovieById: states each review's rating value as the mapper computes it from the loaded ratings. That it is the author's own rating is stated by `MovieService.MovieDetailShowsOwnRatings`, for a consistent database.
- Entities.AverageRating: states only its value without ratings and its range. That it is the mean is stated by `Entities.AverageIsMean`.
- RatingService.GetAverageRatingForMovie: states only its value without ratings and its range. That it is the mean of the movie's ratings is stated by `RatingService.MovieAverageIsMean`.
- Store.Context: tracks no entities. Each command is a single change set that is applied at once or not at all.

## Findings

| source | as written | input that shows it | evidently intended | confidence | as-written member | corrected member |
|---|---|---|---|---|---|---|
| MovieReviewApp/Services/RatingService.cs:66-74 | the rating DTO's `AverageRating` comes from `Movie.AverageRating` over `Movie.Ratings`, which holds only the one tracked rating | two users rate movie 1 with 5 and 1; the first user's DTO reports 5.0 | the movie's mean rating, 3.0 | not executed | RatingService.AsWrittenAverageDiffers | RatingService.GetUserRatingForMovie |
| MovieReviewApp/Services/RatingService.cs:85-97 | each DTO's average is computed over the user's own rating of that movie | any user whose rated movie also has another user's different rating | each DTO carries the movie's mean rating | not executed | RatingService.GetRatingsByUserAsWritten | RatingService.RatingsByUserShowMovieMeans |
| movie-review-ui/src/app/features/movies/movie-detail/movie-detail.ts:88 | `minLength(10)` checks the untrimmed box, but line 322 posts the trimmed text | "a" followed by nine spaces passes the form; the server stores "a" | the 10-character minimum applies to the text that is posted | not executed | MovieDetail.PaddedReviewPostedOnlyAsWritten | MovieDetail.ReviewSubmission |

=== FILE: entities.dfy ===
/**
 * The entities of the catalogue (`ApplicationUser`, `Movie`, `Review`, `Rating`) as values,
 * the database as four tables of them, and the computed properties of `Movie`.
 * Timestamps are clock readings in ticks; user ids are Identity's string keys.
 */
module Entities {
  import opened Wrappers
  import opened Query

  type UserId = string

  datatype User = User(
    id: UserId,
    userName: string,
    email: Option<string>,
    firstName: Option<string>,
    lastName: Option<string>,
    createdDate: int)

  datatype Movie = Movie(
    id: int,
    title: string,
    director: string,
    genre: Option<string>,
    description: Option<string>,
    createdDate: int,
    createdBy: UserId)

  datatype Review = Review(id: int, text: string, createdDate: int, movieId: int, userId: UserId)

  datatype Rating = Rating(id: int, value: int, createdDate: int, movieId: int, userId: UserId)

  /** The database: each table in storage order. */
  datatype Db = Db(users: seq<User>, movies: seq<Movie>, reviews: seq<Review>, ratings: seq<Rating>)

  // Keys, as functions so that tables can be compared and filtered by them.

  function UserKey(u: User): UserId { u.id }
  function MovieKey(m: Movie): int { m.id }
  function ReviewKey(r: Review): int { r.id }
  function RatingKey(r: Rating): int { r.id }
  /** The (UserId, MovieId) pair a review's unique index is over. */
  function ReviewPair(r: Review): (UserId, int) { (r.userId, r.movieId) }
  /** The (UserId, MovieId) pair a rating's unique index is over. */
  function RatingPair(r: Rating): (UserId, int) { (r.userId, r.movieId) }

  // Navigation collections: what `Movie.Reviews`, `ApplicationUser.Ratings` and the
  // like hold when they are loaded in full.

  function ReviewsOfMovie(reviews: seq<Review>, movieId: int): (r: seq<Review>)
    ensures forall i :: 0 <= i < |r| ==> r[i].movieId == movieId && r[i] in reviews
  {
    Where(reviews, (rv: Review) => rv.movieId == movieId)
  }

  function RatingsOfMovie(ratings: seq<Rating>, movieId: int): (r: seq<Rating>)
    ensures forall i :: 0 <= i < |r| ==> r[i].movieId == movieId && r[i] in ratings
  {
    Where(ratings, (rt: Rating) => rt.movieId == movieId)
  }

  function MoviesByUser(movies: seq<Movie>, userId: UserId): (r: seq<Movie>)
    ensures forall i :: 0 <= i < |r| ==> r[i].createdBy == userId && r[i] in movies
  {
    Where(movies, (m: Movie) => m.createdBy == userId)
  }

  function ReviewsByUser(reviews: seq<Review>, userId: UserId): (r: seq<Review>)
    ensures forall i :: 0 <= i < |r| ==> r[i].userId == userId && r[i] in reviews
  {
    Where(reviews, (rv: Review) => rv.userId == userId)
  }

  function RatingsByUser(ratings: seq<Rating>, userId: UserId): (r: seq<Rating>)
    ensures forall i :: 0 <= i < |r| ==> r[i].userId == userId && r[i] in ratings
  {
    Where(ratings, (rt: Rating) => rt.userId == userId)
  }

  /** The value of the user's rating of the movie, read straight from the Ratings table. */
  function RatingOf(ratings: seq<Rating>, userId: UserId, movieId: int): (r: Option<int>)
    ensures r.None? <==> forall i :: 0 <= i < |ratings| ==> RatingPair(ratings[i]) != (userId, movieId)
    ensures r.Some? ==> exists i | 0 <= i < |ratings| :: RatingPair(ratings[i]) == (userId, movieId) && ratings[i].value == r.value
  {
    match FirstWhere(ratings, (rt: Rating) => RatingPair(rt) == (userId, movieId))
    case None => None
    case Some(rt) => Some(rt.value)
  }

  /** The user with this id, if the table holds one. */
  function FindUser(users: seq<User>, id: UserId): (r: Option<User>)
    ensures r.Some? ==> r.value.id == id && r.value in users
    ensures r.None? <==> forall i :: 0 <= i < |users| ==> users[i].id != id
  {
    FirstWhere(users, (u: User) => u.id == id)
  }

  /** The movie with this id, if the table holds one. */
  function FindMovie(movies: seq<Movie>, id: int): (r: Option<Movie>)
    ensures r.Some? ==> r.value.id == id && r.value in movies
    ensures r.None? <==> forall i :: 0 <= i < |movies| ==> movies[i].id != id
  {
    FirstWhere(movies, (m: Movie) => m.id == id)
  }

  /** Sum of the rating values. */
  function SumValues(rs: seq<Rating>): int {
    if rs == [] then 0 else rs[0].value + SumValues(rs[1..])
  }

  /** Every value lies on the 1..5 scale that the `Range(1, 5)` annotation asks for. */
  predicate OnScale(rs: seq<Rating>) {
    forall i :: 0 <= i < |rs| ==> 1 <= rs[i].value <= 5
  }

  lemma OnScaleReplaced(rs: seq<Rating>, k: nat, rt: Rating)
    requires k < |rs|
    ensures OnScale(rs) && 1 <= rt.value <= 5 ==> OnScale(rs[k := rt])
  {
  }

  lemma OnScaleAppended(rs: seq<Rating>, rt: Rating)
    ensures OnScale(rs) && 1 <= rt.value <= 5 ==> OnScale(rs + [rt])
  {
  }

  /** The ratings of one movie are on the scale when all ratings are. */
  lemma OnScaleOfMovie(ratings: seq<Rating>, movieId: int)
    ensures OnScale(ratings) ==> OnScale(RatingsOfMovie(ratings, movieId))
  {
    if OnScale(ratings) {
      var rs := RatingsOfMovie(ratings, movieId);
      forall i | 0 <= i < |rs| ensures 1 <= rs[i].value <= 5 {
        var j :| 0 <= j < |ratings| && ratings[j] == rs[i];
      }
    }
  }

  /**
   * `Movie.AverageRating` over a loaded `Ratings` collection: the mean of the values,
   * 0 when there are none. Exact; the source's double is not modelled.
   */
  function AverageRating(rs: seq<Rating>): (r: real)
    ensures rs == [] ==> r == 0.0
    ensures rs != [] && OnScale(rs) ==> 1.0 <= r <= 5.0
  {
    if rs == [] then 0.0
    else
      var n := |rs| as real;
      var a := SumValues(rs) as real / n;
      if OnScale(rs) then
        SumValuesBounds(rs);
        MeanBetween(a, n, SumValues(rs) as real, 1.0, 5.0);
        a
      else a
  }

  /** `a` is the mean of non-empty `rs`: times the number of ratings it gives back their total. */
  predicate IsMean(a: real, rs: seq<Rating>) {
    rs != [] && a * (|rs| as real) == SumValues(rs) as real
  }

  /** The average of some ratings is their mean. */
  lemma AverageIsMean(rs: seq<Rating>)
    requires rs != []
    ensures IsMean(AverageRating(rs), rs)
  {
  }

  /** `Movie.ReviewCount` over a loaded `Reviews` collection. */
  function ReviewCount(reviews: seq<Review>): nat {
    |reviews|
  }

  lemma {:induction false} SumValuesBounds(rs: seq<Rating>)
    requires OnScale(rs)
    ensures |rs| <= SumValues(rs) <= 5 * |rs|
  {
    if rs != [] {
      assert OnScale(rs[1..]) by {
        forall i | 0 <= i < |rs[1..]| ensures 1 <= rs[1..][i].value <= 5 {
          assert rs[1..][i] == rs[i + 1];
        }
      }
      SumValuesBounds(rs[1..]);
    }
  }

  /** A mean `a = s / n` of a total between `lo * n` and `hi * n` lies between `lo` and `hi`. */
  lemma MeanBetween(a: real, n: real, s: real, lo: real, hi: real)
    requires n > 0.0 && a * n == s && lo * n <= s <= hi * n
    ensures lo <= a <= hi
  {
    if a < lo {
      MulPositive(lo - a, n);
    }
    if a > hi {
      MulPositive(a - hi, n);
    }
  }

  lemma MulPositive(x: real, y: real)
    requires x > 0.0 && y > 0.0
    ensures x * y > 0.0
  {
  }

  /** A single rating averages to its own value. */
  lemma AverageOfOne(rt: Rating)
    ensures AverageRating([rt]) == rt.value as real
  {
    assert SumValues([rt]) == rt.value by {
      assert [rt][1..] == [];
    }
  }
}

=== FILE: mapping.dfy ===
/**
 * The DTOs and the projection rules of `AutoMapperProfile`. A projection reads an entity
 * together with the navigations the query loaded (a navigation that was not loaded is
 * `None` or an empty collection), because the mapper only sees what is in memory; a
 * member access through a missing navigation maps to null.
 */
module Mapping {
  import opened Wrappers
  import opened Query
  import opened Entities

  /** A movie and what the query loaded of `CreatedByUser`, `Reviews` and `Ratings`. */
  datatype LoadedMovie = LoadedMovie(movie: Movie, creator: Option<User>, reviews: seq<Review>, ratings: seq<Rating>)

  /** A review and what the query loaded of `User`, `Movie` and `User.Ratings`. */
  datatype LoadedReview = LoadedReview(review: Review, user: Option<User>, movie: Option<Movie>, userRatings: seq<Rating>)

  /** A rating and what the query loaded of `User`, `Movie` and `Movie.Ratings`. */
  datatype LoadedRating = LoadedRating(rating: Rating, user: Option<User>, movie: Option<Movie>, movieRatings: seq<Rating>)

  datatype MovieSummaryDto = MovieSummaryDto(
    movieId: int,
    title: string,
    director: string,
    genre: Option<string>,
    averageRating: real,
    reviewCount: nat,
    createdDate: int,
    createdByUserId: UserId,
    createdByUserName: string,
    createdByUserEmail: Option<string>)

  datatype ReviewDto = ReviewDto(
    reviewId: int,
    reviewText: string,
    createdDate: int,
    userName: Option<string>,
    movieId: int,
    movieTitle: Option<string>,
    ratingValue: Option<int>)

  datatype MovieDto = MovieDto(
    movieId: int,
    title: string,
    director: string,
    genre: Option<string>,
    description: Option<string>,
    averageRating: real,
    reviewCount: nat,
    createdDate: int,
    createdByUserName: Option<string>,
    reviews: seq<ReviewDto>)

  datatype RatingDto = RatingDto(
    ratingId: int,
    ratingValue: int,
    averageRating: real,
    createdDate: int,
    userName: Option<string>,
    movieId: int,
    movieTitle: Option<string>)

  datatype UserProfileDto = UserProfileDto(
    id: UserId,
    userName: string,
    email: Option<string>,
    firstName: Option<string>,
    lastName: Option<string>,
    moviesAddedCount: nat,
    reviewsCount: nat,
    ratingsCount: nat)

  /** The body of a create or update request for a movie (the two request types agree). */
  datatype MovieRequest = MovieRequest(title: string, director: string, genre: Option<string>, description: Option<string>)

  /**
   * `Movie -> MovieSummaryDto`: the creator's name and email, or "System" and null when the
   * creator was not loaded; the computed average and review count.
   */
  function ToMovieSummary(lm: LoadedMovie): (d: MovieSummaryDto)
    ensures d.movieId == lm.movie.id && d.title == lm.movie.title && d.director == lm.movie.director
    ensures d.genre == lm.movie.genre && d.createdDate == lm.movie.createdDate
    ensures d.createdByUserId == lm.movie.createdBy
    ensures lm.creator.None? ==> d.createdByUserName == "System" && d.createdByUserEmail.None?
    ensures lm.creator.Some? ==>
      d.createdByUserName == lm.creator.value.userName && d.createdByUserEmail == lm.creator.value.email
    ensures lm.ratings == [] ==> d.averageRating == 0.0
    ensures lm.ratings != [] && OnScale(lm.ratings) ==> 1.0 <= d.averageRating <= 5.0
    ensures d.averageRating == AverageRating(lm.ratings)
    ensures d.reviewCount == |lm.reviews|
  {
    var m := lm.movie;
    MovieSummaryDto(
      m.id, m.title, m.director, m.genre,
      AverageRating(lm.ratings), ReviewCount(lm.reviews), m.createdDate, m.createdBy,
      if lm.creator.Some? then lm.creator.value.userName else "System",
      if lm.creator.Some? then lm.creator.value.email else None)
  }

  /**
   * `Review -> ReviewDto`: the reviewer's name, the movie's title, and the value of the first
   * loaded rating of the reviewer that is for the same movie (null when there is none).
   */
  function ToReviewDto(lr: LoadedReview): (d: ReviewDto)
    ensures d.reviewId == lr.review.id && d.reviewText == lr.review.text
    ensures d.createdDate == lr.review.createdDate && d.movieId == lr.review.movieId
    ensures d.userName.Some? <==> lr.user.Some?
    ensures lr.user.Some? ==> d.userName == Some(lr.user.value.userName)
    ensures d.movieTitle.Some? <==> lr.movie.Some?
    ensures lr.movie.Some? ==> d.movieTitle == Some(lr.movie.value.title)
    ensures d.ratingValue.None? <==>
      lr.user.None? || forall i :: 0 <= i < |lr.userRatings| ==> lr.userRatings[i].movieId != lr.review.movieId
    ensures d.ratingValue.Some? ==>
      exists i | 0 <= i < |lr.userRatings| ::
        lr.userRatings[i].movieId == lr.review.movieId && lr.userRatings[i].value == d.ratingValue.value
  {
    var r := lr.review;
    var own := FirstWhere(lr.userRatings, (rt: Rating) => rt.movieId == r.movieId);
    ReviewDto(
      r.id, r.text, r.createdDate,
      if lr.user.Some? then Some(lr.user.value.userName) else None,
      r.movieId,
      if lr.movie.Some? then Some(lr.movie.value.title) else None,
      if lr.user.Some? && own.Some? then Some(own.value.value) else None)
  }

  /** `Movie -> MovieDto`, with the already projected reviews. */
  function ToMovieDto(lm: LoadedMovie, reviews: seq<ReviewDto>): (d: MovieDto)
    ensures d.movieId == lm.movie.id && d.title == lm.movie.title && d.director == lm.movie.director
    ensures d.genre == lm.movie.genre && d.description == lm.movie.description
    ensures d.createdDate == lm.movie.createdDate && d.reviews == reviews
    ensures d.createdByUserName.Some? <==> lm.creator.Some?
    ensures lm.creator.Some? ==> d.createdByUserName == Some(lm.creator.value.userName)
    ensures d.averageRating == ToMovieSummary(lm).averageRating
    ensures d.reviewCount == ToMovieSummary(lm).reviewCount
  {
    var m := lm.movie;
    MovieDto(
      m.id, m.title, m.director, m.genre, m.description,
      AverageRating(lm.ratings), ReviewCount(lm.reviews), m.createdDate,
      if lm.creator.Some? then Some(lm.creator.value.userName) else None,
      reviews)
  }

  /**
   * `Rating -> RatingDto`: the rater's name, the movie's title, and `Movie.AverageRating`
   * over the movie's loaded ratings (0 when the movie was not loaded).
   */
  function ToRatingDto(lr: LoadedRating): (d: RatingDto)
    ensures d.ratingId == lr.rating.id && d.ratingValue == lr.rating.value
    ensures d.createdDate == lr.rating.createdDate && d.movieId == lr.rating.movieId
    ensures lr.user.Some? ==> d.userName == Some(lr.user.value.userName)
    ensures lr.user.None? ==> d.userName.None?
    ensures lr.movie.Some? ==> d.movieTitle == Some(lr.movie.value.title)
    ensures lr.movie.None? ==> d.movieTitle.None? && d.averageRating == 0.0
    ensures lr.movie.Some? ==> d.averageRating == AverageRating(lr.movieRatings)
  {
    var rt := lr.rating;
    RatingDto(
      rt.id, rt.value,
      if lr.movie.Some? then AverageRating(lr.movieRatings) else 0.0,
      rt.createdDate,
      if lr.user.Some? then Some(lr.user.value.userName) else None,
      rt.movieId,
      if lr.movie.Some? then Some(lr.movie.value.title) else None)
  }

  /** `ApplicationUser -> UserProfileDto`: the sizes of the loaded collections. */
  function ToUserProfile(u: User, movies: seq<Movie>, reviews: seq<Review>, ratings: seq<Rating>): (d: UserProfileDto)
    ensures d.id == u.id && d.userName == u.userName && d.email == u.email
    ensures d.moviesAddedCount == |movies| && d.reviewsCount == |reviews| && d.ratingsCount == |ratings|
  {
    UserProfileDto(u.id, u.userName, u.email, u.firstName, u.lastName, |movies|, |reviews|, |ratings|)
  }

  /** `GetUserProfileAsync`: the user with `Movies`, `Reviews` and `Ratings` loaded in full. */
  function UserProfile(db: Db, userId: UserId): (r: Option<UserProfileDto>)
    ensures r.None? <==> forall i :: 0 <= i < |db.users| ==> db.users[i].id != userId
    ensures r.Some? ==>
      && r.value.id == userId
      && r.value.moviesAddedCount == |MoviesByUser(db.movies, userId)|
      && r.value.reviewsCount == |ReviewsByUser(db.reviews, userId)|
      && r.value.ratingsCount == |RatingsByUser(db.ratings, userId)|
  {
    match FindUser(db.users, userId)
    case None => None
    case Some(u) =>
      Some(ToUserProfile(u, MoviesByUser(db.movies, userId), ReviewsByUser(db.reviews, userId),
                         RatingsByUser(db.ratings, userId)))
  }
}

=== FILE: movie_api_client.dfy ===
/**
 * The browser's `MovieService` (movie.service.ts): the query strings it sends to the API
 * and its two value helpers, the rating check and the genre colour. A request is the
 * endpoint and the immutable `HttpParams` built for it, as a map from parameter name to
 * value; the HTTP transport itself is not part of this model.
 */
module MovieApiClient {
  import opened Wrappers
  import opened Text

  /**
   * A request and the query parameters set on it; an optional parameter is `None` when the
   * client leaves it out of the `HttpParams`.
   */
  datatype Request =
    | AllMoviesQuery(page: int, pageSize: int)
    | SearchQuery(page: int, pageSize: int, title: Option<string>, director: Option<string>, genre: Option<string>)
    | GridQuery(page: int, pageSize: int, sortBy: string, sortOrder: string, search: Option<string>, genre: Option<string>)
    | ReviewsQuery(movieId: int, page: int, pageSize: int)

  /** The paging record the components keep from the last envelope they received. */
  datatype PaginationInfo = PaginationInfo(totalCount: int, currentPage: int, pageSize: int, totalPages: int)

  const DefaultSortBy := "createdDate"
  const DefaultSortOrder := "desc"
  const ListDefaultPageSize := 10
  const ReviewsDefaultPageSize := 4

  /** `getAllMovies(page, pageSize)`: `GET /movies`, page 1 and ten to a page unless told otherwise. */
  function GetAllMovies(page: Option<int>, pageSize: Option<int>): (r: Request)
    ensures r.AllMoviesQuery?
    ensures page.None? ==> r.page == 1
    ensures page.Some? ==> r.page == page.value
    ensures pageSize.None? ==> r.pageSize == ListDefaultPageSize
    ensures pageSize.Some? ==> r.pageSize == pageSize.value
  {
    AllMoviesQuery(page.GetOr(1), pageSize.GetOr(ListDefaultPageSize))
  }

  /**
   * `searchMovies(term, page, pageSize)`: the paging parameters always; `title`, `director`
   * and `genre`, all the trimmed term, only when the trimmed term is not empty. Page 1 and
   * ten to a page unless told otherwise.
   */
  function SearchMovies(term: string, page: Option<int>, pageSize: Option<int>): (r: Request)
    ensures r.SearchQuery?
    ensures page.None? ==> r.page == 1
    ensures page.Some? ==> r.page == page.value
    ensures pageSize.None? ==> r.pageSize == ListDefaultPageSize
    ensures pageSize.Some? ==> r.pageSize == pageSize.value
    ensures r.title.None? <==> AllSpace(JavaScript, term)
    ensures r.title == r.director == r.genre
    ensures r.title.Some? ==> r.title.value == Trim(JavaScript, term)
  {
    TrimEmptyIffAllSpace(JavaScript, term);
    var t := Trim(JavaScript, term);
    var term := if t != [] then Some(t) else None;
    SearchQuery(page.GetOr(1), pageSize.GetOr(ListDefaultPageSize), term, term, term)
  }

  /**
   * `getMoviesForGrid(page, pageSize, sortBy, sortOrder, search, genre)`: paging and sort
   * parameters always (page 1, ten to a page, sorting by creation date, descending, unless
   * told otherwise); the trimmed search when it is not blank; the trimmed genre unless it is
   * blank or exactly "all".
   */
  function GetMoviesForGrid(page: Option<int>, pageSize: Option<int>, sortBy: Option<string>, sortOrder: Option<string>,
                            search: Option<string>, genre: Option<string>): (r: Request)
    ensures r.GridQuery?
    ensures page.None? ==> r.page == 1
    ensures page.Some? ==> r.page == page.value
    ensures pageSize.None? ==> r.pageSize == ListDefaultPageSize
    ensures pageSize.Some? ==> r.pageSize == pageSize.value
    ensures sortBy.None? ==> r.sortBy == DefaultSortBy
    ensures sortBy.Some? ==> r.sortBy == sortBy.value
    ensures sortOrder.None? ==> r.sortOrder == DefaultSortOrder
    ensures sortOrder.Some? ==> r.sortOrder == sortOrder.value
    ensures r.search.Some? <==> TrimsToText(search)
    ensures r.search.Some? ==> r.search.value == Trim(JavaScript, search.value)
    ensures r.genre.Some? <==> TrimsToText(genre) && genre.value != "all"
    ensures r.genre.Some? ==> r.genre.value == Trim(JavaScript, genre.value)
  {
    GridQuery(page.GetOr(1), pageSize.GetOr(ListDefaultPageSize), sortBy.GetOr(DefaultSortBy), sortOrder.GetOr(DefaultSortOrder),
              if TrimsToText(search) then Some(Trim(JavaScript, search.value)) else None,
              if TrimsToText(genre) && genre.value != "all" then Some(Trim(JavaScript, genre.value)) else None)
  }

  /**
   * `getReviewsForMovie(movieId, page, pageSize)`: `GET /reviews/movie/{movieId}`, page 1 and
   * four to a page unless told otherwise.
   */
  function GetReviewsForMovie(movieId: int, page: Option<int>, pageSize: Option<int>): (r: Request)
    ensures r.ReviewsQuery? && r.movieId == movieId
    ensures page.None? ==> r.page == 1
    ensures page.Some? ==> r.page == page.value
    ensures pageSize.None? ==> r.pageSize == ReviewsDefaultPageSize
    ensures pageSize.Some? ==> r.pageSize == pageSize.value
  {
    ReviewsQuery(movieId, page.GetOr(1), pageSize.GetOr(ReviewsDefaultPageSize))
  }

  /** A search term the client sends is never blank and never padded: the box is trimmed first. */
  lemma SentSearchTermIsTrimmed(term: string, page: Option<int>, pageSize: Option<int>)
    ensures var q := SearchMovies(term, page, pageSize);
      q.title.Some? ==> q.title.value != [] && Trim(JavaScript, q.title.value) == q.title.value
  {
    TrimIdempotent(JavaScript, term);
  }

  /** `isAuthenticated()`: a stored token that is not the empty string. */
  predicate IsAuthenticated(token: Option<string>) {
    token.Some? && token.value != []
  }

  /** `isValidRating`: one of the five whole stars. */
  predicate IsValidRating(x: real) {
    1.0 <= x <= 5.0 && x.Floor as real == x
  }

  /** The rating check accepts exactly the values 1, 2, 3, 4 and 5. */
  lemma ValidRatingsAreTheFiveStars(x: real)
    ensures IsValidRating(x) <==> x == 1.0 || x == 2.0 || x == 3.0 || x == 4.0 || x == 5.0
  {
    if IsValidRating(x) {
      var k := x.Floor;
      assert 1 <= k <= 5;
      assert x == k as real;
    }
  }

  const DefaultGenreColor := "#64748b"

  const GenreColors: map<string, string> := map[
    "Action" := "#ef4444",
    "Adventure" := "#f97316",
    "Animation" := "#eab308",
    "Comedy" := "#84cc16",
    "Crime" := "#22c55e",
    "Documentary" := "#06b6d4",
    "Drama" := "#3b82f6",
    "Family" := "#8b5cf6",
    "Fantasy" := "#a855f7",
    "Horror" := "#e11d48",
    "Music" := "#f59e0b",
    "Mystery" := "#64748b",
    "Romance" := "#ec4899",
    "Sci-Fi" := "#10b981",
    "Thriller" := "#6366f1",
    "War" := "#dc2626",
    "Western" := "#92400e"
  ]

  predicate IsHexDigit(c: char) {
    '0' <= c <= '9' || 'a' <= c <= 'f'
  }

  /** A CSS colour `#rrggbb` in lower-case hex. */
  predicate IsHexColor(s: string) {
    |s| == 7 && s[0] == '#' && forall i :: 1 <= i < 7 ==> IsHexDigit(s[i])
  }

  /** `getGenreColor`: the listed colour of a known genre (matched exactly), the slate grey otherwise. */
  function GenreColor(genre: string): (r: string)
    ensures genre in GenreColors ==> r == GenreColors[genre]
    ensures genre !in GenreColors ==> r == DefaultGenreColor
    ensures IsHexColor(r)
  {
    if genre in GenreColors then GenreColors[genre] else DefaultGenreColor
  }
}

=== FILE: movie_detail.dfy ===
/**
 * The movie page (movie-detail.ts): the movie with one page of its reviews (five to a
 * page), the review form, the star rating, and the two client-side questions "may I add a
 * review" and "is this my movie". Requests are recorded when issued; answers arrive through
 * the `On…` methods. The auth service's stored token is the field `token`; decoding its
 * payload is outside the model and arrives as a `Payload` value.
 */
module MovieDetail {
  import opened Wrappers
  import opened Text
  import opened Mapping
  import opened Responses
  import opened MovieApiClient
  import Entities
  import ReviewsController

  const ReviewsPageSize := 5

  // ------------------------------------------------------------ the current username

  /**
   * One claim of the token's payload as the username search sees it: a string, or any other
   * JSON value together with its JavaScript truthiness.
   */
  datatype Claim = TextClaim(text: string) | OtherClaim(truthy: bool)

  /** The payload of the token, or a token whose payload part could not be decoded or parsed. */
  datatype Payload = Undecodable | Claims(claims: map<string, Claim>)

  /** The claims tried for the username, in order. */
  const UsernameClaims: seq<string> := ["unique_name", "username", "name", "sub", "email", "UniqueName", "UserName"]

  /**
   * The outcome of `possibleUsernames.find(u => u && u.trim())`: a string claim, no claim
   * at all, or a truthy non-string claim, whose `trim` call throws.
   */
  datatype Choice = Chosen(name: string) | Exhausted | Failed

  /** A claim the search passes over: absent, a blank string, or a falsy value. */
  predicate Skipped(claims: map<string, Claim>, key: string) {
    || key !in claims
    || (claims[key].TextClaim? && AllSpace(JavaScript, claims[key].text))
    || (claims[key].OtherClaim? && !claims[key].truthy)
  }

  /** The search over the listed claims, first to last; the chosen string is returned untrimmed. */
  function Choose(claims: map<string, Claim>, keys: seq<string>): (c: Choice)
    ensures c.Chosen? ==> !AllSpace(JavaScript, c.name) && c.name != []
    decreases |keys|
  {
    if keys == [] then Exhausted
    else if keys[0] !in claims then Choose(claims, keys[1..])
    else match claims[keys[0]]
      case TextClaim(s) =>
        if Trim(JavaScript, s) != [] then
          TrimEmptyIffAllSpace(JavaScript, s);
          Chosen(s)
        else Choose(claims, keys[1..])
      case OtherClaim(truthy) =>
        if truthy then Failed else Choose(claims, keys[1..])
  }

  /**
   * The search stops at the first claim it does not pass over: a string claim is the name,
   * a truthy non-string claim is a failure, and only when every claim is passed over does
   * the search come back empty.
   */
  lemma {:induction false} ChooseStopsAtFirstUnskipped(claims: map<string, Claim>, keys: seq<string>)
    ensures Choose(claims, keys).Exhausted? <==> forall i :: 0 <= i < |keys| ==> Skipped(claims, keys[i])
    ensures Choose(claims, keys).Chosen? ==>
      exists k :: 0 <= k < |keys| && keys[k] in claims && claims[keys[k]] == TextClaim(Choose(claims, keys).name) &&
        forall j :: 0 <= j < k ==> Skipped(claims, keys[j])
    ensures Choose(claims, keys).Failed? ==>
      exists k :: 0 <= k < |keys| && keys[k] in claims && claims[keys[k]] == OtherClaim(true) &&
        forall j :: 0 <= j < k ==> Skipped(claims, keys[j])
    decreases |keys|
  {
    if keys != [] {
      var c := Choose(claims, keys);
      var rest := keys[1..];
      ChooseStopsAtFirstUnskipped(claims, rest);
      if keys[0] in claims && claims[keys[0]].TextClaim? {
        TrimEmptyIffAllSpace(JavaScript, claims[keys[0]].text);
      }
      if Skipped(claims, keys[0]) {
        assert c == Choose(claims, rest);
        if c.Chosen? || c.Failed? {
          var k :| 0 <= k < |rest| && rest[k] in claims
            && (c.Chosen? ==> claims[rest[k]] == TextClaim(c.name))
            && (c.Failed? ==> claims[rest[k]] == OtherClaim(true))
            && forall j :: 0 <= j < k ==> Skipped(claims, rest[j]);
          assert keys[k + 1] == rest[k];
          assert forall j :: 0 <= j < k + 1 ==> Skipped(claims, keys[j]) by {
            forall j | 0 <= j < k + 1 ensures Skipped(claims, keys[j]) {
              if j > 0 {
                assert keys[j] == rest[j - 1];
              }
            }
          }
        }
        if forall i :: 0 <= i < |rest| ==> Skipped(claims, rest[i]) {
          forall i | 0 <= i < |keys| ensures Skipped(claims, keys[i]) {
            if i > 0 {
              assert keys[i] == rest[i - 1];
            }
          }
        } else {
          var i :| 0 <= i < |rest| && !Skipped(claims, rest[i]);
          assert keys[i + 1] == rest[i];
        }
      } else {
        assert !c.Exhausted?;
      }
    }
  }

  /**
   * `getCurrentUsername`: the empty string without a token, for a payload that cannot be
   * read, and when no claim is a usable string; otherwise the first usable string claim.
   */
  function CurrentUsername(token: Option<string>, payload: Payload): (name: string)
    ensures name != [] <==> IsAuthenticated(token) && payload.Claims? && Choose(payload.claims, UsernameClaims).Chosen?
    ensures name != [] ==> !AllSpace(JavaScript, name)
  {
    if !IsAuthenticated(token) then ""
    else match payload
      case Undecodable => ""
      case Claims(claims) =>
        match Choose(claims, UsernameClaims)
        case Chosen(n) => n
        case _ => ""
  }

  /**
   * A username comes from the earliest usable claim in the list, every earlier claim being
   * absent, blank or falsy; and a non-empty `unique_name` string always wins.
   */
  lemma UsernameIsFirstUsableClaim(token: Option<string>, claims: map<string, Claim>)
    requires IsAuthenticated(token)
    ensures var name := CurrentUsername(token, Claims(claims));
      name != [] ==> exists k :: (0 <= k < |UsernameClaims| && UsernameClaims[k] in claims &&
                                 claims[UsernameClaims[k]] == TextClaim(name) &&
                                 forall j :: 0 <= j < k ==> Skipped(claims, UsernameClaims[j]))
    ensures "unique_name" in claims && claims["unique_name"].TextClaim? && !AllSpace(JavaScript, claims["unique_name"].text) ==>
      CurrentUsername(token, Claims(claims)) == claims["unique_name"].text
  {
    ChooseStopsAtFirstUnskipped(claims, UsernameClaims);
    if "unique_name" in claims && claims["unique_name"].TextClaim? {
      TrimEmptyIffAllSpace(JavaScript, claims["unique_name"].text);
    }
  }

  /** A truthy claim that is not a string, met before any usable string, blanks the username. */
  lemma NonStringClaimBlanksUsername(token: Option<string>, claims: map<string, Claim>, k: nat)
    requires IsAuthenticated(token)
    requires k < |UsernameClaims| && UsernameClaims[k] in claims && claims[UsernameClaims[k]] == OtherClaim(true)
    requires forall j :: 0 <= j < k ==> Skipped(claims, UsernameClaims[j])
    ensures CurrentUsername(token, Claims(claims)) == ""
  {
    ChooseStopsAtFirstUnskipped(claims, UsernameClaims);
    assert !Skipped(claims, UsernameClaims[k]);
  }

  // --------------------------------------------------------------- the review form

  const ReviewMinLength := 10
  const ReviewMaxLength := 2000

  /**
   * The form's validators as written: `required`, `minLength(10)` and `maxLength(2000)`,
   * all applied to the box as typed (a reset form holds null).
   */
  predicate ReviewFormValidAsWritten(text: Option<string>) {
    text.Some? && text.value != [] && ReviewMinLength <= |text.value| <= ReviewMaxLength
  }

  /** What `onSubmitReview` posts: the box, trimmed. */
  function PostedText(text: string): (t: string)
    ensures |t| <= |text|
  {
    Trim(JavaScript, text)
  }

  /** The posted text is never padded, and is empty exactly when the box holds only white space. */
  lemma PostedTextIsTrimmed(text: string)
    ensures Trim(JavaScript, PostedText(text)) == PostedText(text)
    ensures PostedText(text) == [] <==> AllSpace(JavaScript, text)
  {
    TrimIdempotent(JavaScript, text);
    TrimEmptyIffAllSpace(JavaScript, text);
  }

  /**
   * As written, "a" followed by nine spaces passes the form, and the server stores the
   * one-character review it is sent.
   */
  lemma PaddedShortReviewPasses()
    ensures var text := "a         ";
      && ReviewFormValidAsWritten(Some(text))
      && PostedText(text) == "a"
      && ReviewsController.ReviewRequestErrors(PostedText(text)) == []
  {
    var text := "a         ";
    assert TrimStart(JavaScript, text) == text;
    assert text[..1] == "a";
    assert TrimEnd(JavaScript, text) == "a" by {
      var r := TrimEnd(JavaScript, text);
      TrimEndDropsTrailingSpace(JavaScript, text);
      assert r == [] || !IsSpace(JavaScript, r[|r| - 1]);
      assert AllSpace(JavaScript, text[|r|..]);
      assert r == text[..|r|];
    }
    assert !IsSpace(DotNet, "a"[0]);
  }

  /** As written, ten spaces pass the form and are posted as the empty text, which the server refuses. */
  lemma BlankReviewPassesFormOnly()
    ensures var text := "          ";
      && ReviewFormValidAsWritten(Some(text))
      && PostedText(text) == ""
      && ReviewsController.ReviewRequestErrors(PostedText(text)) == ["ReviewText"]
  {
    var text := "          ";
    assert AllSpace(JavaScript, text);
  }

  /** The form check as intended: 10 to 2000 characters in the text that is posted. */
  predicate ReviewFormValid(text: Option<string>) {
    text.Some? && ReviewMinLength <= |PostedText(text.value)| <= ReviewMaxLength
  }

  /**
   * Under the intended check the posted text has 10 to 2000 characters, so it fits the
   * server's column, is not padded, and is not blank to JavaScript.
   */
  lemma ValidFormPostsAcceptableText(text: string)
    requires ReviewFormValid(Some(text))
    ensures var t := PostedText(text);
      && ReviewMinLength <= |t| <= ReviewMaxLength
      && Trim(JavaScript, t) == t
      && !AllSpace(JavaScript, t)
  {
    var t := PostedText(text);
    PostedTextIsTrimmed(text);
    TrimEmptyIffAllSpace(JavaScript, t);
  }

  /** A review text within the column's length is refused by the server exactly when it is blank to .NET. */
  lemma ServerRefusesOnlyBlank(t: string)
    requires |t| <= ReviewMaxLength
    ensures ReviewsController.ReviewRequestErrors(t) == [] <==> !AllSpace(DotNet, t)
  {
  }

  /** Within the page count of a first answer, every review page the page can request is non-empty. */
  lemma NavigableReviewPagesAreNonEmpty(db: Entities.Db, movieId: int, page: int)
    requires 1 <= page <= ReviewsController.GetByMovie(db, movieId, Some(1), Some(ReviewsPageSize)).body.totalPages
    ensures ReviewsController.GetByMovie(db, movieId, Some(page), Some(ReviewsPageSize)).body.items != []
  {
  }

  // ------------------------------------------------------------------------ the page

  /** A write the page sends: a review of a movie, or a rating of it. */
  datatype Command = PostReview(movieId: int, reviewText: string) | PostRating(movieId: int, ratingValue: int)

  /**
   * The guards of `onSubmitReview`, with the intended form check: a valid form, a token,
   * and a shown movie whose id is not 0 (a falsy id); the post carries the trimmed text.
   */
  function ReviewSubmission(reviewText: Option<string>, token: Option<string>, movie: Option<MovieDto>): (c: Option<Command>)
    ensures c.Some? <==> ReviewFormValid(reviewText) && IsAuthenticated(token) && movie.Some? && movie.value.movieId != 0
    ensures c.Some? ==> c.value == PostReview(movie.value.movieId, PostedText(reviewText.value))
    ensures c.Some? ==> ReviewMinLength <= |c.value.reviewText| <= ReviewMaxLength
  {
    if !ReviewFormValid(reviewText) || !IsAuthenticated(token) then None
    else if movie.None? || movie.value.movieId == 0 then None
    else Some(PostReview(movie.value.movieId, PostedText(reviewText.value)))
  }

  /** The same guards with the form's validators as written, applied to the untrimmed box. */
  function ReviewSubmissionAsWritten(reviewText: Option<string>, token: Option<string>, movie: Option<MovieDto>): (c: Option<Command>)
    ensures c.Some? <==> ReviewFormValidAsWritten(reviewText) && IsAuthenticated(token) && movie.Some? && movie.value.movieId != 0
    ensures c.Some? ==> c.value == PostReview(movie.value.movieId, PostedText(reviewText.value))
  {
    if !ReviewFormValidAsWritten(reviewText) || !IsAuthenticated(token) then None
    else if movie.None? || movie.value.movieId == 0 then None
    else Some(PostReview(movie.value.movieId, PostedText(reviewText.value)))
  }

  /**
   * Where the two checks part: as written, "a" and nine spaces are posted as the one-character
   * review "a"; under the corrected check nothing is posted.
   */
  lemma PaddedReviewPostedOnlyAsWritten(token: Option<string>, m: MovieDto)
    requires IsAuthenticated(token) && m.movieId != 0
    ensures ReviewSubmissionAsWritten(Some("a         "), token, Some(m)) == Some(PostReview(m.movieId, "a"))
    ensures ReviewSubmission(Some("a         "), token, Some(m)).None?
  {
    PaddedShortReviewPasses();
  }

  class MovieDetailPage {
    var token: Option<string>
    var movie: Option<MovieDto>
    var loading: bool
    var reviewsLoading: bool
    var reviewLoading: bool
    var ratingLoading: bool
    var reviewsPagination: PaginationInfo
    var reviewText: Option<string>
    var selectedRating: int
    var movieRequests: seq<int>
    var sent: seq<Request>
    var commands: seq<Command>

    /** No movie yet and loading it, an empty review form, and review paging of five with no pages. */
    constructor(token: Option<string>)
      ensures this.token == token && movie.None?
      ensures loading && !reviewsLoading && !reviewLoading && !ratingLoading
      ensures reviewsPagination == PaginationInfo(0, 1, 5, 0)
      ensures reviewText == Some("") && selectedRating == 0
      ensures movieRequests == [] && sent == [] && commands == []
    {
      this.token := token;
      movie := None;
      loading := true;
      reviewsLoading := false;
      reviewLoading := false;
      ratingLoading := false;
      reviewsPagination := PaginationInfo(0, 1, ReviewsPageSize, 0);
      reviewText := Some("");
      selectedRating := 0;
      movieRequests := [];
      sent := [];
      commands := [];
    }

    /** `canAddReview`: signed in, with the movie shown. */
    predicate CanAddReview()
      reads this
    {
      IsAuthenticated(token) && movie.Some?
    }

    /**
     * `isMovieOwner`: signed in, with the movie shown, and the username read from the token
     * equal to the movie's creator name.
     */
    function IsMovieOwner(payload: Payload): (r: bool)
      reads this
      ensures r <==> CanAddReview() && movie.value.createdByUserName == Some(CurrentUsername(token, payload))
    {
      if !IsAuthenticated(token) then false
      else if movie.None? then false
      else movie.value.createdByUserName == Some(CurrentUsername(token, payload))
    }

    /** `loadMovieDetails`: shows the spinner and asks for the movie. */
    method LoadMovieDetails(movieId: int)
      modifies this
      ensures loading && movieRequests == old(movieRequests) + [movieId]
      ensures movie == old(movie) && sent == old(sent) && commands == old(commands)
      ensures reviewsPagination == old(reviewsPagination) && reviewText == old(reviewText)
      ensures token == old(token) && reviewsLoading == old(reviewsLoading)
      ensures reviewLoading == old(reviewLoading) && ratingLoading == old(ratingLoading)
    {
      loading := true;
      movieRequests := movieRequests + [movieId];
    }

    /** `loadReviews(movieId, page)`: five reviews to a page. */
    method LoadReviews(movieId: int, page: int)
      modifies this
      ensures reviewsLoading && sent == old(sent) + [GetReviewsForMovie(movieId, Some(page), Some(ReviewsPageSize))]
      ensures sent[|sent| - 1].pageSize == 5
      ensures movie == old(movie) && reviewsPagination == old(reviewsPagination)
      ensures movieRequests == old(movieRequests) && commands == old(commands)
      ensures token == old(token) && loading == old(loading) && reviewText == old(reviewText)
      ensures reviewLoading == old(reviewLoading) && ratingLoading == old(ratingLoading)
    {
      reviewsLoading := true;
      sent := sent + [GetReviewsForMovie(movieId, Some(page), Some(ReviewsPageSize))];
    }

    /** The movie arrived: it is shown, and the first page of its reviews is requested. */
    method OnMovieLoaded(movieId: int, m: MovieDto)
      modifies this
      ensures movie == Some(m) && !loading && reviewsLoading
      ensures sent == old(sent) + [GetReviewsForMovie(movieId, Some(1), Some(ReviewsPageSize))]
      ensures reviewsPagination == old(reviewsPagination) && movieRequests == old(movieRequests)
      ensures commands == old(commands) && token == old(token) && reviewText == old(reviewText)
    {
      movie := Some(m);
      loading := false;
      LoadReviews(movieId, 1);
    }

    /** The movie could not be loaded: the spinner goes. */
    method OnMovieError()
      modifies this
      ensures !loading
      ensures movie == old(movie) && sent == old(sent) && commands == old(commands)
      ensures reviewsPagination == old(reviewsPagination) && movieRequests == old(movieRequests)
    {
      loading := false;
    }

    /**
     * A page of reviews arrived: when a movie is shown, its reviews and the review paging are
     * replaced by the answer's; without a movie the answer is dropped.
     */
    method OnReviewsResponse(response: Paged<ReviewDto>)
      modifies this
      ensures !reviewsLoading
      ensures old(movie).Some? ==> movie == Some(old(movie).value.(reviews := response.items))
      ensures old(movie).Some? ==>
        reviewsPagination == PaginationInfo(response.totalCount, response.currentPage, response.pageSize, response.totalPages)
      ensures old(movie).None? ==> movie.None? && reviewsPagination == old(reviewsPagination)
      ensures sent == old(sent) && commands == old(commands) && movieRequests == old(movieRequests)
      ensures token == old(token) && reviewText == old(reviewText)
    {
      if movie.Some? {
        movie := Some(movie.value.(reviews := response.items));
        reviewsPagination := PaginationInfo(response.totalCount, response.currentPage, response.pageSize, response.totalPages);
      }
      reviewsLoading := false;
    }

    /** A failed review page only hides its spinner. */
    method OnReviewsError()
      modifies this
      ensures !reviewsLoading
      ensures movie == old(movie) && reviewsPagination == old(reviewsPagination)
      ensures sent == old(sent) && commands == old(commands)
    {
      reviewsLoading := false;
    }

    /**
     * `goToReviewPage`: with a movie shown whose id is not 0 (a falsy id), only a page
     * between 1 and the known page count is requested.
     */
    method GoToReviewPage(page: int)
      modifies this
      ensures old(movie).Some? && old(movie).value.movieId != 0 && 1 <= page <= old(reviewsPagination.totalPages) ==>
        reviewsLoading && sent == old(sent) + [GetReviewsForMovie(old(movie).value.movieId, Some(page), Some(ReviewsPageSize))]
      ensures !(old(movie).Some? && old(movie).value.movieId != 0 && 1 <= page <= old(reviewsPagination.totalPages)) ==>
        sent == old(sent) && reviewsLoading == old(reviewsLoading)
      ensures movie == old(movie) && reviewsPagination == old(reviewsPagination)
      ensures commands == old(commands) && movieRequests == old(movieRequests) && token == old(token)
    {
      if movie.Some? && movie.value.movieId != 0 && 1 <= page <= reviewsPagination.totalPages {
        LoadReviews(movie.value.movieId, page);
      }
    }

    /** `goToNextReviewPage`: moves only from a page before the last. */
    method GoToNextReviewPage()
      modifies this
      ensures old(reviewsPagination.currentPage) >= old(reviewsPagination.totalPages) ==> sent == old(sent)
      ensures old(movie).Some? && old(movie).value.movieId != 0
              && 0 <= old(reviewsPagination.currentPage) < old(reviewsPagination.totalPages) ==>
        sent == old(sent) + [GetReviewsForMovie(old(movie).value.movieId, Some(old(reviewsPagination.currentPage) + 1), Some(ReviewsPageSize))]
      ensures movie == old(movie) && reviewsPagination == old(reviewsPagination)
      ensures commands == old(commands) && movieRequests == old(movieRequests) && token == old(token)
    {
      var current := reviewsPagination.currentPage;
      if current < reviewsPagination.totalPages {
        GoToReviewPage(current + 1);
      }
    }

    /** `goToPreviousReviewPage`: moves only from a page after the first. */
    method GoToPreviousReviewPage()
      modifies this
      ensures old(reviewsPagination.currentPage) <= 1 ==> sent == old(sent)
      ensures old(movie).Some? && old(movie).value.movieId != 0
              && 1 < old(reviewsPagination.currentPage) <= old(reviewsPagination.totalPages) + 1 ==>
        sent == old(sent) + [GetReviewsForMovie(old(movie).value.movieId, Some(old(reviewsPagination.currentPage) - 1), Some(ReviewsPageSize))]
      ensures movie == old(movie) && reviewsPagination == old(reviewsPagination)
      ensures commands == old(commands) && movieRequests == old(movieRequests) && token == old(token)
    {
      var current := reviewsPagination.currentPage;
      if current > 1 {
        GoToReviewPage(current - 1);
      }
    }

    /**
     * `onSubmitReview`, with the intended form check: a valid form, a token and a shown
     * movie with a non-zero id post the trimmed text; anything else posts nothing.
     */
    method OnSubmitReview()
      modifies this
      ensures ReviewFormValid(old(reviewText)) && old(CanAddReview()) && old(movie).value.movieId != 0 ==>
        reviewLoading && commands == old(commands) + [PostReview(old(movie).value.movieId, PostedText(old(reviewText).value))]
      ensures !(ReviewFormValid(old(reviewText)) && old(CanAddReview()) && old(movie).value.movieId != 0) ==>
        commands == old(commands) && reviewLoading == old(reviewLoading)
      ensures movie == old(movie) && reviewText == old(reviewText) && sent == old(sent)
      ensures reviewsPagination == old(reviewsPagination) && token == old(token)
    {
      var post := ReviewSubmission(reviewText, token, movie);
      if post.None? {
        return;
      }
      reviewLoading := true;
      commands := commands + [post.value];
    }

    /** The review was stored: the form is reset (to null) and the first review page reloads. */
    method OnReviewPosted(movieId: int)
      modifies this
      ensures reviewText.None? && !reviewLoading && reviewsLoading
      ensures sent == old(sent) + [GetReviewsForMovie(movieId, Some(1), Some(ReviewsPageSize))]
      ensures movie == old(movie) && commands == old(commands) && reviewsPagination == old(reviewsPagination)
      ensures token == old(token)
    {
      reviewText := None;
      reviewLoading := false;
      LoadReviews(movieId, 1);
    }

    /** The review was refused: the form keeps its text. */
    method OnReviewPostError()
      modifies this
      ensures !reviewLoading
      ensures reviewText == old(reviewText) && movie == old(movie) && commands == old(commands) && sent == old(sent)
    {
      reviewLoading := false;
    }

    /**
     * `onRatingClick` and `submitRating`: signed out, nothing happens; signed in, the star
     * is selected and, with a shown movie whose id is not 0, the rating is posted.
     */
    method OnRatingClick(rating: int)
      modifies this
      ensures !IsAuthenticated(old(token)) ==> selectedRating == old(selectedRating) && commands == old(commands)
      ensures IsAuthenticated(old(token)) ==> selectedRating == rating
      ensures IsAuthenticated(old(token)) && old(movie).Some? && old(movie).value.movieId != 0 ==>
        ratingLoading && commands == old(commands) + [PostRating(old(movie).value.movieId, rating)]
      ensures !(old(movie).Some? && old(movie).value.movieId != 0) ==> commands == old(commands)
      ensures movie == old(movie) && sent == old(sent) && reviewText == old(reviewText) && token == old(token)
    {
      if !IsAuthenticated(token) {
        return;
      }
      selectedRating := rating;
      if movie.None? || movie.value.movieId == 0 {
        return;
      }
      ratingLoading := true;
      commands := commands + [PostRating(movie.value.movieId, rating)];
    }

    /** The rating was stored: the movie is requested again, to show its new average. */
    method OnRatingPosted(movieId: int)
      modifies this
      ensures !ratingLoading && loading && movieRequests == old(movieRequests) + [movieId]
      ensures movie == old(movie) && commands == old(commands) && sent == old(sent)
    {
      ratingLoading := false;
      LoadMovieDetails(movieId);
    }

    /** The rating was refused: its spinner goes. */
    method OnRatingPostError()
      modifies this
      ensures !ratingLoading
      ensures movie == old(movie) && commands == old(commands) && sent == old(sent) && selectedRating == old(selectedRating)
    {
      ratingLoading := false;
    }
  }

  /**
   * Ownership as the page decides it needs a usable username claim equal to the creator's
   * name, whenever that name is not empty.
   */
  lemma OwnerHasMatchingClaim(page: MovieDetailPage, claims: map<string, Claim>)
    requires page.movie.Some? && page.movie.value.createdByUserName.Some? && page.movie.value.createdByUserName.value != []
    requires page.IsMovieOwner(Claims(claims))
    ensures exists k :: (0 <= k < |UsernameClaims| && UsernameClaims[k] in claims &&
                         claims[UsernameClaims[k]] == TextClaim(page.movie.value.createdByUserName.value))
  {
    UsernameIsFirstUsableClaim(page.token, claims);
  }
}

=== FILE: movie_list.dfy ===
/**
 * The public movie list (movie-list.ts): ten movies to a page, a title search box, and
 * page navigation that is guarded by the paging record of the last answer. Requests are
 * recorded in `sent` when issued; answers arrive through `OnPageResponse`.
 */
module MovieList {
  import opened Wrappers
  import opened Text
  import opened Mapping
  import opened Responses
  import opened MovieApiClient
  import Entities
  import MoviesController

  const PageSize := 10

  /** The request for a page: the search when the trimmed box holds text, the plain list otherwise. */
  function PageRequest(searchBox: Option<string>, page: int): (q: Request)
    ensures TrimsToText(searchBox) ==> q == SearchMovies(Trim(JavaScript, searchBox.value), Some(page), Some(PageSize))
    ensures !TrimsToText(searchBox) ==> q == GetAllMovies(Some(page), Some(PageSize))
    ensures q.page == page && q.pageSize == PageSize
  {
    if TrimsToText(searchBox) then SearchMovies(Trim(JavaScript, searchBox.value), Some(page), Some(PageSize))
    else GetAllMovies(Some(page), Some(PageSize))
  }

  /**
   * A search request never carries a blank term: the box is trimmed before it is sent and
   * the service trims it again, to the same text.
   */
  lemma SearchSendsTrimmedTerm(searchBox: Option<string>, page: int)
    requires TrimsToText(searchBox)
    ensures var q := PageRequest(searchBox, page);
      q.SearchQuery? && q.title == Some(Trim(JavaScript, searchBox.value))
  {
    TrimIdempotent(JavaScript, searchBox.value);
  }

  /**
   * Within the page count of a first answer, every page the navigation can ask the server
   * for is a non-empty page of movies.
   */
  lemma NavigablePagesAreNonEmpty(db: Entities.Db, page: int)
    requires 1 <= page <= MoviesController.GetAllMovies(db, Some(1), Some(PageSize)).body.totalPages
    ensures MoviesController.GetAllMovies(db, Some(page), Some(PageSize)).body.items != []
  {
  }

  /**
   * The client's list defaults are the API's: a list request built with them is answered as
   * one that leaves both paging parameters out.
   */
  lemma ClientListDefaultsAreServerDefaults(db: Entities.Db)
    ensures var q := GetAllMovies(None, None);
      MoviesController.GetAllMovies(db, Some(q.page), Some(q.pageSize)) == MoviesController.GetAllMovies(db, None, None)
  {
  }

  class MovieListPage {
    var movies: seq<MovieSummaryDto>
    var loading: bool
    var searchBox: Option<string>
    var pagination: PaginationInfo
    var sent: seq<Request>

    /** Before the first answer there are no pages, so no navigation is possible. */
    constructor()
      ensures movies == [] && !loading && sent == []
      ensures searchBox == Some("")
      ensures pagination == PaginationInfo(0, 1, 10, 0)
    {
      movies := [];
      loading := false;
      searchBox := Some("");
      pagination := PaginationInfo(0, 1, PageSize, 0);
      sent := [];
    }

    /** `loadMovies(page = 1)`: the plain list, ten to a page. */
    method LoadMovies(page: int)
      modifies this
      ensures loading && sent == old(sent) + [GetAllMovies(Some(page), Some(PageSize))]
      ensures movies == old(movies) && pagination == old(pagination) && searchBox == old(searchBox)
    {
      loading := true;
      sent := sent + [GetAllMovies(Some(page), Some(PageSize))];
    }

    /** `onSearch(page = 1)`: the search for the trimmed box, or the plain list when the box is blank. */
    method OnSearch(page: int)
      modifies this
      ensures loading
      ensures sent == old(sent) + [PageRequest(old(searchBox), page)]
      ensures movies == old(movies) && pagination == old(pagination) && searchBox == old(searchBox)
    {
      loading := true;
      if TrimsToText(searchBox) {
        sent := sent + [SearchMovies(Trim(JavaScript, searchBox.value), Some(page), Some(PageSize))];
      } else {
        LoadMovies(page);
      }
    }

    /** `goToPage`: only a page between 1 and the known page count is requested. */
    method GoToPage(page: int)
      modifies this
      ensures 1 <= page <= old(pagination.totalPages) ==>
        loading && sent == old(sent) + [PageRequest(old(searchBox), page)]
      ensures !(1 <= page <= old(pagination.totalPages)) ==> loading == old(loading) && sent == old(sent)
      ensures movies == old(movies) && pagination == old(pagination) && searchBox == old(searchBox)
    {
      if 1 <= page <= pagination.totalPages {
        if TrimsToText(searchBox) {
          OnSearch(page);
        } else {
          LoadMovies(page);
        }
      }
    }

    /** `goToNextPage`: moves only from a page before the last. */
    method GoToNextPage()
      modifies this
      ensures old(pagination.currentPage) < old(pagination.totalPages) && old(pagination.currentPage) >= 0 ==>
        sent == old(sent) + [PageRequest(old(searchBox), old(pagination.currentPage) + 1)]
      ensures old(pagination.currentPage) >= old(pagination.totalPages) ==> sent == old(sent) && loading == old(loading)
      ensures movies == old(movies) && pagination == old(pagination) && searchBox == old(searchBox)
    {
      var current := pagination.currentPage;
      if current < pagination.totalPages {
        GoToPage(current + 1);
      }
    }

    /** `goToPreviousPage`: moves only from a page after the first. */
    method GoToPreviousPage()
      modifies this
      ensures 1 < old(pagination.currentPage) <= old(pagination.totalPages) + 1 ==>
        sent == old(sent) + [PageRequest(old(searchBox), old(pagination.currentPage) - 1)]
      ensures old(pagination.currentPage) <= 1 ==> sent == old(sent) && loading == old(loading)
      ensures movies == old(movies) && pagination == old(pagination) && searchBox == old(searchBox)
    {
      var current := pagination.currentPage;
      if current > 1 {
        GoToPage(current - 1);
      }
    }

    /** `clearSearch`: the box is reset (to null) and the plain list reloads from page 1. */
    method ClearSearch()
      modifies this
      ensures searchBox.None? && loading && sent == old(sent) + [GetAllMovies(Some(1), Some(PageSize))]
      ensures movies == old(movies) && pagination == old(pagination)
    {
      searchBox := None;
      LoadMovies(1);
    }

    /** An answer of either list: its movies and paging numbers replace the shown ones. */
    method OnPageResponse(response: Paged<MovieSummaryDto>)
      modifies this
      ensures movies == response.items && !loading
      ensures pagination == PaginationInfo(response.totalCount, response.currentPage, response.pageSize, response.totalPages)
      ensures sent == old(sent) && searchBox == old(searchBox)
    {
      movies := response.items;
      pagination := PaginationInfo(response.totalCount, response.currentPage, response.pageSize, response.totalPages);
      loading := false;
    }

    /** A failed request only hides the spinner. */
    method OnPageError()
      modifies this
      ensures !loading
      ensures movies == old(movies) && pagination == old(pagination) && sent == old(sent) && searchBox == old(searchBox)
    {
      loading := false;
    }
  }
}

=== FILE: movie_management.dfy ===
/**
 * The movie-management grid (movie-management.ts): the sort, search and genre controls,
 * the paging record, and the grid requests the component sends. A request is recorded in
 * `sent` when it is issued; its answer arrives later through `OnGridResponse`.
 */
module MovieManagement {
  import opened Wrappers
  import opened Text
  import opened Mapping
  import opened Responses
  import opened MovieApiClient
  import Entities
  import MoviesController

  datatype Sort = Sort(sortBy: string, sortOrder: string)

  /**
   * `onSort`: the clicked column becomes the sort column; the order turns to descending only
   * when that column was already ascending, and is ascending otherwise.
   */
  function ToggledSort(current: Sort, column: string): (s: Sort)
    ensures s.sortBy == column
    ensures s.sortOrder == "desc" <==> current.sortBy == column && current.sortOrder == "asc"
    ensures s.sortOrder != "desc" ==> s.sortOrder == "asc"
  {
    if current.sortBy == column && current.sortOrder == "asc" then Sort(column, "desc") else Sort(column, "asc")
  }

  /** Clicking the same column twice from any starting order ends ascending then descending. */
  lemma {:induction false} SecondClickReverses(current: Sort, column: string)
    ensures ToggledSort(current, column).sortOrder == "asc" ==> ToggledSort(ToggledSort(current, column), column).sortOrder == "desc"
    ensures ToggledSort(ToggledSort(current, column), column) != ToggledSort(current, column)
  {
    var once := ToggledSort(current, column);
    assert once.sortBy == column;
    if once.sortOrder == "asc" {
      assert ToggledSort(once, column) == Sort(column, "desc");
    } else {
      assert once.sortOrder == "desc";
      assert ToggledSort(once, column) == Sort(column, "asc");
    }
  }

  /** `getSortIcon`: no arrow on an inactive column, up for ascending, down otherwise. */
  function SortIcon(current: Sort, column: string): (icon: string)
    ensures current.sortBy != column <==> icon == "unfold_more"
    ensures icon == "expand_less" <==> current.sortBy == column && current.sortOrder == "asc"
    ensures icon == "unfold_more" || icon == "expand_less" || icon == "expand_more"
  {
    if current.sortBy != column then "unfold_more"
    else if current.sortOrder == "asc" then "expand_less"
    else "expand_more"
  }

  /** The genre filter of `loadMovies`: the "All" entry (or no selection) means no filter. */
  function GenreFilter(selection: Option<string>): (g: Option<string>)
    ensures g.None? <==> selection.None? || selection.value == "All"
    ensures g.Some? ==> g == selection
  {
    var value := selection.GetOr("All");
    if value == "All" then None else Some(value)
  }

  /** `canEditMovie`: a signed-in user whose id is the movie's creator id. */
  function CanEditMovie(token: Option<string>, currentUserId: Option<string>, movie: MovieSummaryDto): (r: bool)
    ensures !IsAuthenticated(token) ==> !r
    ensures IsAuthenticated(token) ==> (r <==> currentUserId == Some(movie.createdByUserId))
  {
    if !IsAuthenticated(token) then false else currentUserId == Some(movie.createdByUserId)
  }

  /**
   * With the search box blank and "All" selected, the grid request the page sends is
   * answered with a count of every movie in the database, whatever the sort.
   */
  lemma AllGenresCountEveryMovie(db: Entities.Db, page: int, pageSize: int, sort: Sort, search: string)
    requires page >= 1 && pageSize >= 1 && AllSpace(JavaScript, search)
    ensures var q := GetMoviesForGrid(Some(page), Some(pageSize), Some(sort.sortBy), Some(sort.sortOrder), Some(search), GenreFilter(Some("All")));
      MoviesController.GetMoviesForGrid(db, Some(q.page), Some(q.pageSize), Some(q.sortBy), Some(q.sortOrder), q.search, q.genre)
        .body.totalCount == |db.movies|
  {
    TrimEmptyIffAllSpace(JavaScript, search);
  }

  class MovieManagementPage {
    var movies: seq<MovieSummaryDto>
    var loading: bool
    var pagination: PaginationInfo
    var sort: Sort
    var searchText: Option<string>
    var genreSelection: Option<string>
    var sent: seq<Request>

    /** The page as first shown: newest first, page 1 of size 10, every genre, no search. */
    constructor()
      ensures movies == [] && !loading && sent == []
      ensures pagination == PaginationInfo(0, 1, 10, 0)
      ensures sort == Sort("createdDate", "desc")
      ensures searchText == Some("") && genreSelection == Some("All")
    {
      movies := [];
      loading := false;
      pagination := PaginationInfo(0, 1, 10, 0);
      sort := Sort("createdDate", "desc");
      searchText := Some("");
      genreSelection := Some("All");
      sent := [];
    }

    /** The grid request for this page under the current controls and page size. */
    function QueryFor(page: int): (q: Request)
      reads this
      ensures q.GridQuery? && q.page == page && q.pageSize == pagination.pageSize
      ensures q.sortBy == sort.sortBy && q.sortOrder == sort.sortOrder
      ensures q.genre.Some? ==> genreSelection.Some? && q.genre.value == Trim(JavaScript, genreSelection.value)
      ensures genreSelection.None? || genreSelection.value == "All" ==> q.genre.None?
      ensures q.search.Some? <==> TrimsToText(searchText)
    {
      GetMoviesForGrid(Some(page), Some(pagination.pageSize), Some(sort.sortBy), Some(sort.sortOrder),
                       Some(searchText.GetOr("")), GenreFilter(genreSelection))
    }

    /** `loadMovies(page = currentPage)`: shows the spinner and sends the grid request. */
    method LoadMovies(page: Option<int>)
      modifies this
      ensures loading
      ensures sent == old(sent) + [old(QueryFor(page.GetOr(pagination.currentPage)))]
      ensures movies == old(movies) && pagination == old(pagination) && sort == old(sort)
      ensures searchText == old(searchText) && genreSelection == old(genreSelection)
    {
      loading := true;
      sent := sent + [QueryFor(page.GetOr(pagination.currentPage))];
    }

    /** `ngOnInit`: the first load, at the current page. */
    method OnInit()
      modifies this
      ensures loading
      ensures sent == old(sent) + [old(QueryFor(pagination.currentPage))]
      ensures movies == old(movies) && pagination == old(pagination) && sort == old(sort)
      ensures searchText == old(searchText) && genreSelection == old(genreSelection)
    {
      LoadMovies(None);
    }

    /** `onSort`: toggles the order as `ToggledSort` says and reloads from page 1. */
    method OnSort(column: string)
      modifies this
      ensures sort == ToggledSort(old(sort), column)
      ensures loading
      ensures sent == old(sent) + [QueryFor(1)]
      ensures sent[|sent| - 1].page == 1 && sent[|sent| - 1].sortBy == column
      ensures movies == old(movies) && pagination == old(pagination)
      ensures searchText == old(searchText) && genreSelection == old(genreSelection)
    {
      sort := ToggledSort(sort, column);
      LoadMovies(Some(1));
    }

    /** `onPageChange`: the paginator's page, under the current controls. */
    method OnPageChange(page: int)
      modifies this
      ensures loading
      ensures sent == old(sent) + [old(QueryFor(page))]
      ensures movies == old(movies) && pagination == old(pagination) && sort == old(sort)
      ensures searchText == old(searchText) && genreSelection == old(genreSelection)
    {
      LoadMovies(Some(page));
    }

    /** A change of the search box (after its debounce): reload from page 1. */
    method OnSearchChanged(text: Option<string>)
      modifies this
      ensures searchText == text && loading
      ensures sent == old(sent) + [QueryFor(1)]
      ensures movies == old(movies) && pagination == old(pagination) && sort == old(sort)
      ensures genreSelection == old(genreSelection)
    {
      searchText := text;
      LoadMovies(Some(1));
    }

    /** A change of the genre select: reload from page 1; "All" sends no genre. */
    method OnGenreChanged(selection: Option<string>)
      modifies this
      ensures genreSelection == selection && loading
      ensures sent == old(sent) + [QueryFor(1)]
      ensures selection.None? || selection.value == "All" ==> sent[|sent| - 1].genre.None?
      ensures movies == old(movies) && pagination == old(pagination) && sort == old(sort)
      ensures searchText == old(searchText)
    {
      genreSelection := selection;
      LoadMovies(Some(1));
    }

    /** The grid's answer: its movies and its paging numbers replace the shown ones. */
    method OnGridResponse(response: Paged<MovieSummaryDto>)
      modifies this
      ensures movies == response.items && !loading
      ensures pagination == PaginationInfo(response.totalCount, response.currentPage, response.pageSize, response.totalPages)
      ensures sort == old(sort) && sent == old(sent)
      ensures searchText == old(searchText) && genreSelection == old(genreSelection)
    {
      movies := response.items;
      pagination := PaginationInfo(response.totalCount, response.currentPage, response.pageSize, response.totalPages);
      loading := false;
    }

    /** A failed grid request only hides the spinner. */
    method OnGridError()
      modifies this
      ensures !loading
      ensures movies == old(movies) && pagination == old(pagination) && sort == old(sort) && sent == old(sent)
      ensures searchText == old(searchText) && genreSelection == old(genreSelection)
    {
      loading := false;
    }
  }
}

=== FILE: movie_service.dfy ===
/**
 * `MovieService`: the owner-checked commands on the Movies table and the read pipeline
 * behind the list, search and grid endpoints (filter, sort, count, then skip/take).
 */
module MovieService {
  import opened Wrappers
  import opened Text
  import opened Query
  import opened Paging
  import opened Entities
  import opened Schema
  import opened Mapping
  import opened Store

  // ---------------------------------------------------------------- commands

  /** Where the caller's movie with this id sits: the filter of the update and delete lookups. */
  function OwnedMovieIndex(movies: seq<Movie>, movieId: int, caller: UserId): (r: Option<nat>)
    ensures r.Some? ==> r.value < |movies| && movies[r.value].id == movieId && movies[r.value].createdBy == caller
    ensures r.None? <==> forall i :: 0 <= i < |movies| ==> !(movies[i].id == movieId && movies[i].createdBy == caller)
  {
    FirstIndex(movies, (m: Movie) => m.id == movieId && m.createdBy == caller)
  }

  /**
   * `CreateMovieAsync`: a new movie with the request's columns, created by the caller at
   * `now`, under the next identity key. The database refuses it when a column is too long
   * or the caller is not a user.
   */
  method CreateMovie(ctx: Context, request: MovieRequest, caller: UserId, now: int) returns (r: Result<Movie, Failure>)
    requires ctx.Valid()
    modifies ctx
    ensures ctx.Valid()
    ensures var m := Movie(old(ctx.nextMovieId), request.title, request.director, request.genre,
                           request.description, now, caller);
      && (r.Success? <==> MovieFits(m) && UserExists(old(ctx.users), caller))
      && (r.Success? ==> r.value == m && ctx.State() == old(ctx.State()).(movies := old(ctx.movies) + [m]))
      && (r.Failure? ==> r.error == SaveRejected && ctx.State() == old(ctx.State()))
  {
    var m := Movie(ctx.nextMovieId, request.title, request.director, request.genre, request.description, now, caller);
    if !MovieFits(m) || !UserExists(ctx.users, caller) {
      return Failure(SaveRejected);
    }
    AddMovieKeepsConsistent(ctx.State(), m);
    ctx.movies := ctx.movies + [m];
    ctx.nextMovieId := ctx.nextMovieId + 1;
    r := Success(m);
  }

  /**
   * `UpdateMovieAsync`: only the caller's own movie is found; the mapper overwrites its
   * title, director, genre and description, and nothing else changes.
   */
  method UpdateMovie(ctx: Context, movieId: int, request: MovieRequest, caller: UserId)
    returns (r: Result<Option<Movie>, Failure>)
    requires ctx.Valid()
    modifies ctx
    ensures ctx.Valid()
    ensures OwnedMovieIndex(old(ctx.movies), movieId, caller).None? ==>
      r == Success(None) && ctx.State() == old(ctx.State())
    ensures OwnedMovieIndex(old(ctx.movies), movieId, caller).Some? ==>
      var k := OwnedMovieIndex(old(ctx.movies), movieId, caller).value;
      var m := old(ctx.movies)[k].(title := request.title, director := request.director,
                                   genre := request.genre, description := request.description);
      && (MovieFits(m) ==> r == Success(Some(m)) && ctx.State() == old(ctx.State()).(movies := old(ctx.movies)[k := m]))
      && (!MovieFits(m) ==> r == Failure(SaveRejected) && ctx.State() == old(ctx.State()))
  {
    var found := OwnedMovieIndex(ctx.movies, movieId, caller);
    if found.None? {
      return Success(None);
    }
    var k := found.value;
    var m := ctx.movies[k].(title := request.title, director := request.director,
                            genre := request.genre, description := request.description);
    if !MovieFits(m) {
      return Failure(SaveRejected);
    }
    ReplaceMovieKeepsConsistent(ctx.State(), k, m);
    ctx.movies := ctx.movies[k := m];
    r := Success(Some(m));
  }

  /**
   * `DeleteMovieAsync`: only the caller's own movie is removed, and the database cascades
   * the removal to its reviews and ratings.
   */
  method DeleteMovie(ctx: Context, movieId: int, caller: UserId) returns (deleted: bool)
    requires ctx.Valid()
    modifies ctx
    ensures ctx.Valid()
    ensures deleted <==> OwnedMovieIndex(old(ctx.movies), movieId, caller).Some?
    ensures deleted ==> ctx.State() == DeleteMovieCascade(old(ctx.State()), movieId)
    ensures !deleted ==> ctx.State() == old(ctx.State())
  {
    var found := OwnedMovieIndex(ctx.movies, movieId, caller);
    if found.None? {
      return false;
    }
    var before := ctx.State();
    CascadeKeepsConsistent(before, movieId);
    CascadeKeepsIds(before, movieId, ctx.nextMovieId, ctx.nextReviewId, ctx.nextRatingId);
    ctx.Commit(DeleteMovieCascade(before, movieId), ctx.nextMovieId, ctx.nextReviewId, ctx.nextRatingId);
    deleted := true;
  }

  // ------------------------------------------------------------ loaded rows

  /** A movie as the list queries load it: `Reviews` and `Ratings` always, `CreatedByUser` when asked. */
  function Load(db: Db, m: Movie, withCreator: bool): LoadedMovie {
    LoadedMovie(m, if withCreator then FindUser(db.users, m.createdBy) else None,
                ReviewsOfMovie(db.reviews, m.id), RatingsOfMovie(db.ratings, m.id))
  }

  function LoadAll(db: Db, movies: seq<Movie>, withCreator: bool): (r: seq<LoadedMovie>)
    ensures |r| == |movies|
    ensures forall i :: 0 <= i < |r| ==> r[i] == Load(db, movies[i], withCreator)
  {
    Select(movies, (m: Movie) => Load(db, m, withCreator))
  }

  function Summaries(rows: seq<LoadedMovie>): (r: seq<MovieSummaryDto>)
    ensures |r| == |rows|
    ensures forall i :: 0 <= i < |r| ==> r[i] == ToMovieSummary(rows[i])
  {
    Select(rows, ToMovieSummary)
  }

  /** Each row of a page of loaded movies is one of the movies loaded. */
  lemma PageRowsComeFrom(db: Db, movies: seq<Movie>, withCreator: bool, page: int, pageSize: int)
    requires page >= 1 && pageSize >= 1
    ensures var p := NewestPage(LoadAll(db, movies, withCreator), page, pageSize);
      forall i :: 0 <= i < |p| ==> p[i].movie in movies
  {
    var rows := LoadAll(db, movies, withCreator);
    var p := NewestPage(rows, page, pageSize);
    forall i | 0 <= i < |p| ensures p[i].movie in movies {
      var k :| 0 <= k < |rows| && rows[k] == p[i];
      assert rows[k].movie == movies[k];
    }
  }

  /** `OrderByDescending(m => m.CreatedDate)` and the `createdDate` sort column. */
  function CreatedDateKey(lm: LoadedMovie): Key {
    Num(lm.movie.createdDate as real)
  }

  /** Sorted newest first and cut to one page, as every list query but the grid does. */
  function NewestPage(rows: seq<LoadedMovie>, page: int, pageSize: int): (r: seq<LoadedMovie>)
    requires page >= 1 && pageSize >= 1
    ensures |r| <= pageSize
    ensures forall i :: 0 <= i < |r| ==> r[i] in rows
    ensures forall i, j :: 0 <= i < j < |r| ==> r[i].movie.createdDate >= r[j].movie.createdDate
    ensures r != [] <==> page <= CeilDiv(|rows|, pageSize)
    ensures r == Page(OrderBy(rows, CreatedDateKey, false), page, pageSize)
  {
    var r := SortedPage(rows, CreatedDateKey, false, page, pageSize);
    assert forall i, j :: 0 <= i < j < |r| ==> r[i].movie.createdDate >= r[j].movie.createdDate by {
      forall i, j | 0 <= i < j < |r| ensures r[i].movie.createdDate >= r[j].movie.createdDate {
        assert Before(CreatedDateKey(r[i]), CreatedDateKey(r[j]), false);
      }
    }
    r
  }

  /** Paging through a newest-first list of movies shows each of them on one of its pages. */
  lemma ListedOnSomePage(db: Db, movies: seq<Movie>, m: Movie, pageSize: int)
    requires m in movies && pageSize >= 1
    ensures exists p :: (1 <= p <= CeilDiv(|movies|, pageSize) &&
        ToMovieSummary(Load(db, m, false)) in Summaries(NewestPage(LoadAll(db, movies, false), p, pageSize)))
  {
    var rows := LoadAll(db, movies, false);
    var lm := Load(db, m, false);
    var k :| 0 <= k < |movies| && movies[k] == m;
    assert rows[k] == lm;
    var p, j := OrderedPagePosition(rows, CreatedDateKey, false, lm, pageSize);
    assert Summaries(NewestPage(rows, p, pageSize))[j] == ToMovieSummary(lm);
  }

  // ------------------------------------------------------------------ reads

  /**
   * A review as the movie page loads it: its author, the movie, and as `User.Ratings` the
   * author's ratings among the movie's loaded ratings (the only ones the query tracks).
   */
  function MoviePageRow(db: Db, m: Movie, rv: Review): LoadedReview {
    LoadedReview(rv, FindUser(db.users, rv.userId), Some(m),
                 Where(RatingsOfMovie(db.ratings, m.id), (rt: Rating) => rt.userId == rv.userId))
  }

  /**
   * `GetMovieByIdAsync`: the movie with its creator, its ratings and its reviews with their
   * authors. Each review's rating is looked up among the loaded ratings of this movie.
   */
  function GetMovieById(db: Db, movieId: int): (r: Option<MovieDto>)
    ensures r.None? <==> forall i :: 0 <= i < |db.movies| ==> db.movies[i].id != movieId
    ensures r.Some? ==> r.value.movieId == movieId
    ensures r.Some? ==> r.value.reviewCount == |r.value.reviews| == |ReviewsOfMovie(db.reviews, movieId)|
    ensures r.Some? ==> forall i :: 0 <= i < |r.value.reviews| ==> r.value.reviews[i].movieId == movieId
    ensures r.Some? ==> (FindMovie(db.movies, movieId).Some? &&
      var m := FindMovie(db.movies, movieId).value;
      var creator := FindUser(db.users, m.createdBy);
      && r.value.title == m.title && r.value.director == m.director && r.value.genre == m.genre
      && r.value.description == m.description && r.value.createdDate == m.createdDate
      && (r.value.createdByUserName.Some? <==> creator.Some?)
      && (creator.Some? ==> r.value.createdByUserName == Some(creator.value.userName))
      && r.value.averageRating == AverageRating(RatingsOfMovie(db.ratings, movieId))
      && forall k :: 0 <= k < |r.value.reviews| ==>
           r.value.reviews[k] == ToReviewDto(MoviePageRow(db, m, ReviewsOfMovie(db.reviews, movieId)[k])))
    ensures r.Some? ==> var rows := ReviewsOfMovie(db.reviews, movieId);
      forall k :: 0 <= k < |rows| ==>
        && r.value.reviews[k].reviewId == rows[k].id && r.value.reviews[k].reviewText == rows[k].text
        && r.value.reviews[k].createdDate == rows[k].createdDate
        && (r.value.reviews[k].userName.Some? <==> FindUser(db.users, rows[k].userId).Some?)
        && (FindUser(db.users, rows[k].userId).Some? ==>
              r.value.reviews[k].userName == Some(FindUser(db.users, rows[k].userId).value.userName))
        && r.value.reviews[k].movieTitle == Some(r.value.title)
  {
    match FindMovie(db.movies, movieId)
    case None => None
    case Some(m) =>
      var lm := Load(db, m, true);
      Some(ToMovieDto(lm, Select(lm.reviews, (rv: Review) => ToReviewDto(MoviePageRow(db, m, rv)))))
  }

  /** The loaded ratings of a review's author hold, with distinct pairs, just their rating of the movie. */
  lemma MoviePageRowShowsOwnRating(db: Db, m: Movie, rv: Review)
    requires rv.movieId == m.id && UserExists(db.users, rv.userId) && DistinctBy(db.ratings, RatingPair)
    ensures ToReviewDto(MoviePageRow(db, m, rv)).ratingValue == RatingOf(db.ratings, rv.userId, m.id)
  {
    var lr := MoviePageRow(db, m, rv);
    var us := lr.userRatings;
    var own := RatingOf(db.ratings, rv.userId, m.id);
    if own.Some? {
      var j :| 0 <= j < |db.ratings| && RatingPair(db.ratings[j]) == (rv.userId, m.id) && db.ratings[j].value == own.value;
      assert db.ratings[j] in RatingsOfMovie(db.ratings, m.id);
      assert db.ratings[j] in us;
      var v := ToReviewDto(lr).ratingValue;
      assert v.Some?;
      var n :| 0 <= n < |us| && us[n].movieId == m.id && us[n].value == v.value;
      assert us[n] in db.ratings && us[n].userId == rv.userId;
      var i :| 0 <= i < |db.ratings| && db.ratings[i] == us[n];
      assert RatingPair(db.ratings[i]) == RatingPair(db.ratings[j]);
    }
  }

  /** On the movie's own page every review shows its author's rating of the movie, or null. */
  lemma MovieDetailShowsOwnRatings(db: Db, movieId: int)
    requires Consistent(db)
    ensures var r := GetMovieById(db, movieId);
      r.Some? ==> var rows := ReviewsOfMovie(db.reviews, movieId);
        forall k :: 0 <= k < |rows| ==> r.value.reviews[k].ratingValue == RatingOf(db.ratings, rows[k].userId, movieId)
  {
    var r := GetMovieById(db, movieId);
    if r.Some? {
      var m := FindMovie(db.movies, movieId).value;
      var rows := ReviewsOfMovie(db.reviews, movieId);
      forall k | 0 <= k < |rows| ensures r.value.reviews[k].ratingValue == RatingOf(db.ratings, rows[k].userId, movieId) {
        var i :| 0 <= i < |db.reviews| && db.reviews[i] == rows[k];
        MoviePageRowShowsOwnRating(db, m, rows[k]);
      }
    }
  }

  /** `GetAllMoviesAsync`: newest first, one page; `CreatedByUser` is not loaded. */
  function GetAllMovies(db: Db, page: int, pageSize: int): (r: seq<MovieSummaryDto>)
    requires page >= 1 && pageSize >= 1
    ensures |r| <= pageSize
    ensures forall i, j :: 0 <= i < j < |r| ==> r[i].createdDate >= r[j].createdDate
    ensures forall i :: 0 <= i < |r| ==> r[i].createdByUserName == "System" && r[i].createdByUserEmail.None?
    ensures r != [] <==> page <= CeilDiv(|db.movies|, pageSize)
    ensures r == Summaries(Page(OrderBy(LoadAll(db, db.movies, false), CreatedDateKey, false), page, pageSize))
  {
    Summaries(NewestPage(LoadAll(db, db.movies, false), page, pageSize))
  }

  /** Paging through the list shows every movie, each on one of the `CeilDiv(count, size)` pages. */
  lemma EveryMovieIsListed(db: Db, m: Movie, pageSize: int)
    requires m in db.movies && pageSize >= 1
    ensures exists p :: (1 <= p <= CeilDiv(|db.movies|, pageSize) &&
        ToMovieSummary(Load(db, m, false)) in GetAllMovies(db, p, pageSize))
  {
    ListedOnSomePage(db, db.movies, m, pageSize);
    var p :| 1 <= p <= CeilDiv(|db.movies|, pageSize) &&
      ToMovieSummary(Load(db, m, false)) in Summaries(NewestPage(LoadAll(db, db.movies, false), p, pageSize));
    assert GetAllMovies(db, p, pageSize) == Summaries(NewestPage(LoadAll(db, db.movies, false), p, pageSize));
  }

  /** `GetAllMoviesCountAsync`. */
  function GetAllMoviesCount(db: Db): nat {
    |db.movies|
  }

  /** `string.Contains` as the database evaluates it: under a case-insensitive collation or not. */
  predicate Matches(hay: string, needle: string, caseInsensitive: bool) {
    if caseInsensitive then Contains(Lower(hay), Lower(needle)) else Contains(hay, needle)
  }

  /** The OR-search of `SearchMoviesAsync` and `GetSearchCountAsync`: title, director or genre. */
  predicate SearchHit(m: Movie, term: string, caseInsensitive: bool) {
    || Matches(m.title, term, caseInsensitive)
    || Matches(m.director, term, caseInsensitive)
    || (m.genre.Some? && Matches(m.genre.value, term, caseInsensitive))
  }

  /** The movies the search keeps: all of them when `title` is null or empty. */
  function SearchFilter(movies: seq<Movie>, title: Option<string>, caseInsensitive: bool): (r: seq<Movie>)
    ensures IsNullOrEmpty(title) ==> r == movies
    ensures !IsNullOrEmpty(title) ==> forall m :: m in r <==> m in movies && SearchHit(m, title.value, caseInsensitive)
  {
    if IsNullOrEmpty(title) then movies
    else Where(movies, (m: Movie) => SearchHit(m, title.value, caseInsensitive))
  }

  /**
   * `SearchMoviesAsync`: the OR-search by `title`, newest first, one page. `director` and
   * `genre` are accepted and ignored.
   */
  function SearchMovies(db: Db, title: Option<string>, director: Option<string>, genre: Option<string>,
                        page: int, pageSize: int, caseInsensitive: bool): (r: seq<MovieSummaryDto>)
    requires page >= 1 && pageSize >= 1
    ensures |r| <= pageSize
    ensures forall i, j :: 0 <= i < j < |r| ==> r[i].createdDate >= r[j].createdDate
    ensures !IsNullOrEmpty(title) ==> forall i :: 0 <= i < |r| ==>
      exists m | m in db.movies :: m.id == r[i].movieId && SearchHit(m, title.value, caseInsensitive)
    ensures r != [] <==> page <= CeilDiv(GetSearchCount(db, title, director, genre, caseInsensitive), pageSize)
    ensures r == Summaries(Page(OrderBy(LoadAll(db, SearchFilter(db.movies, title, caseInsensitive), false),
                                        CreatedDateKey, false), page, pageSize))
  {
    var filtered := SearchFilter(db.movies, title, caseInsensitive);
    var rows := LoadAll(db, filtered, false);
    var pageRows := NewestPage(rows, page, pageSize);
    assert |rows| == GetSearchCount(db, title, director, genre, caseInsensitive);
    PageRowsComeFrom(db, filtered, false, page, pageSize);
    Summaries(pageRows)
  }

  /** `GetSearchCountAsync`: the size of the set the search pages through. */
  function GetSearchCount(db: Db, title: Option<string>, director: Option<string>, genre: Option<string>,
                          caseInsensitive: bool): (r: nat)
    ensures r <= |db.movies|
    ensures IsNullOrEmpty(title) ==> r == |db.movies|
    ensures r == |SearchFilter(db.movies, title, caseInsensitive)|
  {
    |SearchFilter(db.movies, title, caseInsensitive)|
  }

  /**
   * Paging through the search shows every hit (every movie when the term is empty), each on
   * one of the pages the count announces.
   */
  lemma SearchListsEveryHit(db: Db, title: Option<string>, director: Option<string>, genre: Option<string>,
                            caseInsensitive: bool, m: Movie, pageSize: int)
    requires m in db.movies && pageSize >= 1
    requires IsNullOrEmpty(title) || SearchHit(m, title.value, caseInsensitive)
    ensures exists p :: (1 <= p <= CeilDiv(GetSearchCount(db, title, director, genre, caseInsensitive), pageSize) &&
        ToMovieSummary(Load(db, m, false)) in SearchMovies(db, title, director, genre, p, pageSize, caseInsensitive))
  {
    var filtered := SearchFilter(db.movies, title, caseInsensitive);
    ListedOnSomePage(db, filtered, m, pageSize);
    var p :| 1 <= p <= CeilDiv(|filtered|, pageSize) &&
      ToMovieSummary(Load(db, m, false)) in Summaries(NewestPage(LoadAll(db, filtered, false), p, pageSize));
    assert SearchMovies(db, title, director, genre, p, pageSize, caseInsensitive)
      == Summaries(NewestPage(LoadAll(db, filtered, false), p, pageSize));
  }

  /** `GetMoviesByUserAsync`: the user's movies, newest first, one page. */
  function GetMoviesByUser(db: Db, userId: UserId, page: int, pageSize: int): (r: seq<MovieSummaryDto>)
    requires page >= 1 && pageSize >= 1
    ensures |r| <= pageSize
    ensures forall i :: 0 <= i < |r| ==> r[i].createdByUserId == userId
    ensures forall i, j :: 0 <= i < j < |r| ==> r[i].createdDate >= r[j].createdDate
    ensures r != [] <==> page <= CeilDiv(|MoviesByUser(db.movies, userId)|, pageSize)
    ensures r == Summaries(Page(OrderBy(LoadAll(db, MoviesByUser(db.movies, userId), false), CreatedDateKey, false),
                                page, pageSize))
  {
    var rows := LoadAll(db, MoviesByUser(db.movies, userId), false);
    var pageRows := NewestPage(rows, page, pageSize);
    PageRowsComeFrom(db, MoviesByUser(db.movies, userId), false, page, pageSize);
    Summaries(pageRows)
  }

  /** Paging through the user's list shows every movie the user created. */
  lemma EveryMovieOfUserIsListed(db: Db, userId: UserId, m: Movie, pageSize: int)
    requires m in db.movies && m.createdBy == userId && pageSize >= 1
    ensures exists p :: (1 <= p <= CeilDiv(|MoviesByUser(db.movies, userId)|, pageSize) &&
        ToMovieSummary(Load(db, m, false)) in GetMoviesByUser(db, userId, p, pageSize))
  {
    var mine := MoviesByUser(db.movies, userId);
    WhereMembers(db.movies, (m: Movie) => m.createdBy == userId);
    ListedOnSomePage(db, mine, m, pageSize);
    var p :| 1 <= p <= CeilDiv(|mine|, pageSize) &&
      ToMovieSummary(Load(db, m, false)) in Summaries(NewestPage(LoadAll(db, mine, false), p, pageSize));
    assert GetMoviesByUser(db, userId, p, pageSize) == Summaries(NewestPage(LoadAll(db, mine, false), p, pageSize));
  }

  // ------------------------------------------------------------------- grid

  /**
   * The grid's search: a blank term keeps every movie; otherwise the trimmed, lower-cased
   * term must occur in the lower-cased title or director (the genre is not searched).
   */
  predicate SearchPasses(m: Movie, search: Option<string>) {
    || IsNullOrWhiteSpace(search)
    || (var term := Lower(Trim(DotNet, search.value));
        Contains(Lower(m.title), term) || Contains(Lower(m.director), term))
  }

  /**
   * The grid's genre filter: a blank value or "all" in any case keeps every movie;
   * otherwise the movie needs a genre containing the (untrimmed) value, ignoring case.
   */
  predicate GenrePasses(m: Movie, genre: Option<string>) {
    || IsNullOrWhiteSpace(genre)
    || Lower(genre.value) == "all"
    || (m.genre.Some? && Contains(Lower(m.genre.value), Lower(genre.value)))
  }

  function GridFilter(movies: seq<Movie>, search: Option<string>, genre: Option<string>): (r: seq<Movie>)
    ensures forall i :: 0 <= i < |r| ==> r[i] in movies && SearchPasses(r[i], search) && GenrePasses(r[i], genre)
    ensures forall i :: 0 <= i < |movies| && SearchPasses(movies[i], search) && GenrePasses(movies[i], genre) ==>
      movies[i] in r
    ensures (forall i :: 0 <= i < |movies| ==> SearchPasses(movies[i], search) && GenrePasses(movies[i], genre)) ==>
      r == movies
  {
    var p := (m: Movie) => SearchPasses(m, search) && GenrePasses(m, genre);
    if forall i :: 0 <= i < |movies| ==> p(movies[i]) then
      WhereAll(movies, p);
      Where(movies, p)
    else
      Where(movies, p)
  }

  /** The columns `ApplySorting` knows. */
  datatype SortColumn = ByTitle | ByDirector | ByGenre | ByAverageRating | ByReviewCount | ByCreatedDate

  /** The lower-case name a `sortBy` value must have to select the column. */
  function ColumnName(c: SortColumn): string {
    match c
    case ByTitle => "title"
    case ByDirector => "director"
    case ByGenre => "genre"
    case ByAverageRating => "averagerating"
    case ByReviewCount => "reviewcount"
    case ByCreatedDate => "createddate"
  }

  /** The column a lower-cased `sortBy` names, if any. */
  function ColumnNamed(name: string): (r: Option<SortColumn>)
    ensures r.Some? ==> ColumnName(r.value) == name
    ensures r.None? <==> forall c: SortColumn :: ColumnName(c) != name
  {
    if name == "title" then Some(ByTitle)
    else if name == "director" then Some(ByDirector)
    else if name == "genre" then Some(ByGenre)
    else if name == "averagerating" then Some(ByAverageRating)
    else if name == "reviewcount" then Some(ByReviewCount)
    else if name == "createddate" then Some(ByCreatedDate)
    else None
  }

  /**
   * How `ApplySorting` reads its arguments: a blank `sortBy` means the creation date and a
   * blank `sortOrder` means descending; the order is ascending only for "asc" in any case;
   * an unknown column sorts by creation date, newest first, whatever the order says.
   */
  function SortSpec(sortBy: Option<string>, sortOrder: Option<string>): (r: (SortColumn, bool))
    ensures IsNullOrWhiteSpace(sortBy) ==> r.0 == ByCreatedDate
    ensures !IsNullOrWhiteSpace(sortBy) && ColumnNamed(Lower(sortBy.value)).Some? ==>
      ColumnName(r.0) == Lower(sortBy.value)
    ensures !IsNullOrWhiteSpace(sortBy) && ColumnNamed(Lower(sortBy.value)).None? ==> r == (ByCreatedDate, false)
    ensures r.1 <==> (IsNullOrWhiteSpace(sortBy) || ColumnNamed(Lower(sortBy.value)).Some?)
                     && !IsNullOrWhiteSpace(sortOrder) && Lower(sortOrder.value) == "asc"
  {
    var name := if IsNullOrWhiteSpace(sortBy) then "createddate" else Lower(sortBy.value);
    var asc := !IsNullOrWhiteSpace(sortOrder) && Lower(sortOrder.value) == "asc";
    match ColumnNamed(name)
    case Some(c) => (c, asc)
    case None => (ByCreatedDate, false)
  }

  /** The value a column sorts by: `Genre ?? ""`, and 0 as the average of an unrated movie. */
  function SortKey(c: SortColumn, lm: LoadedMovie): Key {
    match c
    case ByTitle => Str(lm.movie.title)
    case ByDirector => Str(lm.movie.director)
    case ByGenre => Str(lm.movie.genre.GetOr(""))
    case ByAverageRating => Num(AverageRating(lm.ratings))
    case ByReviewCount => Num(|lm.reviews| as real)
    case ByCreatedDate => Num(lm.movie.createdDate as real)
  }

  function ColumnKey(c: SortColumn): LoadedMovie -> Key {
    lm => SortKey(c, lm)
  }

  /** `ApplySorting`: the rows, reordered by the chosen column in the chosen direction. */
  function ApplySorting(rows: seq<LoadedMovie>, sortBy: Option<string>, sortOrder: Option<string>): (r: seq<LoadedMovie>)
    ensures multiset(r) == multiset(rows)
    ensures |r| == |rows|
    ensures forall i :: 0 <= i < |r| ==> r[i] in rows
    ensures SortedBy(r, ColumnKey(SortSpec(sortBy, sortOrder).0), SortSpec(sortBy, sortOrder).1)
  {
    var spec := SortSpec(sortBy, sortOrder);
    OrderByLength(rows, ColumnKey(spec.0), spec.1);
    var r := OrderBy(rows, ColumnKey(spec.0), spec.1);
    assert forall i :: 0 <= i < |r| ==> r[i] in rows by {
      forall i | 0 <= i < |r| ensures r[i] in rows {
        OrderByMembers(rows, ColumnKey(spec.0), spec.1, r[i]);
      }
    }
    r
  }

  /** The grid query before paging: filtered, loaded with creators, sorted. */
  function GridRows(db: Db, sortBy: Option<string>, sortOrder: Option<string>,
                    search: Option<string>, genre: Option<string>): (r: seq<LoadedMovie>)
    ensures |r| == |GridFilter(db.movies, search, genre)|
    ensures forall i :: 0 <= i < |r| ==> r[i].movie in GridFilter(db.movies, search, genre)
    ensures forall i :: 0 <= i < |r| ==> r[i] == Load(db, r[i].movie, true)
    ensures SortedBy(r, ColumnKey(SortSpec(sortBy, sortOrder).0), SortSpec(sortBy, sortOrder).1)
  {
    ApplySorting(LoadAll(db, GridFilter(db.movies, search, genre), true), sortBy, sortOrder)
  }

  /**
   * `GetMoviesWithSortingAsync`: one page of the grid and the number of movies that pass
   * the filters, counted before paging.
   */
  function GetMoviesWithSorting(db: Db, page: int, pageSize: int, sortBy: Option<string>, sortOrder: Option<string>,
                                search: Option<string>, genre: Option<string>): (r: (seq<MovieSummaryDto>, nat))
    requires page >= 1 && pageSize >= 1
    ensures |r.0| <= pageSize
    ensures r.1 <= |db.movies|
    ensures r.0 != [] <==> page <= CeilDiv(r.1, pageSize)
    ensures IsNullOrWhiteSpace(search) && (IsNullOrWhiteSpace(genre) || Lower(genre.value) == "all") ==>
      r.1 == |db.movies|
    ensures r.1 == |GridFilter(db.movies, search, genre)|
    ensures r.0 == Summaries(Page(GridRows(db, sortBy, sortOrder, search, genre), page, pageSize))
  {
    var rows := GridRows(db, sortBy, sortOrder, search, genre);
    PageNonEmptyIff(rows, page, pageSize);
    (Summaries(Page(rows, page, pageSize)), |rows|)
  }

  /** Every movie on a grid page is a stored movie that passes the search and the genre filter. */
  lemma GridPagePassesFilters(db: Db, page: int, pageSize: int, sortBy: Option<string>, sortOrder: Option<string>,
                              search: Option<string>, genre: Option<string>)
    requires page >= 1 && pageSize >= 1
    ensures var pg := Page(GridRows(db, sortBy, sortOrder, search, genre), page, pageSize);
      forall k :: 0 <= k < |pg| ==>
        pg[k].movie in db.movies && SearchPasses(pg[k].movie, search) && GenrePasses(pg[k].movie, genre)
  {
    var rows := GridRows(db, sortBy, sortOrder, search, genre);
    var filtered := GridFilter(db.movies, search, genre);
    var pg := Page(rows, page, pageSize);
    forall k | 0 <= k < |pg|
      ensures pg[k].movie in db.movies && SearchPasses(pg[k].movie, search) && GenrePasses(pg[k].movie, genre)
    {
      assert pg[k] == rows[Offset(page, pageSize) + k];
      var i :| 0 <= i < |filtered| && filtered[i] == pg[k].movie;
    }
  }

  /** The rows behind a page of the grid are in the requested column order. */
  lemma GridPageIsSorted(db: Db, page: int, pageSize: int, sortBy: Option<string>, sortOrder: Option<string>,
                         search: Option<string>, genre: Option<string>)
    requires page >= 1 && pageSize >= 1
    ensures SortedBy(Page(GridRows(db, sortBy, sortOrder, search, genre), page, pageSize),
                     ColumnKey(SortSpec(sortBy, sortOrder).0), SortSpec(sortBy, sortOrder).1)
  {
    PageKeepsOrder(GridRows(db, sortBy, sortOrder, search, genre), page, pageSize,
                   ColumnKey(SortSpec(sortBy, sortOrder).0), SortSpec(sortBy, sortOrder).1);
  }

  /**
   * Paging through the grid shows every movie that passes both filters, with its creator,
   * each on one of the pages the count announces.
   */
  lemma GridListsEveryMatch(db: Db, pageSize: int, sortBy: Option<string>, sortOrder: Option<string>,
                            search: Option<string>, genre: Option<string>, m: Movie)
    requires m in db.movies && SearchPasses(m, search) && GenrePasses(m, genre) && pageSize >= 1
    ensures exists p :: (1 <= p <= CeilDiv(|GridFilter(db.movies, search, genre)|, pageSize) &&
        ToMovieSummary(Load(db, m, true)) in GetMoviesWithSorting(db, p, pageSize, sortBy, sortOrder, search, genre).0)
  {
    var rows := GridRows(db, sortBy, sortOrder, search, genre);
    var p, j := GridRowPosition(db, pageSize, sortBy, sortOrder, search, genre, m);
    var shown := GetMoviesWithSorting(db, p, pageSize, sortBy, sortOrder, search, genre).0;
    assert shown == Summaries(Page(rows, p, pageSize));
    assert shown[j] == ToMovieSummary(Load(db, m, true));
  }

  /** The grid page and the position on it where a movie passing the filters is shown. */
  lemma GridRowPosition(db: Db, pageSize: int, sortBy: Option<string>, sortOrder: Option<string>,
                        search: Option<string>, genre: Option<string>, m: Movie) returns (p: int, j: int)
    requires m in db.movies && SearchPasses(m, search) && GenrePasses(m, genre) && pageSize >= 1
    ensures 1 <= p <= CeilDiv(|GridFilter(db.movies, search, genre)|, pageSize)
    ensures var pg := Page(GridRows(db, sortBy, sortOrder, search, genre), p, pageSize);
      0 <= j < |pg| && pg[j] == Load(db, m, true)
  {
    var filtered := GridFilter(db.movies, search, genre);
    var loaded := LoadAll(db, filtered, true);
    var rows := GridRows(db, sortBy, sortOrder, search, genre);
    var i :| 0 <= i < |db.movies| && db.movies[i] == m;
    assert m in filtered;
    var k :| 0 <= k < |filtered| && filtered[k] == m;
    assert loaded[k] == Load(db, m, true);
    assert multiset(rows) == multiset(loaded);
    assert Load(db, m, true) in multiset(rows);
    p, j := PagePosition(rows, Load(db, m, true), pageSize);
  }

  /** With no sort arguments the grid lists the newest movies first. */
  lemma GridDefaultsToNewestFirst(db: Db, search: Option<string>, genre: Option<string>)
    ensures var r := GridRows(db, None, None, search, genre);
      forall i, j :: 0 <= i < j < |r| ==> r[i].movie.createdDate >= r[j].movie.createdDate
  {
    assert SortSpec(None, None) == (ByCreatedDate, false);
    NewestFirstByDateKey(GridRows(db, None, None, search, genre));
  }

  /** Rows sorted descending by the createdDate column are newest first. */
  lemma NewestFirstByDateKey(r: seq<LoadedMovie>)
    requires SortedBy(r, ColumnKey(ByCreatedDate), false)
    ensures forall i, j :: 0 <= i < j < |r| ==> r[i].movie.createdDate >= r[j].movie.createdDate
  {
    forall i, j | 0 <= i < j < |r| ensures r[i].movie.createdDate >= r[j].movie.createdDate {
      assert Before(ColumnKey(ByCreatedDate)(r[i]), ColumnKey(ByCreatedDate)(r[j]), false);
      assert ColumnKey(ByCreatedDate)(r[i]) == Num(r[i].movie.createdDate as real);
      assert ColumnKey(ByCreatedDate)(r[j]) == Num(r[j].movie.createdDate as real);
    }
  }

  /**
   * Sorting by genre ascending puts the movies without a genre (sorted as "") ahead of every
   * movie with a non-empty genre.
   */
  lemma GenrelessFirstWhenAscending(r: seq<LoadedMovie>, i: int, j: int)
    requires SortedBy(r, ColumnKey(ByGenre), true)
    requires 0 <= i < |r| && 0 <= j < |r|
    requires r[i].movie.genre.None? && r[j].movie.genre.Some? && r[j].movie.genre.value != []
    ensures i < j
  {
  }

  /**
   * Sorting by average rating ascending puts the unrated movies (sorted as 0) ahead of
   * every rated movie whose ratings are on the 1 to 5 scale.
   */
  lemma UnratedFirstWhenAscending(r: seq<LoadedMovie>, i: int, j: int)
    requires SortedBy(r, ColumnKey(ByAverageRating), true)
    requires 0 <= i < |r| && 0 <= j < |r|
    requires r[i].ratings == [] && r[j].ratings != [] && OnScale(r[j].ratings)
    ensures i < j
  {
  }

  /** Asking the grid for ascending genre order lists the genreless movies first. */
  lemma GridGenrelessFirst(db: Db, sortBy: Option<string>, sortOrder: Option<string>,
                           search: Option<string>, genre: Option<string>, i: int, j: int)
    requires SortSpec(sortBy, sortOrder) == (ByGenre, true)
    requires var r := GridRows(db, sortBy, sortOrder, search, genre);
      0 <= i < |r| && 0 <= j < |r| && r[i].movie.genre.None? && r[j].movie.genre.Some? && r[j].movie.genre.value != []
    ensures i < j
  {
    var r := GridRows(db, sortBy, sortOrder, search, genre);
    GenrelessFirstWhenAscending(r, i, j);
  }

  /**
   * Unlike the other lists, the grid loads `CreatedByUser`: in a consistent database every
   * grid row carries its creator's user name and email.
   */
  lemma GridShowsCreators(db: Db, page: int, pageSize: int, sortBy: Option<string>, sortOrder: Option<string>,
                          search: Option<string>, genre: Option<string>)
    requires page >= 1 && pageSize >= 1
    requires Consistent(db)
    ensures var r := GetMoviesWithSorting(db, page, pageSize, sortBy, sortOrder, search, genre).0;
      forall i :: 0 <= i < |r| ==> exists u | u in db.users ::
        u.id == r[i].createdByUserId && u.userName == r[i].createdByUserName && u.email == r[i].createdByUserEmail
  {
    var rows := GridRows(db, sortBy, sortOrder, search, genre);
    var pageRows := Page(rows, page, pageSize);
    var r := GetMoviesWithSorting(db, page, pageSize, sortBy, sortOrder, search, genre).0;
    assert r == Summaries(pageRows);
    forall i | 0 <= i < |r| ensures exists u | u in db.users ::
        u.id == r[i].createdByUserId && u.userName == r[i].createdByUserName && u.email == r[i].createdByUserEmail {
      var lm := pageRows[i];
      assert lm in rows;
      var m := lm.movie;
      assert m in db.movies;
      var k :| 0 <= k < |db.movies| && db.movies[k] == m;
      assert UserExists(db.users, m.createdBy);
      var u := FindUser(db.users, m.createdBy);
      assert u.Some?;
      assert lm.creator == u;
    }
  }
}

=== FILE: movies_controller.dfy ===
/**
 * `MoviesController`: each action reads its query arguments (with their defaults), asks the
 * movie service, and shapes the answer: a paging envelope, a 404 for a missing or foreign
 * movie, a 201 pointing at the new movie, or a 400 carrying the failure's message. A body
 * that breaks the request's data annotations is answered with a 400 before the action runs.
 */
module MoviesController {
  import opened Wrappers
  import opened Text
  import opened Query
  import opened Paging
  import opened Entities
  import opened Schema
  import opened Mapping
  import opened Store
  import opened Responses
  import opened MovieService

  const DefaultPage := 1
  const DefaultPageSize := 10
  const DefaultSortBy := "createdDate"
  const DefaultSortOrder := "desc"

  // --------------------------------------------------------------- request body

  /** The fields of a `CreateMovieRequest` / `UpdateMovieRequest` that break their annotations. */
  function MovieRequestErrors(request: MovieRequest): (r: seq<string>)
    ensures r == [] <==>
      && RequiredText(request.title) && |request.title| <= TitleMaxLength
      && RequiredText(request.director) && |request.director| <= DirectorMaxLength
      && FitsOptional(request.genre, GenreMaxLength)
      && FitsOptional(request.description, DescriptionMaxLength)
    ensures "Title" in r <==> !RequiredText(request.title) || |request.title| > TitleMaxLength
    ensures "Genre" in r <==> !FitsOptional(request.genre, GenreMaxLength)
  {
    (if RequiredText(request.title) && |request.title| <= 200 then [] else ["Title"])
    + (if RequiredText(request.director) && |request.director| <= 100 then [] else ["Director"])
    + (if FitsOptional(request.genre, 50) then [] else ["Genre"])
    + (if FitsOptional(request.description, 1000) then [] else ["Description"])
  }

  /**
   * The request annotations are the column widths: a movie built from an accepted body
   * always fits its table, and its title and director are never blank.
   */
  lemma AcceptedRequestFits(request: MovieRequest, id: int, now: int, creator: UserId)
    requires MovieRequestErrors(request) == []
    ensures MovieFits(Movie(id, request.title, request.director, request.genre, request.description, now, creator))
    ensures request.title != [] && request.director != []
  {
  }

  // ---------------------------------------------------------------- read actions

  /** `GET /api/movies`: one page of all movies, newest first, in the paging envelope. */
  function GetAllMovies(db: Db, page: Option<int>, pageSize: Option<int>): (r: Response<Paged<MovieSummaryDto>>)
    requires Arg(page, DefaultPage) >= 1 && Arg(pageSize, DefaultPageSize) >= 1
    ensures r.Ok?
    ensures r.body.currentPage == Arg(page, DefaultPage) && r.body.pageSize == Arg(pageSize, DefaultPageSize)
    ensures r.body.totalCount == |db.movies|
    ensures |r.body.items| <= r.body.pageSize
    ensures r.body.items != [] <==> r.body.currentPage <= r.body.totalPages
  {
    var p := Arg(page, DefaultPage);
    var size := Arg(pageSize, DefaultPageSize);
    Ok(Envelope(MovieService.GetAllMovies(db, p, size), GetAllMoviesCount(db), p, size))
  }

  /** `GET /api/movies/{id}`: the movie, or 404. */
  function GetById(db: Db, id: int): (r: Response<MovieDto>)
    ensures r.Ok? || r.NotFound?
    ensures r.NotFound? <==> !MovieExists(db.movies, id)
    ensures r.Ok? ==> r.body.movieId == id && Some(r.body) == GetMovieById(db, id)
  {
    match GetMovieById(db, id)
    case None => NotFound
    case Some(d) => Ok(d)
  }

  /**
   * `GET /api/movies/search`: one page of the search and its count; the envelope's pages
   * are counted over the same filter the page is cut from.
   */
  function Search(db: Db, title: Option<string>, director: Option<string>, genre: Option<string>,
                  page: Option<int>, pageSize: Option<int>, caseInsensitive: bool): (r: Response<Paged<MovieSummaryDto>>)
    requires Arg(page, DefaultPage) >= 1 && Arg(pageSize, DefaultPageSize) >= 1
    ensures r.Ok?
    ensures r.body.currentPage == Arg(page, DefaultPage) && r.body.pageSize == Arg(pageSize, DefaultPageSize)
    ensures r.body.totalCount == GetSearchCount(db, title, director, genre, caseInsensitive)
    ensures IsNullOrEmpty(title) ==> r.body.totalCount == |db.movies|
    ensures |r.body.items| <= r.body.pageSize
    ensures r.body.items != [] <==> r.body.currentPage <= r.body.totalPages
  {
    var p := Arg(page, DefaultPage);
    var size := Arg(pageSize, DefaultPageSize);
    Ok(Envelope(SearchMovies(db, title, director, genre, p, size, caseInsensitive),
                GetSearchCount(db, title, director, genre, caseInsensitive), p, size))
  }

  /** `GET /api/movies/user`: one page of the caller's movies, without an envelope. */
  function GetUserMovies(db: Db, caller: UserId, page: Option<int>, pageSize: Option<int>): (r: Response<seq<MovieSummaryDto>>)
    requires Arg(page, DefaultPage) >= 1 && Arg(pageSize, DefaultPageSize) >= 1
    ensures r.Ok?
    ensures |r.body| <= Arg(pageSize, DefaultPageSize)
    ensures forall i :: 0 <= i < |r.body| ==> r.body[i].createdByUserId == caller
  {
    Ok(GetMoviesByUser(db, caller, Arg(page, DefaultPage), Arg(pageSize, DefaultPageSize)))
  }

  /**
   * `GET /api/movies/grid`: the sorted and filtered page; an absent `sortBy` is "createdDate"
   * and an absent `sortOrder` is "desc".
   */
  function GetMoviesForGrid(db: Db, page: Option<int>, pageSize: Option<int>, sortBy: Option<string>,
                            sortOrder: Option<string>, search: Option<string>, genre: Option<string>)
    : (r: Response<Paged<MovieSummaryDto>>)
    requires Arg(page, DefaultPage) >= 1 && Arg(pageSize, DefaultPageSize) >= 1
    ensures r.Ok?
    ensures r.body.currentPage == Arg(page, DefaultPage) && r.body.pageSize == Arg(pageSize, DefaultPageSize)
    ensures r.body.totalCount <= |db.movies|
    ensures r.body.totalCount == |GridFilter(db.movies, search, genre)|
    ensures IsNullOrWhiteSpace(search) && IsNullOrWhiteSpace(genre) ==> r.body.totalCount == |db.movies|
    ensures |r.body.items| <= r.body.pageSize
    ensures r.body.items != [] <==> r.body.currentPage <= r.body.totalPages
  {
    var p := Arg(page, DefaultPage);
    var size := Arg(pageSize, DefaultPageSize);
    var result := GetMoviesWithSorting(db, p, size, Some(sortBy.GetOr(DefaultSortBy)),
                                       Some(sortOrder.GetOr(DefaultSortOrder)), search, genre);
    Ok(Envelope(result.0, result.1, p, size))
  }

  /** The grid's default arguments select the creation date, descending. */
  lemma GridDefaultSort()
    ensures SortSpec(Some(DefaultSortBy), Some(DefaultSortOrder)) == (ByCreatedDate, false)
  {
    assert !AllSpace(DotNet, DefaultSortBy) by {
      assert !IsSpace(DotNet, DefaultSortBy[0]);
    }
    assert Lower(DefaultSortBy) == "createddate";
    assert Lower(DefaultSortOrder) == "desc";
  }

  // -------------------------------------------------------------- write actions

  /** The movie with this key, in a table whose keys are distinct. */
  lemma FindsKeyedMovie(movies: seq<Movie>, k: nat)
    requires DistinctBy(movies, MovieKey) && k < |movies|
    ensures FindMovie(movies, movies[k].id) == Some(movies[k])
  {
    var f := FindMovie(movies, movies[k].id);
    var j :| 0 <= j < |movies| && movies[j] == f.value;
    assert MovieKey(movies[j]) == MovieKey(movies[k]);
  }

  /** No review or rating refers to a key that no movie has. */
  lemma NothingRefersToFreshMovie(db: Db, id: int)
    requires forall i :: 0 <= i < |db.movies| ==> db.movies[i].id != id
    requires forall i :: 0 <= i < |db.reviews| ==> MovieExists(db.movies, db.reviews[i].movieId)
    requires forall i :: 0 <= i < |db.ratings| ==> MovieExists(db.movies, db.ratings[i].movieId)
    ensures ReviewsOfMovie(db.reviews, id) == [] && RatingsOfMovie(db.ratings, id) == []
  {
    assert forall i :: 0 <= i < |db.reviews| ==> db.reviews[i].movieId != id;
    WhereEmptyIffNone(db.reviews, (rv: Review) => rv.movieId == id);
    assert forall i :: 0 <= i < |db.ratings| ==> db.ratings[i].movieId != id;
    WhereEmptyIffNone(db.ratings, (rt: Rating) => rt.movieId == id);
  }

  /**
   * What `GetMovieByIdAsync` shows of a movie just added under a fresh key: its own columns,
   * its creator's name, and no reviews and no ratings yet.
   */
  lemma NewMovieShown(db: Db, m: Movie)
    requires forall i :: 0 <= i < |db.movies| ==> db.movies[i].id != m.id
    requires forall i :: 0 <= i < |db.reviews| ==> MovieExists(db.movies, db.reviews[i].movieId)
    requires forall i :: 0 <= i < |db.ratings| ==> MovieExists(db.movies, db.ratings[i].movieId)
    requires UserExists(db.users, m.createdBy)
    ensures var r := GetMovieById(db.(movies := db.movies + [m]), m.id);
      && r.Some?
      && r.value.title == m.title && r.value.director == m.director
      && r.value.genre == m.genre && r.value.description == m.description
      && r.value.createdDate == m.createdDate && r.value.createdByUserName.Some?
      && r.value.reviews == [] && r.value.reviewCount == 0 && r.value.averageRating == 0.0
  {
    var after := db.(movies := db.movies + [m]);
    assert after.movies[|db.movies|] == m;
    var f := FindMovie(after.movies, m.id);
    var j :| 0 <= j < |after.movies| && after.movies[j] == f.value;
    assert j == |db.movies|;
    NothingRefersToFreshMovie(db, m.id);
    assert FindUser(db.users, m.createdBy).Some?;
  }

  /**
   * `POST /api/movies`: a 400 listing the broken fields, or the new movie with a 201 that
   * points at it; the save fails, and the action answers 400 with the exception's message,
   * only when the caller's id is not a user.
   */
  method Create(ctx: Context, request: MovieRequest, caller: UserId, now: int) returns (r: Response<Option<MovieDto>>)
    requires ctx.Valid()
    modifies ctx
    ensures ctx.Valid()
    ensures MovieRequestErrors(request) != [] ==>
      r == ValidationProblem(MovieRequestErrors(request)) && ctx.State() == old(ctx.State())
    ensures MovieRequestErrors(request) == [] && !UserExists(old(ctx.users), caller) ==>
      r == BadRequest(Message(SaveRejected)) && ctx.State() == old(ctx.State())
    ensures MovieRequestErrors(request) == [] && UserExists(old(ctx.users), caller) ==>
      && r.CreatedAt? && r.id == old(ctx.nextMovieId)
      && r.created == GetMovieById(ctx.State(), r.id) && r.created.Some?
      && r.created.value.title == request.title && r.created.value.director == request.director
      && r.created.value.genre == request.genre && r.created.value.description == request.description
      && r.created.value.createdDate == now && r.created.value.createdByUserName.Some?
      && r.created.value.reviews == [] && r.created.value.averageRating == 0.0
  {
    var errors := MovieRequestErrors(request);
    if errors != [] {
      return ValidationProblem(errors);
    }
    AcceptedRequestFits(request, ctx.nextMovieId, now, caller);
    ghost var before := ctx.State();
    var outcome := CreateMovie(ctx, request, caller, now);
    match outcome
    case Failure(f) =>
      r := BadRequest(Message(f));
    case Success(m) =>
      NewMovieShown(before, m);
      r := CreatedAt(m.id, GetMovieById(ctx.State(), m.id));
  }

  /**
   * `PUT /api/movies/{id}`: a 400 listing the broken fields, a 404 unless the movie is the
   * caller's, and otherwise the movie as it now reads with the request's columns.
   */
  method Update(ctx: Context, id: int, request: MovieRequest, caller: UserId) returns (r: Response<Option<MovieDto>>)
    requires ctx.Valid()
    modifies ctx
    ensures ctx.Valid()
    ensures MovieRequestErrors(request) != [] ==>
      r == ValidationProblem(MovieRequestErrors(request)) && ctx.State() == old(ctx.State())
    ensures MovieRequestErrors(request) == [] && OwnedMovieIndex(old(ctx.movies), id, caller).None? ==>
      r == NotFound && ctx.State() == old(ctx.State())
    ensures MovieRequestErrors(request) == [] && OwnedMovieIndex(old(ctx.movies), id, caller).Some? ==>
      && r.Ok? && r.body == GetMovieById(ctx.State(), id) && r.body.Some?
      && r.body.value.title == request.title && r.body.value.director == request.director
      && r.body.value.genre == request.genre && r.body.value.description == request.description
  {
    var errors := MovieRequestErrors(request);
    if errors != [] {
      return ValidationProblem(errors);
    }
    var found := OwnedMovieIndex(ctx.movies, id, caller);
    if found.Some? {
      AcceptedRequestFits(request, id, ctx.movies[found.value].createdDate, caller);
    }
    var outcome := UpdateMovie(ctx, id, request, caller);
    match outcome
    case Failure(f) =>
      r := BadRequest(Message(f));
    case Success(None) =>
      r := NotFound;
    case Success(Some(m)) =>
      FindsKeyedMovie(ctx.movies, found.value);
      r := Ok(GetMovieById(ctx.State(), m.id));
  }

  /** `DELETE /api/movies/{id}`: 204 when the caller's movie (and what hangs off it) was removed, else 404. */
  method Delete(ctx: Context, id: int, caller: UserId) returns (r: Response<()>)
    requires ctx.Valid()
    modifies ctx
    ensures ctx.Valid()
    ensures r.NoContent? || r.NotFound?
    ensures r.NoContent? <==> OwnedMovieIndex(old(ctx.movies), id, caller).Some?
    ensures r.NoContent? ==> ctx.State() == DeleteMovieCascade(old(ctx.State()), id) && !MovieExists(ctx.movies, id)
    ensures r.NotFound? ==> ctx.State() == old(ctx.State())
  {
    var deleted := DeleteMovie(ctx, id, caller);
    if !deleted {
      return NotFound;
    }
    return NoContent;
  }
}

=== FILE: paging.dfy ===
/**
 * Skip/Take paging as every paged query applies it, `.Skip((page - 1) * pageSize)
 * .Take(pageSize)`, and the page count `totalPages` the controllers put in each envelope.
 */
module Paging {
  import opened Query

  /** Where page `page` starts: `(page - 1) * pageSize`. */
  function Offset(page: int, pageSize: int): (r: nat)
    requires page >= 1 && pageSize >= 1
    ensures page == 1 ==> r == 0
    ensures r + pageSize == page * pageSize
  {
    (page - 1) * pageSize
  }

  /**
   * `Skip(Offset).Take(pageSize)`: the run of at most `pageSize` elements starting at the
   * page's offset, empty once the offset is at or past the end.
   */
  function Page<T>(s: seq<T>, page: int, pageSize: int): (r: seq<T>)
    requires page >= 1 && pageSize >= 1
    ensures |r| <= pageSize
    ensures Offset(page, pageSize) >= |s| ==> r == []
    ensures Offset(page, pageSize) < |s| ==>
      |r| == if |s| - Offset(page, pageSize) < pageSize then |s| - Offset(page, pageSize) else pageSize
    ensures forall k :: 0 <= k < |r| ==> Offset(page, pageSize) + k < |s| && r[k] == s[Offset(page, pageSize) + k]
  {
    var skip := Offset(page, pageSize);
    if skip >= |s| then []
    else if |s| - skip < pageSize then s[skip..]
    else s[skip..skip + pageSize]
  }

  /** Integer ceiling of `total / size`: `(int)Math.Ceiling((double)total / size)`. */
  function CeilDiv(total: nat, size: int): (r: nat)
    requires size >= 1
    ensures r * size >= total
    ensures r == 0 || (r - 1) * size < total
  {
    var q := (total + size - 1) / size;
    DivBounds(total + size - 1, size);
    q
  }

  /** Facts about Euclidean division of a natural number by a positive one. */
  lemma DivBounds(n: nat, d: int)
    requires d >= 1
    ensures (n / d) * d <= n < (n / d) * d + d
    ensures n / d >= 0
  {
  }

  /** The page count is the least number of pages of `size` that hold `total` items. */
  lemma CeilDivLeast(total: nat, size: int, pages: nat)
    requires size >= 1
    requires pages * size >= total
    ensures CeilDiv(total, size) <= pages
  {
    var r := CeilDiv(total, size);
    if r > pages {
      MulMono(pages, r - 1, size);
    }
  }

  lemma MulMono(a: nat, b: nat, c: nat)
    requires a <= b
    ensures a * c <= b * c
  {
  }

  /** There are no pages exactly when there is nothing to page. */
  lemma CeilDivZeroIff(total: nat, size: int)
    requires size >= 1
    ensures CeilDiv(total, size) == 0 <==> total == 0
  {
  }

  /** A page holds items exactly when it is one of the `CeilDiv(|s|, size)` pages. */
  lemma {:induction false} PageNonEmptyIff<T>(s: seq<T>, page: int, pageSize: int)
    requires page >= 1 && pageSize >= 1
    ensures Page(s, page, pageSize) != [] <==> page <= CeilDiv(|s|, pageSize)
  {
    var n := CeilDiv(|s|, pageSize);
    var skip := Offset(page, pageSize);
    if page <= n {
      MulMono(page - 1, n - 1, pageSize);
      assert skip < |s|;
      assert |Page(s, page, pageSize)| > 0;
    } else {
      MulMono(n, page - 1, pageSize);
      assert skip >= |s|;
    }
  }

  /** Every item is on exactly one page: item `k` is entry `k % size` of page `k / size + 1`. */
  lemma {:induction false} ItemOnPage<T>(s: seq<T>, k: nat, pageSize: int)
    requires k < |s| && pageSize >= 1
    ensures k / pageSize + 1 >= 1
    ensures var p := Page(s, k / pageSize + 1, pageSize);
      k % pageSize < |p| && p[k % pageSize] == s[k]
  {
    var page := k / pageSize + 1;
    DivBounds(k, pageSize);
    assert Offset(page, pageSize) == (k / pageSize) * pageSize;
    assert Offset(page, pageSize) + k % pageSize == k;
  }

  /** Every element lies on one of the `CeilDiv(|s|, size)` pages. */
  lemma PageCovers<T>(s: seq<T>, x: T, pageSize: int)
    requires x in s && pageSize >= 1
    ensures exists p :: 1 <= p <= CeilDiv(|s|, pageSize) && x in Page(s, p, pageSize)
  {
    var k :| 0 <= k < |s| && s[k] == x;
    ItemOnPage(s, k, pageSize);
    var p := k / pageSize + 1;
    PageNonEmptyIff(s, p, pageSize);
    assert Page(s, p, pageSize)[k % pageSize] == x;
  }

  /** Every row lies on one of the pages of its ordering: no row is skipped by the paging. */
  lemma OrderedPageCovers<T>(rows: seq<T>, key: T -> Key, asc: bool, x: T, pageSize: int)
    requires x in rows && pageSize >= 1
    ensures exists p :: 1 <= p <= CeilDiv(|rows|, pageSize) && x in Page(OrderBy(rows, key, asc), p, pageSize)
  {
    OrderByLength(rows, key, asc);
    OrderByMembers(rows, key, asc, x);
    PageCovers(OrderBy(rows, key, asc), x, pageSize);
  }

  /**
   * Each page request sorts on its own, and the database may break ties differently each
   * time. When the key identifies its rows there are no ties, so every row is still on one
   * of the pages, whichever sorted order each request `p` gets as `order(p)`.
   */
  lemma UniqueKeysCoverAnyTieOrder<T>(rows: seq<T>, key: T -> Key, asc: bool, order: int -> seq<T>,
                                      x: T, pageSize: int)
    requires x in rows && pageSize >= 1 && KeyIdentifies(rows, key)
    requires forall p :: multiset(order(p)) == multiset(rows) && SortedBy(order(p), key, asc)
    ensures exists p :: 1 <= p <= CeilDiv(|rows|, pageSize) && x in Page(order(p), p, pageSize)
  {
    var p, j := OrderedPagePosition(rows, key, asc, x, pageSize);
    OrderByIsTheSortedOrder(rows, order(p), key, asc);
    assert Page(order(p), p, pageSize)[j] == x;
  }

  /**
   * With a tie the guarantee is gone: of two rows with the same key, one page-1 request may
   * sort `a` first and the page-2 request `b` first, so both pages show `a` and `b` is
   * never shown.
   */
  lemma TiedRowsCanBeSkipped<T>(a: T, b: T, key: T -> Key, asc: bool)
    requires a != b && key(a) == key(b)
    ensures SortedBy([a, b], key, asc) && SortedBy([b, a], key, asc)
    ensures CeilDiv(2, 1) == 2
    ensures Page([a, b], 1, 1) == [a] && Page([b, a], 2, 1) == [a]
  {
    BeforeReflexive(key(a), asc);
  }

  /** The page and the position on it where an element is shown. */
  lemma PagePosition<T>(s: seq<T>, x: T, pageSize: int) returns (p: int, j: int)
    requires x in s && pageSize >= 1
    ensures 1 <= p <= CeilDiv(|s|, pageSize)
    ensures 0 <= j < |Page(s, p, pageSize)| && Page(s, p, pageSize)[j] == x
  {
    PageCovers(s, x, pageSize);
    p :| 1 <= p <= CeilDiv(|s|, pageSize) && x in Page(s, p, pageSize);
    j :| 0 <= j < |Page(s, p, pageSize)| && Page(s, p, pageSize)[j] == x;
  }

  /** The page and the position on it where a row of the ordering is shown. */
  lemma OrderedPagePosition<T>(rows: seq<T>, key: T -> Key, asc: bool, x: T, pageSize: int)
      returns (p: int, j: int)
    requires x in rows && pageSize >= 1
    ensures 1 <= p <= CeilDiv(|rows|, pageSize)
    ensures 0 <= j < |Page(OrderBy(rows, key, asc), p, pageSize)|
    ensures Page(OrderBy(rows, key, asc), p, pageSize)[j] == x
  {
    OrderedPageCovers(rows, key, asc, x, pageSize);
    p :| 1 <= p <= CeilDiv(|rows|, pageSize) && x in Page(OrderBy(rows, key, asc), p, pageSize);
    j :| 0 <= j < |Page(OrderBy(rows, key, asc), p, pageSize)| && Page(OrderBy(rows, key, asc), p, pageSize)[j] == x;
  }

  /** A page of an ordered sequence is ordered the same way. */
  lemma PageKeepsOrder<T>(s: seq<T>, page: int, pageSize: int, key: T -> Key, asc: bool)
    requires page >= 1 && pageSize >= 1
    requires SortedBy(s, key, asc)
    ensures SortedBy(Page(s, page, pageSize), key, asc)
  {
    var r := Page(s, page, pageSize);
    var off := Offset(page, pageSize);
    forall i, j | 0 <= i < j < |r| ensures Before(key(r[i]), key(r[j]), asc) {
      assert r[i] == s[off + i] && r[j] == s[off + j];
    }
  }

  /** `OrderBy(key)` (or `OrderByDescending`) followed by `Skip` and `Take`: one page in key order. */
  function SortedPage<T>(rows: seq<T>, key: T -> Key, asc: bool, page: int, pageSize: int): (r: seq<T>)
    requires page >= 1 && pageSize >= 1
    ensures |r| <= pageSize
    ensures forall i :: 0 <= i < |r| ==> r[i] in rows
    ensures SortedBy(r, key, asc)
    ensures r != [] <==> page <= CeilDiv(|rows|, pageSize)
    ensures r == Page(OrderBy(rows, key, asc), page, pageSize)
  {
    var sorted := OrderBy(rows, key, asc);
    OrderByLength(rows, key, asc);
    PageKeepsOrder(sorted, page, pageSize, key, asc);
    PageNonEmptyIff(sorted, page, pageSize);
    var r := Page(sorted, page, pageSize);
    assert forall i :: 0 <= i < |r| ==> r[i] in rows by {
      forall i | 0 <= i < |r| ensures r[i] in rows {
        OrderByMembers(rows, key, asc, r[i]);
      }
    }
    r
  }
}

=== FILE: query.dfy ===
/**
 * The LINQ operators the services compose their queries from: `Where`, `Select` and
 * `OrderBy`/`OrderByDescending` over a sort key. A table is a sequence in storage order.
 */
module Query {
  import opened Wrappers

  /** `Where(p)`: the elements satisfying `p`, in their original order. */
  function Where<T>(s: seq<T>, p: T -> bool): (r: seq<T>)
    ensures |r| <= |s|
    ensures forall i :: 0 <= i < |r| ==> p(r[i]) && r[i] in s
    ensures forall i :: 0 <= i < |s| && p(s[i]) ==> s[i] in r
  {
    if s == [] then []
    else
      assert s == [s[0]] + s[1..];
      (if p(s[0]) then [s[0]] else []) + Where(s[1..], p)
  }

  /** `Select(f)`. */
  function Select<A, B>(s: seq<A>, f: A -> B): (r: seq<B>)
    ensures |r| == |s|
    ensures forall i :: 0 <= i < |s| ==> r[i] == f(s[i])
  {
    seq(|s|, i requires 0 <= i < |s| => f(s[i]))
  }

  /** `Count(p)`: how many elements satisfy `p`. */
  function CountWhere<T>(s: seq<T>, p: T -> bool): nat {
    |Where(s, p)|
  }

  /** `Any(p)`. */
  predicate AnyWhere<T>(s: seq<T>, p: T -> bool) {
    exists i | 0 <= i < |s| :: p(s[i])
  }

  /** A filter keeps exactly the elements that satisfy the predicate. */
  lemma WhereMembers<T>(s: seq<T>, p: T -> bool)
    ensures forall x :: x in Where(s, p) <==> x in s && p(x)
  {
    forall x | x in s && p(x) ensures x in Where(s, p) {
      var k :| 0 <= k < |s| && s[k] == x;
    }
  }

  /** A filter keeps nothing exactly when no element satisfies the predicate. */
  lemma {:induction false} WhereEmptyIffNone<T>(s: seq<T>, p: T -> bool)
    ensures Where(s, p) == [] <==> !AnyWhere(s, p)
  {
    if Where(s, p) == [] {
      forall i | 0 <= i < |s| ensures !p(s[i]) {
      }
    } else {
      var x := Where(s, p)[0];
      var i :| 0 <= i < |s| && s[i] == x;
    }
  }

  /** Filtering distributes over concatenation. */
  lemma {:induction false} WhereAppend<T>(a: seq<T>, b: seq<T>, p: T -> bool)
    ensures Where(a + b, p) == Where(a, p) + Where(b, p)
  {
    if a == [] {
      assert a + b == b;
    } else {
      assert (a + b)[1..] == a[1..] + b;
      WhereAppend(a[1..], b, p);
    }
  }

  /** Filters by predicates that agree everywhere keep the same elements. */
  lemma {:induction false} WhereExt<T>(s: seq<T>, p: T -> bool, q: T -> bool)
    requires forall x :: p(x) == q(x)
    ensures Where(s, p) == Where(s, q)
  {
    if s != [] {
      WhereExt(s[1..], p, q);
    }
  }

  /** A filter that every element passes keeps the whole sequence. */
  lemma {:induction false} WhereAll<T>(s: seq<T>, p: T -> bool)
    requires forall i :: 0 <= i < |s| ==> p(s[i])
    ensures Where(s, p) == s
  {
    if s != [] {
      WhereAll(s[1..], p);
      assert s == [s[0]] + s[1..];
    }
  }

  /** No two elements share a key. */
  predicate DistinctBy<T, K(==)>(s: seq<T>, key: T -> K) {
    forall i, j :: 0 <= i < j < |s| ==> key(s[i]) != key(s[j])
  }

  /** A filter keeps keys distinct. */
  lemma {:induction false} WhereKeepsDistinct<T, K>(s: seq<T>, p: T -> bool, key: T -> K)
    requires DistinctBy(s, key)
    ensures DistinctBy(Where(s, p), key)
  {
    if s != [] {
      var tail := s[1..];
      assert DistinctBy(tail, key) by {
        forall i, j | 0 <= i < j < |tail| ensures key(tail[i]) != key(tail[j]) {
          assert tail[i] == s[i + 1] && tail[j] == s[j + 1];
        }
      }
      WhereKeepsDistinct(tail, p, key);
      var w := Where(tail, p);
      forall j | 0 <= j < |w| ensures key(w[j]) != key(s[0]) {
        var k :| 0 <= k < |tail| && tail[k] == w[j];
        assert tail[k] == s[k + 1];
      }
    }
  }

  /** With distinct keys, the elements carrying key `k` are just the one at `i`. */
  lemma {:induction false} WhereKeyIsSingle<T, K>(s: seq<T>, key: T -> K, k: K, i: nat)
    requires DistinctBy(s, key) && i < |s| && key(s[i]) == k
    ensures Where(s, x => key(x) == k) == [s[i]]
  {
    var p := x => key(x) == k;
    assert s == s[..i] + [s[i]] + s[i + 1..];
    WhereAppend(s[..i] + [s[i]], s[i + 1..], p);
    WhereAppend(s[..i], [s[i]], p);
    var before, after := s[..i], s[i + 1..];
    forall j | 0 <= j < |before| ensures !p(before[j]) {
      assert before[j] == s[j];
    }
    WhereEmptyIffNone(before, p);
    forall j | 0 <= j < |after| ensures !p(after[j]) {
      assert after[j] == s[i + 1 + j];
    }
    WhereEmptyIffNone(after, p);
  }

  /** `FirstOrDefault(p)` by position: the index of the first element satisfying `p`. */
  function FirstIndex<T>(s: seq<T>, p: T -> bool): (r: Option<nat>)
    ensures r.Some? ==> r.value < |s| && p(s[r.value])
    ensures r.Some? ==> forall j :: 0 <= j < r.value ==> !p(s[j])
    ensures r.None? ==> forall j :: 0 <= j < |s| ==> !p(s[j])
  {
    if s == [] then None
    else if p(s[0]) then Some(0)
    else
      match FirstIndex(s[1..], p)
      case None => None
      case Some(k) => Some(k + 1)
  }

  /** `FirstOrDefault(p)`: the first element satisfying `p`, if any. */
  function FirstWhere<T>(s: seq<T>, p: T -> bool): (r: Option<T>)
    ensures r.Some? ==> p(r.value) && r.value in s
    ensures r.None? <==> forall j :: 0 <= j < |s| ==> !p(s[j])
  {
    match FirstIndex(s, p)
    case None => None
    case Some(i) => Some(s[i])
  }

  /** With distinct keys, the first element carrying a key is the only one. */
  lemma FirstWhereKey<T, K>(s: seq<T>, key: T -> K, k: K, i: nat)
    requires DistinctBy(s, key) && i < |s| && key(s[i]) == k
    ensures FirstWhere(s, x => key(x) == k) == Some(s[i])
  {
    var f := FirstIndex(s, x => key(x) == k);
    assert f.Some?;
    assert f.value == i;
  }

  /** A sort key: numbers (doubles, ints, dates) or strings. */
  datatype Key = Num(n: real) | Str(s: string)

  /** Ordinal (code-unit) lexicographic order on strings. */
  predicate LexLe(a: string, b: string)
    decreases |a|
  {
    a == [] || (b != [] && (a[0] < b[0] || (a[0] == b[0] && LexLe(a[1..], b[1..]))))
  }

  /** The total preorder the sort compares keys with. Numbers sort before strings. */
  predicate KeyLe(a: Key, b: Key) {
    match (a, b)
    case (Num(x), Num(y)) => x <= y
    case (Str(x), Str(y)) => LexLe(x, y)
    case (Num(_), Str(_)) => true
    case (Str(_), Num(_)) => false
  }

  /** `a` may come before `b` in an ascending (`asc`) or descending ordering. */
  predicate Before(a: Key, b: Key, asc: bool) {
    if asc then KeyLe(a, b) else KeyLe(b, a)
  }

  lemma {:induction false} LexLeTotal(a: string, b: string)
    ensures LexLe(a, b) || LexLe(b, a)
    decreases |a|
  {
    if a != [] && b != [] && a[0] == b[0] {
      LexLeTotal(a[1..], b[1..]);
    }
  }

  lemma {:induction false} LexLeTransitive(a: string, b: string, c: string)
    requires LexLe(a, b) && LexLe(b, c)
    ensures LexLe(a, c)
    decreases |a|
  {
    if a != [] && a[0] == b[0] && b[0] == c[0] {
      LexLeTransitive(a[1..], b[1..], c[1..]);
    }
  }

  /** Ordinal order: a string comes no later than any longer string it is a prefix of. */
  lemma {:induction false} LexLePrefix(a: string, b: string)
    requires |a| <= |b| && b[..|a|] == a
    ensures LexLe(a, b)
    decreases |a|
  {
    if a != [] {
      assert b[1..][..|a| - 1] == a[1..];
      LexLePrefix(a[1..], b[1..]);
    }
  }

  lemma BeforeTotal(a: Key, b: Key, asc: bool)
    ensures Before(a, b, asc) || Before(b, a, asc)
  {
    if a.Str? && b.Str? {
      LexLeTotal(a.s, b.s);
    }
  }

  lemma BeforeTransitive(a: Key, b: Key, c: Key, asc: bool)
    requires Before(a, b, asc) && Before(b, c, asc)
    ensures Before(a, c, asc)
  {
    if a.Str? && b.Str? && c.Str? {
      if asc {
        LexLeTransitive(a.s, b.s, c.s);
      } else {
        LexLeTransitive(c.s, b.s, a.s);
      }
    }
  }

  lemma {:induction false} LexLeAntisymmetric(a: string, b: string)
    requires LexLe(a, b) && LexLe(b, a)
    ensures a == b
    decreases |a|
  {
    if a != [] {
      LexLeAntisymmetric(a[1..], b[1..]);
      assert a == [a[0]] + a[1..];
      assert b == [b[0]] + b[1..];
    }
  }

  lemma BeforeReflexive(a: Key, asc: bool)
    ensures Before(a, a, asc)
  {
    if a.Str? {
      LexLePrefix(a.s, a.s);
    }
  }

  lemma BeforeAntisymmetric(a: Key, b: Key, asc: bool)
    requires Before(a, b, asc) && Before(b, a, asc)
    ensures a == b
  {
    if a.Str? && b.Str? {
      LexLeAntisymmetric(a.s, b.s);
    }
  }

  /** Every earlier element may come before every later one. */
  predicate SortedBy<T>(s: seq<T>, key: T -> Key, asc: bool) {
    forall i, j :: 0 <= i < j < |s| ==> Before(key(s[i]), key(s[j]), asc)
  }

  /** Inserts `x` ahead of the first element it may precede. */
  function InsertBy<T>(x: T, s: seq<T>, key: T -> Key, asc: bool): (r: seq<T>)
    ensures multiset(r) == multiset(s) + multiset{x}
  {
    if s == [] then [x]
    else if Before(key(x), key(s[0]), asc) then [x] + s
    else
      assert s == [s[0]] + s[1..];
      [s[0]] + InsertBy(x, s[1..], key, asc)
  }

  lemma {:induction false} InsertKeepsSorted<T>(x: T, s: seq<T>, key: T -> Key, asc: bool)
    requires SortedBy(s, key, asc)
    ensures SortedBy(InsertBy(x, s, key, asc), key, asc)
  {
    if s == [] {
    } else if Before(key(x), key(s[0]), asc) {
      var r := [x] + s;
      forall i, j | 0 <= i < j < |r| ensures Before(key(r[i]), key(r[j]), asc) {
        if i == 0 && j > 1 {
          BeforeTransitive(key(x), key(s[0]), key(s[j - 1]), asc);
        }
      }
    } else {
      BeforeTotal(key(x), key(s[0]), asc);
      var t := InsertBy(x, s[1..], key, asc);
      InsertKeepsSorted(x, s[1..], key, asc);
      var r := [s[0]] + t;
      forall i, j | 0 <= i < j < |r| ensures Before(key(r[i]), key(r[j]), asc) {
        if i == 0 {
          var y := t[j - 1];
          assert y in multiset(t);
          assert y == x || y in multiset(s[1..]);
          if y != x {
            var k :| 0 <= k < |s[1..]| && s[1..][k] == y;
            assert s[k + 1] == y;
          }
        }
      }
    }
  }

  /**
   * `OrderBy(key)` when `asc`, `OrderByDescending(key)` otherwise: a sorted permutation.
   * Rows with equal keys come out in one fixed order, the same for every call. The database
   * promises no tie order, and may break ties differently for each query; when the key
   * identifies its row there are no ties and `SortedOrderIsUnique` shows every sorted
   * permutation is this one.
   */
  function OrderBy<T>(s: seq<T>, key: T -> Key, asc: bool): (r: seq<T>)
    ensures multiset(r) == multiset(s)
    ensures SortedBy(r, key, asc)
  {
    if s == [] then []
    else
      var rest := OrderBy(s[1..], key, asc);
      InsertKeepsSorted(s[0], rest, key, asc);
      assert s == [s[0]] + s[1..];
      InsertBy(s[0], rest, key, asc)
  }

  /** No two different rows share a key: a sort by it has no ties. */
  ghost predicate KeyIdentifies<T>(s: seq<T>, key: T -> Key) {
    forall x, y :: x in s && y in s && key(x) == key(y) ==> x == y
  }

  /** Without ties there is only one sorted order of the same rows. */
  lemma {:induction false} SortedOrderIsUnique<T>(a: seq<T>, b: seq<T>, key: T -> Key, asc: bool)
    requires multiset(a) == multiset(b) && KeyIdentifies(a, key)
    requires SortedBy(a, key, asc) && SortedBy(b, key, asc)
    ensures a == b
    decreases |a|
  {
    if a == [] {
      assert |multiset(b)| == 0;
    } else {
      SortedHeadsAgree(a, b, key, asc);
      assert a == [a[0]] + a[1..];
      assert b == [b[0]] + b[1..];
      assert multiset(a) == multiset{a[0]} + multiset(a[1..]);
      assert multiset(b) == multiset{b[0]} + multiset(b[1..]);
      assert multiset(a[1..]) == multiset(a) - multiset{a[0]};
      assert multiset(b[1..]) == multiset(b) - multiset{b[0]};
      forall x, y | x in a[1..] && y in a[1..] && key(x) == key(y) ensures x == y {
        assert x in a && y in a;
      }
      assert KeyIdentifies(a[1..], key);
      assert SortedBy(a[1..], key, asc) by {
        forall i, j | 0 <= i < j < |a[1..]| ensures Before(key(a[1..][i]), key(a[1..][j]), asc) {
          assert a[1..][i] == a[i + 1] && a[1..][j] == a[j + 1];
        }
      }
      assert SortedBy(b[1..], key, asc) by {
        forall i, j | 0 <= i < j < |b[1..]| ensures Before(key(b[1..][i]), key(b[1..][j]), asc) {
          assert b[1..][i] == b[i + 1] && b[1..][j] == b[j + 1];
        }
      }
      SortedOrderIsUnique(a[1..], b[1..], key, asc);
    }
  }

  /** Two sorted orders of the same rows without ties start with the same row. */
  lemma SortedHeadsAgree<T>(a: seq<T>, b: seq<T>, key: T -> Key, asc: bool)
    requires a != [] && multiset(a) == multiset(b) && KeyIdentifies(a, key)
    requires SortedBy(a, key, asc) && SortedBy(b, key, asc)
    ensures b != [] && a[0] == b[0]
  {
    assert |multiset(b)| == |a|;
    assert b[0] in multiset(a) && a[0] in multiset(b);
    var m :| 0 <= m < |a| && a[m] == b[0];
    var k :| 0 <= k < |b| && b[k] == a[0];
    if m != 0 && k != 0 {
      assert Before(key(a[0]), key(b[0]), asc);
      assert Before(key(b[0]), key(a[0]), asc);
      BeforeAntisymmetric(key(a[0]), key(b[0]), asc);
      assert a[0] in a && b[0] in a;
    }
  }

  /** When the key identifies its rows, every sorted permutation of them is `OrderBy`'s. */
  lemma OrderByIsTheSortedOrder<T>(s: seq<T>, t: seq<T>, key: T -> Key, asc: bool)
    requires multiset(t) == multiset(s) && SortedBy(t, key, asc) && KeyIdentifies(s, key)
    ensures t == OrderBy(s, key, asc)
  {
    forall x, y | x in t && y in t && key(x) == key(y) ensures x == y {
      assert x in multiset(s) && y in multiset(s);
    }
    SortedOrderIsUnique(t, OrderBy(s, key, asc), key, asc);
  }

  /** Sorting does not change the length. */
  lemma OrderByLength<T>(s: seq<T>, key: T -> Key, asc: bool)
    ensures |OrderBy(s, key, asc)| == |s|
  {
    assert |multiset(OrderBy(s, key, asc))| == |multiset(s)|;
  }

  /** Sorting keeps exactly the same elements. */
  lemma OrderByMembers<T>(s: seq<T>, key: T -> Key, asc: bool, x: T)
    ensures x in OrderBy(s, key, asc) <==> x in s
  {
    assert x in multiset(OrderBy(s, key, asc)) <==> x in multiset(s);
  }
}

=== FILE: rating_service.dfy ===
/**
 * `RatingService`: one rating per user and movie, created or overwritten by the same
 * call, removable by its author; the movie average and the rating lists.
 */
module RatingService {
  import opened Wrappers
  import opened Query
  import opened Paging
  import opened Entities
  import opened Schema
  import opened Mapping
  import opened Store
  import MovieService

  /** Where the user's rating of the movie sits: the filter of the upsert and delete lookups. */
  function RatingIndex(ratings: seq<Rating>, movieId: int, userId: UserId): (r: Option<nat>)
    ensures r.Some? ==> r.value < |ratings| && RatingPair(ratings[r.value]) == (userId, movieId)
    ensures r.None? <==> forall i :: 0 <= i < |ratings| ==> RatingPair(ratings[i]) != (userId, movieId)
  {
    FirstIndex(ratings, (rt: Rating) => rt.movieId == movieId && rt.userId == userId)
  }

  /** With (UserId, MovieId) unique, the row at `k` is the one rating its user gave its movie. */
  lemma RowIsTheUsersRating(ratings: seq<Rating>, k: nat)
    requires DistinctBy(ratings, RatingPair) && k < |ratings|
    ensures RatingOf(ratings, ratings[k].userId, ratings[k].movieId) == Some(ratings[k].value)
  {
    var r := RatingOf(ratings, ratings[k].userId, ratings[k].movieId);
    assert RatingPair(ratings[k]) == (ratings[k].userId, ratings[k].movieId);
    var i :| 0 <= i < |ratings| && RatingPair(ratings[i]) == RatingPair(ratings[k]) && ratings[i].value == r.value;
  }

  // ---------------------------------------------------------------- commands

  /**
   * `CreateOrUpdateRatingAsync`: the movie must exist; the caller's rating of it is
   * overwritten with the new value and date when there is one, and added under the next
   * identity key otherwise (refused by the database when the caller is not a user).
   * Either way the caller's rating of the movie is then the new value.
   */
  method CreateOrUpdateRating(ctx: Context, movieId: int, value: int, caller: UserId, now: int)
    returns (r: Result<Rating, Failure>)
    requires ctx.Valid()
    modifies ctx
    ensures ctx.Valid()
    ensures !MovieExists(old(ctx.movies), movieId) ==>
      r == Failure(MovieNotFound) && ctx.State() == old(ctx.State())
    ensures MovieExists(old(ctx.movies), movieId) && RatingIndex(old(ctx.ratings), movieId, caller).Some? ==>
      var k := RatingIndex(old(ctx.ratings), movieId, caller).value;
      var rt := old(ctx.ratings)[k].(value := value, createdDate := now);
      r == Success(rt) && ctx.State() == old(ctx.State()).(ratings := old(ctx.ratings)[k := rt])
    ensures MovieExists(old(ctx.movies), movieId) && RatingIndex(old(ctx.ratings), movieId, caller).None? ==>
      var rt := Rating(old(ctx.nextRatingId), value, now, movieId, caller);
      && (UserExists(old(ctx.users), caller) ==>
            r == Success(rt) && ctx.State() == old(ctx.State()).(ratings := old(ctx.ratings) + [rt]))
      && (!UserExists(old(ctx.users), caller) ==>
            r == Failure(SaveRejected) && ctx.State() == old(ctx.State()))
    ensures r.Success? ==> RatingOf(ctx.ratings, caller, movieId) == Some(value)
    ensures 1 <= value <= 5 && OnScale(old(ctx.ratings)) ==> OnScale(ctx.ratings)
  {
    if !MovieExists(ctx.movies, movieId) {
      return Failure(MovieNotFound);
    }
    var found := RatingIndex(ctx.ratings, movieId, caller);
    if found.Some? {
      var rt := OverwriteRating(ctx, found.value, value, now);
      r := Success(rt);
    } else {
      if !UserExists(ctx.users, caller) {
        return Failure(SaveRejected);
      }
      var rt := AddRating(ctx, movieId, value, caller, now);
      r := Success(rt);
    }
  }

  /** The update branch: row `k` takes the new value and date. */
  method OverwriteRating(ctx: Context, k: nat, value: int, now: int) returns (rt: Rating)
    requires ctx.Valid() && k < |ctx.ratings|
    modifies ctx
    ensures ctx.Valid()
    ensures rt == old(ctx.ratings)[k].(value := value, createdDate := now)
    ensures ctx.State() == old(ctx.State()).(ratings := old(ctx.ratings)[k := rt])
    ensures ctx.nextRatingId == old(ctx.nextRatingId)
    ensures RatingOf(ctx.ratings, rt.userId, rt.movieId) == Some(value)
    ensures 1 <= value <= 5 && OnScale(old(ctx.ratings)) ==> OnScale(ctx.ratings)
  {
    var before := ctx.State();
    rt := before.ratings[k].(value := value, createdDate := now);
    var after := before.(ratings := before.ratings[k := rt]);
    ReplaceRatingKeepsConsistent(before, k, rt);
    ReplaceRatingKeepsIds(before, k, rt, ctx.nextMovieId, ctx.nextReviewId, ctx.nextRatingId);
    RowIsTheUsersRating(after.ratings, k);
    OnScaleReplaced(before.ratings, k, rt);
    ctx.Commit(after, ctx.nextMovieId, ctx.nextReviewId, ctx.nextRatingId);
  }

  /** The create branch: a new row under the next identity key. */
  method AddRating(ctx: Context, movieId: int, value: int, caller: UserId, now: int) returns (rt: Rating)
    requires ctx.Valid()
    requires MovieExists(ctx.movies, movieId) && UserExists(ctx.users, caller)
    requires RatingIndex(ctx.ratings, movieId, caller).None?
    modifies ctx
    ensures ctx.Valid()
    ensures rt == Rating(old(ctx.nextRatingId), value, now, movieId, caller)
    ensures ctx.State() == old(ctx.State()).(ratings := old(ctx.ratings) + [rt])
    ensures ctx.nextRatingId == old(ctx.nextRatingId) + 1
    ensures RatingOf(ctx.ratings, caller, movieId) == Some(value)
    ensures 1 <= value <= 5 && OnScale(old(ctx.ratings)) ==> OnScale(ctx.ratings)
  {
    var before := ctx.State();
    rt := Rating(ctx.nextRatingId, value, now, movieId, caller);
    var after := before.(ratings := before.ratings + [rt]);
    AddRatingKeepsConsistent(before, rt);
    RowIsTheUsersRating(after.ratings, |after.ratings| - 1);
    OnScaleAppended(before.ratings, rt);
    ctx.Commit(after, ctx.nextMovieId, ctx.nextReviewId, ctx.nextRatingId + 1);
  }

  /** The ratings table once the row with this key is removed. */
  function WithoutRating(ratings: seq<Rating>, ratingId: int): (r: seq<Rating>)
    ensures forall i :: 0 <= i < |r| ==> r[i].id != ratingId && r[i] in ratings
    ensures forall i :: 0 <= i < |ratings| && ratings[i].id != ratingId ==> ratings[i] in r
  {
    Where(ratings, (rt: Rating) => rt.id != ratingId)
  }

  /** `DeleteRatingAsync`: the caller's rating of the movie is removed, if there is one. */
  method DeleteRating(ctx: Context, movieId: int, caller: UserId) returns (deleted: bool)
    requires ctx.Valid()
    modifies ctx
    ensures ctx.Valid()
    ensures deleted <==> RatingIndex(old(ctx.ratings), movieId, caller).Some?
    ensures deleted ==>
      var k := RatingIndex(old(ctx.ratings), movieId, caller).value;
      ctx.State() == old(ctx.State()).(ratings := WithoutRating(old(ctx.ratings), old(ctx.ratings)[k].id))
    ensures !deleted ==> ctx.State() == old(ctx.State())
    ensures RatingOf(ctx.ratings, caller, movieId).None?
  {
    var found := RatingIndex(ctx.ratings, movieId, caller);
    if found.None? {
      return false;
    }
    var k := found.value;
    var before := ctx.State();
    var gone := before.ratings[k];
    var after := before.(ratings := WithoutRating(before.ratings, gone.id));
    RemoveRatingsKeepsConsistent(before, (rt: Rating) => rt.id != gone.id);
    assert IdsBelow(after, ctx.nextMovieId, ctx.nextReviewId, ctx.nextRatingId) by {
      forall i | 0 <= i < |after.ratings| ensures 1 <= after.ratings[i].id < ctx.nextRatingId {
        var j :| 0 <= j < |before.ratings| && before.ratings[j] == after.ratings[i];
      }
    }
    forall i | 0 <= i < |after.ratings| ensures RatingPair(after.ratings[i]) != (caller, movieId) {
      var j :| 0 <= j < |before.ratings| && before.ratings[j] == after.ratings[i];
    }
    ctx.Commit(after, ctx.nextMovieId, ctx.nextReviewId, ctx.nextRatingId);
    deleted := true;
  }

  // ------------------------------------------------------------------ reads

  /** `GetAverageRatingForMovieAsync`: the mean of the movie's ratings, 0 when it has none. */
  function GetAverageRatingForMovie(db: Db, movieId: int): (r: real)
    ensures RatingsOfMovie(db.ratings, movieId) == [] ==> r == 0.0
    ensures RatingsOfMovie(db.ratings, movieId) != [] && OnScale(db.ratings) ==> 1.0 <= r <= 5.0
  {
    OnScaleOfMovie(db.ratings, movieId);
    AverageRating(RatingsOfMovie(db.ratings, movieId))
  }

  /** The average a movie reports is the mean of exactly the ratings given to that movie. */
  lemma MovieAverageIsMean(db: Db, movieId: int)
    requires RatingsOfMovie(db.ratings, movieId) != []
    ensures IsMean(GetAverageRatingForMovie(db, movieId), RatingsOfMovie(db.ratings, movieId))
  {
    AverageIsMean(RatingsOfMovie(db.ratings, movieId));
  }

  /** The movie page and the average endpoint report the same mean. */
  lemma MoviePageShowsAverage(db: Db, movieId: int)
    requires MovieService.GetMovieById(db, movieId).Some?
    ensures MovieService.GetMovieById(db, movieId).value.averageRating == GetAverageRatingForMovie(db, movieId)
  {
  }

  /** A rating with its rater, its movie and, as `Movie.Ratings`, all the ratings of that movie. */
  function RatingRow(db: Db, rt: Rating): LoadedRating {
    LoadedRating(rt, FindUser(db.users, rt.userId), FindMovie(db.movies, rt.movieId),
                 RatingsOfMovie(db.ratings, rt.movieId))
  }

  /**
   * The same rating as `GetUserRatingForMovieAsync` and `GetRatingsByUserAsync` load it:
   * `Movie.Ratings` holds only the tracked ratings of the query, which is this one.
   */
  function RatingRowAsWritten(db: Db, rt: Rating): LoadedRating {
    LoadedRating(rt, FindUser(db.users, rt.userId), FindMovie(db.movies, rt.movieId), [rt])
  }

  /**
   * `GetUserRatingForMovieAsync`, with the average the DTO is meant to carry: the user's
   * rating of the movie, and the movie's mean rating.
   */
  function GetUserRatingForMovie(db: Db, movieId: int, userId: UserId): (r: Option<RatingDto>)
    ensures r.None? <==> RatingOf(db.ratings, userId, movieId).None?
    ensures r.Some? ==> r.value.movieId == movieId && exists i | 0 <= i < |db.ratings| ::
      RatingPair(db.ratings[i]) == (userId, movieId) && db.ratings[i].id == r.value.ratingId
      && db.ratings[i].value == r.value.ratingValue
    ensures r.Some? && MovieExists(db.movies, movieId) ==> r.value.averageRating == GetAverageRatingForMovie(db, movieId)
  {
    match RatingIndex(db.ratings, movieId, userId)
    case None => None
    case Some(k) =>
      var rt := db.ratings[k];
      assert MovieExists(db.movies, movieId) ==> FindMovie(db.movies, movieId).Some?;
      Some(ToRatingDto(RatingRow(db, rt)))
  }

  /** `GetUserRatingForMovieAsync` as written: the "average" is computed over the one loaded rating. */
  function GetUserRatingForMovieAsWritten(db: Db, movieId: int, userId: UserId): (r: Option<RatingDto>)
    ensures r.None? <==> RatingOf(db.ratings, userId, movieId).None?
  {
    match RatingIndex(db.ratings, movieId, userId)
    case None => None
    case Some(k) => Some(ToRatingDto(RatingRowAsWritten(db, db.ratings[k])))
  }

  /** As written, a found rating reports its own value as the movie's average. */
  lemma AsWrittenAverageIsOwnValue(db: Db, movieId: int, userId: UserId)
    requires MovieExists(db.movies, movieId)
    requires GetUserRatingForMovieAsWritten(db, movieId, userId).Some?
    ensures var d := GetUserRatingForMovieAsWritten(db, movieId, userId).value;
      d.averageRating == d.ratingValue as real
  {
    var k := RatingIndex(db.ratings, movieId, userId).value;
    AverageOfOne(db.ratings[k]);
  }

  /**
   * Two users rate movie 1 with 5 and 1: as written the first user's rating reports an
   * average of 5, while the movie's mean is 3.
   */
  lemma AsWrittenAverageDiffers(u1: User, u2: User, m: Movie)
    requires u1.id != u2.id && m.id == 1
    ensures var db := Db([u1, u2], [m], [], [Rating(1, 5, 0, 1, u1.id), Rating(2, 1, 0, 1, u2.id)]);
      && GetUserRatingForMovieAsWritten(db, 1, u1.id).Some?
      && GetUserRatingForMovieAsWritten(db, 1, u1.id).value.averageRating == 5.0
      && GetUserRatingForMovie(db, 1, u1.id).Some?
      && GetUserRatingForMovie(db, 1, u1.id).value.averageRating == 3.0
  {
    var db := Db([u1, u2], [m], [], [Rating(1, 5, 0, 1, u1.id), Rating(2, 1, 0, 1, u2.id)]);
    assert RatingIndex(db.ratings, 1, u1.id) == Some(0);
    assert FindMovie(db.movies, 1) == Some(m);
    var rs := RatingsOfMovie(db.ratings, 1);
    WhereAll(db.ratings, (rt: Rating) => rt.movieId == 1);
    assert rs == db.ratings;
    assert SumValues(rs) == 6 by {
      assert rs[1..] == [rs[1]];
      assert SumValues([rs[1]]) == 1 by {
        assert [rs[1]][1..] == [];
      }
    }
    AverageOfOne(db.ratings[0]);
  }

  /**
   * `GetRatingsByUserAsync`, with each DTO carrying its movie's mean rating: the user's
   * ratings, newest first, one page.
   */
  function GetRatingsByUser(db: Db, userId: UserId, page: int, pageSize: int): (r: seq<RatingDto>)
    requires page >= 1 && pageSize >= 1
    ensures |r| <= pageSize
    ensures forall i, j :: 0 <= i < j < |r| ==> r[i].createdDate >= r[j].createdDate
    ensures forall i :: 0 <= i < |r| ==> RatingOf(db.ratings, userId, r[i].movieId).Some?
    ensures r != [] <==> page <= CeilDiv(|RatingsByUser(db.ratings, userId)|, pageSize)
    ensures var rows := Page(OrderBy(RatingsByUser(db.ratings, userId), RatingDateKey, false), page, pageSize);
      |r| == |rows| && forall k :: 0 <= k < |r| ==> r[k] == ToRatingDto(RatingRow(db, rows[k]))
  {
    var rows := NewestRatings(RatingsByUser(db.ratings, userId), page, pageSize);
    var r := RatingDtos(db, rows);
    forall i | 0 <= i < |r| ensures RatingOf(db.ratings, userId, r[i].movieId).Some? {
      assert rows[i] in RatingsByUser(db.ratings, userId);
      var j :| 0 <= j < |db.ratings| && db.ratings[j] == rows[i];
      assert RatingPair(db.ratings[j]) == (userId, r[i].movieId);
    }
    r
  }

  /** Paging through the user's ratings shows every one of them, each on one of the pages. */
  lemma EveryRatingByUserIsListed(db: Db, userId: UserId, rt: Rating, pageSize: int)
    requires rt in db.ratings && rt.userId == userId && pageSize >= 1
    ensures exists p :: (1 <= p <= CeilDiv(|RatingsByUser(db.ratings, userId)|, pageSize) &&
        ToRatingDto(RatingRow(db, rt)) in GetRatingsByUser(db, userId, p, pageSize))
  {
    WhereMembers(db.ratings, (rt: Rating) => rt.userId == userId);
    var p, j := OrderedPagePosition(RatingsByUser(db.ratings, userId), RatingDateKey, false, rt, pageSize);
    assert GetRatingsByUser(db, userId, p, pageSize)[j] == ToRatingDto(RatingRow(db, rt));
  }

  /** `GetRatingsByUserAsync` as written: each "average" is over the one loaded rating of that movie. */
  function GetRatingsByUserAsWritten(db: Db, userId: UserId, page: int, pageSize: int): (r: seq<RatingDto>)
    requires page >= 1 && pageSize >= 1
    ensures |r| <= pageSize
    ensures forall i :: 0 <= i < |r| && r[i].movieTitle.Some? ==> r[i].averageRating == r[i].ratingValue as real
  {
    var rows := NewestRatings(RatingsByUser(db.ratings, userId), page, pageSize);
    var r := seq(|rows|, i requires 0 <= i < |rows| => ToRatingDto(RatingRowAsWritten(db, rows[i])));
    forall i | 0 <= i < |r| && r[i].movieTitle.Some? ensures r[i].averageRating == r[i].ratingValue as real {
      AverageOfOne(rows[i]);
    }
    r
  }

  /** The projections of the rows, in order. */
  function RatingDtos(db: Db, rows: seq<Rating>): (r: seq<RatingDto>)
    ensures |r| == |rows|
    ensures forall i :: 0 <= i < |r| ==> r[i] == ToRatingDto(RatingRow(db, rows[i]))
  {
    seq(|rows|, i requires 0 <= i < |rows| => ToRatingDto(RatingRow(db, rows[i])))
  }

  /** Each DTO of the corrected list carries the mean of its movie's ratings. */
  lemma RatingsByUserShowMovieMeans(db: Db, userId: UserId, page: int, pageSize: int)
    requires page >= 1 && pageSize >= 1
    requires Consistent(db)
    ensures var r := GetRatingsByUser(db, userId, page, pageSize);
      forall i :: 0 <= i < |r| ==> r[i].averageRating == GetAverageRatingForMovie(db, r[i].movieId)
  {
    var rows := NewestRatings(RatingsByUser(db.ratings, userId), page, pageSize);
    var r := GetRatingsByUser(db, userId, page, pageSize);
    forall i | 0 <= i < |r| ensures r[i].averageRating == GetAverageRatingForMovie(db, r[i].movieId) {
      assert rows[i] in RatingsByUser(db.ratings, userId);
      var j :| 0 <= j < |db.ratings| && db.ratings[j] == rows[i];
      StoredRatingShowsMean(db, j);
    }
  }

  /** A stored rating's row carries the mean of its movie, which a consistent database always holds. */
  lemma StoredRatingShowsMean(db: Db, j: nat)
    requires Consistent(db) && j < |db.ratings|
    ensures ToRatingDto(RatingRow(db, db.ratings[j])).averageRating == GetAverageRatingForMovie(db, db.ratings[j].movieId)
  {
    assert MovieExists(db.movies, db.ratings[j].movieId);
    assert FindMovie(db.movies, db.ratings[j].movieId).Some?;
  }

  /** `OrderByDescending(r => r.CreatedDate)`. */
  function RatingDateKey(rt: Rating): Key {
    Num(rt.createdDate as real)
  }

  /** Newest first, one page. */
  function NewestRatings(rows: seq<Rating>, page: int, pageSize: int): (r: seq<Rating>)
    requires page >= 1 && pageSize >= 1
    ensures |r| <= pageSize
    ensures forall i :: 0 <= i < |r| ==> r[i] in rows
    ensures forall i, j :: 0 <= i < j < |r| ==> r[i].createdDate >= r[j].createdDate
    ensures r != [] <==> page <= CeilDiv(|rows|, pageSize)
    ensures r == Page(OrderBy(rows, RatingDateKey, false), page, pageSize)
  {
    var r := SortedPage(rows, RatingDateKey, false, page, pageSize);
    assert forall i, j :: 0 <= i < j < |r| ==> r[i].createdDate >= r[j].createdDate by {
      forall i, j | 0 <= i < j < |r| ensures r[i].createdDate >= r[j].createdDate {
        assert Before(RatingDateKey(r[i]), RatingDateKey(r[j]), false);
      }
    }
    r
  }
}

=== FILE: responses.dfy ===
/**
 * The shapes the controllers answer with: the action results they use and the paging
 * envelope `{ items, totalCount, currentPage, pageSize, totalPages }`.
 */
module Responses {
  import opened Wrappers
  import opened Text
  import opened Paging

  /** `Ok`, `CreatedAtAction`, `NoContent`, `NotFound`, `BadRequest(message)`, and the automatic 400 for an invalid body. */
  datatype Response<T> =
    | Ok(body: T)
    | CreatedAt(id: int, created: T)
    | NoContent
    | NotFound
    | BadRequest(message: string)
    | ValidationProblem(fields: seq<string>)

  /** The anonymous paging object the list endpoints return. */
  datatype Paged<T> = Paged(items: seq<T>, totalCount: nat, currentPage: int, pageSize: int, totalPages: nat)

  /**
   * The envelope: the page and page size echoed unchanged, and
   * `totalPages = (int)Math.Ceiling((double)totalCount / pageSize)`.
   */
  function Envelope<T>(items: seq<T>, totalCount: nat, page: int, pageSize: int): (r: Paged<T>)
    requires pageSize >= 1
    ensures r.items == items && r.totalCount == totalCount
    ensures r.currentPage == page && r.pageSize == pageSize
    ensures r.totalPages * pageSize >= totalCount
    ensures r.totalPages == 0 || (r.totalPages - 1) * pageSize < totalCount
  {
    Paged(items, totalCount, page, pageSize, CeilDiv(totalCount, pageSize))
  }

  /** An optional query argument, with the action's default when absent. */
  function Arg(x: Option<int>, default: int): (r: int)
    ensures x.None? ==> r == default
    ensures x.Some? ==> r == x.value
  {
    x.GetOr(default)
  }

  /** `[Required]` on a string: present and not only white space. */
  predicate RequiredText(s: string) {
    !AllSpace(DotNet, s)
  }
}

=== FILE: review_service.dfy ===
/**
 * `ReviewService`: one review per user and movie, editable and removable only by its
 * author, and the review lists of a movie and of a user.
 */
module ReviewService {
  import opened Wrappers
  import opened Query
  import opened Paging
  import opened Entities
  import opened Schema
  import opened Mapping
  import opened Store

  /** The user has a review of the movie. */
  predicate HasReviewed(reviews: seq<Review>, userId: UserId, movieId: int) {
    exists i | 0 <= i < |reviews| :: reviews[i].userId == userId && reviews[i].movieId == movieId
  }

  /** Where the caller's review with this id sits: the filter of the update and delete lookups. */
  function OwnedReviewIndex(reviews: seq<Review>, reviewId: int, caller: UserId): (r: Option<nat>)
    ensures r.Some? ==> r.value < |reviews| && reviews[r.value].id == reviewId && reviews[r.value].userId == caller
    ensures r.None? <==> forall i :: 0 <= i < |reviews| ==> !(reviews[i].id == reviewId && reviews[i].userId == caller)
  {
    FirstIndex(reviews, (rv: Review) => rv.id == reviewId && rv.userId == caller)
  }

  // ---------------------------------------------------------------- commands

  /**
   * `CreateReviewAsync`: the movie must exist, then the caller must not have reviewed it;
   * the review gets the next identity key and `now` as its date. The database refuses a
   * text over 2000 characters or a caller who is not a user.
   */
  method CreateReview(ctx: Context, movieId: int, text: string, caller: UserId, now: int)
    returns (r: Result<Review, Failure>)
    requires ctx.Valid()
    modifies ctx
    ensures ctx.Valid()
    ensures !MovieExists(old(ctx.movies), movieId) ==>
      r == Failure(MovieNotFound) && ctx.State() == old(ctx.State())
    ensures MovieExists(old(ctx.movies), movieId) && HasReviewed(old(ctx.reviews), caller, movieId) ==>
      r == Failure(AlreadyReviewed) && ctx.State() == old(ctx.State())
    ensures MovieExists(old(ctx.movies), movieId) && !HasReviewed(old(ctx.reviews), caller, movieId) ==>
      var rv := Review(old(ctx.nextReviewId), text, now, movieId, caller);
      && (ReviewFits(rv) && UserExists(old(ctx.users), caller) ==>
            r == Success(rv) && ctx.State() == old(ctx.State()).(reviews := old(ctx.reviews) + [rv]))
      && (!(ReviewFits(rv) && UserExists(old(ctx.users), caller)) ==>
            r == Failure(SaveRejected) && ctx.State() == old(ctx.State()))
  {
    if !MovieExists(ctx.movies, movieId) {
      return Failure(MovieNotFound);
    }
    if HasReviewed(ctx.reviews, caller, movieId) {
      return Failure(AlreadyReviewed);
    }
    var rv := Review(ctx.nextReviewId, text, now, movieId, caller);
    if !ReviewFits(rv) || !UserExists(ctx.users, caller) {
      return Failure(SaveRejected);
    }
    AddReviewKeepsConsistent(ctx.State(), rv);
    ctx.reviews := ctx.reviews + [rv];
    ctx.nextReviewId := ctx.nextReviewId + 1;
    r := Success(rv);
  }

  /**
   * `UpdateReviewAsync`: only the caller's own review is found; its text is replaced and
   * nothing else changes.
   */
  method UpdateReview(ctx: Context, reviewId: int, text: string, caller: UserId)
    returns (r: Result<Option<Review>, Failure>)
    requires ctx.Valid()
    modifies ctx
    ensures ctx.Valid()
    ensures OwnedReviewIndex(old(ctx.reviews), reviewId, caller).None? ==>
      r == Success(None) && ctx.State() == old(ctx.State())
    ensures OwnedReviewIndex(old(ctx.reviews), reviewId, caller).Some? ==>
      var k := OwnedReviewIndex(old(ctx.reviews), reviewId, caller).value;
      var rv := old(ctx.reviews)[k].(text := text);
      && (ReviewFits(rv) ==> r == Success(Some(rv)) && ctx.State() == old(ctx.State()).(reviews := old(ctx.reviews)[k := rv]))
      && (!ReviewFits(rv) ==> r == Failure(SaveRejected) && ctx.State() == old(ctx.State()))
  {
    var found := OwnedReviewIndex(ctx.reviews, reviewId, caller);
    if found.None? {
      return Success(None);
    }
    var k := found.value;
    var rv := ctx.reviews[k].(text := text);
    if !ReviewFits(rv) {
      return Failure(SaveRejected);
    }
    ReplaceReviewKeepsConsistent(ctx.State(), k, rv);
    ctx.reviews := ctx.reviews[k := rv];
    r := Success(Some(rv));
  }

  /** The reviews table once the row with this key is removed. */
  function WithoutReview(reviews: seq<Review>, reviewId: int): (r: seq<Review>)
    ensures forall i :: 0 <= i < |r| ==> r[i].id != reviewId && r[i] in reviews
    ensures forall i :: 0 <= i < |reviews| && reviews[i].id != reviewId ==> reviews[i] in r
  {
    Where(reviews, (rv: Review) => rv.id != reviewId)
  }

  /** `DeleteReviewAsync`: only the caller's own review is removed. */
  method DeleteReview(ctx: Context, reviewId: int, caller: UserId) returns (deleted: bool)
    requires ctx.Valid()
    modifies ctx
    ensures ctx.Valid()
    ensures deleted <==> OwnedReviewIndex(old(ctx.reviews), reviewId, caller).Some?
    ensures deleted ==> ctx.State() == old(ctx.State()).(reviews := WithoutReview(old(ctx.reviews), reviewId))
    ensures !deleted ==> ctx.State() == old(ctx.State())
  {
    var found := OwnedReviewIndex(ctx.reviews, reviewId, caller);
    if found.None? {
      return false;
    }
    var before := ctx.State();
    var after := before.(reviews := WithoutReview(before.reviews, reviewId));
    RemoveReviewsKeepsConsistent(before, (rv: Review) => rv.id != reviewId);
    assert IdsBelow(after, ctx.nextMovieId, ctx.nextReviewId, ctx.nextRatingId) by {
      forall i | 0 <= i < |after.reviews| ensures 1 <= after.reviews[i].id < ctx.nextReviewId {
        var k :| 0 <= k < |before.reviews| && before.reviews[k] == after.reviews[i];
      }
    }
    ctx.Commit(after, ctx.nextMovieId, ctx.nextReviewId, ctx.nextRatingId);
    deleted := true;
  }

  /** Writing a review takes the user's one slot for that movie, and the movie has one review more. */
  lemma {:induction false} AddedReviewFillsSlot(db: Db, rv: Review)
    ensures HasReviewed(db.reviews + [rv], rv.userId, rv.movieId)
    ensures |ReviewsOfMovie(db.reviews + [rv], rv.movieId)| == |ReviewsOfMovie(db.reviews, rv.movieId)| + 1
  {
    var s := db.reviews + [rv];
    assert s[|db.reviews|] == rv;
    WhereAppend(db.reviews, [rv], (x: Review) => x.movieId == rv.movieId);
    assert Where([rv], (x: Review) => x.movieId == rv.movieId) == [rv];
  }

  /**
   * Deleting a review frees the slot: with (UserId, MovieId) unique, its author can review
   * the movie again.
   */
  lemma DeletedReviewFreesSlot(db: Db, k: nat)
    requires Consistent(db) && k < |db.reviews|
    ensures !HasReviewed(WithoutReview(db.reviews, db.reviews[k].id), db.reviews[k].userId, db.reviews[k].movieId)
  {
  }

  // ------------------------------------------------------------------ reads

  /** `OrderByDescending(r => r.CreatedDate)`. */
  function ReviewDateKey(rv: Review): Key {
    Num(rv.createdDate as real)
  }

  /** Newest first, one page. */
  function NewestReviews(rows: seq<Review>, page: int, pageSize: int): (r: seq<Review>)
    requires page >= 1 && pageSize >= 1
    ensures |r| <= pageSize
    ensures forall i :: 0 <= i < |r| ==> r[i] in rows
    ensures forall i, j :: 0 <= i < j < |r| ==> r[i].createdDate >= r[j].createdDate
    ensures r != [] <==> page <= CeilDiv(|rows|, pageSize)
    ensures r == Page(OrderBy(rows, ReviewDateKey, false), page, pageSize)
  {
    var r := SortedPage(rows, ReviewDateKey, false, page, pageSize);
    assert forall i, j :: 0 <= i < j < |r| ==> r[i].createdDate >= r[j].createdDate by {
      forall i, j | 0 <= i < j < |r| ensures r[i].createdDate >= r[j].createdDate {
        assert Before(ReviewDateKey(r[i]), ReviewDateKey(r[j]), false);
      }
    }
    r
  }

  /**
   * `GetReviewByIdAsync`: the review with its author and movie. The author's ratings are
   * not loaded, so the rating value is always null.
   */
  function GetReviewById(db: Db, reviewId: int): (r: Option<ReviewDto>)
    ensures r.None? <==> forall i :: 0 <= i < |db.reviews| ==> db.reviews[i].id != reviewId
    ensures r.Some? ==> r.value.reviewId == reviewId && r.value.ratingValue.None?
    ensures r.Some? ==> exists rv | rv in db.reviews :: rv.id == reviewId && r.value.reviewText == rv.text
  {
    match FirstWhere(db.reviews, (rv: Review) => rv.id == reviewId)
    case None => None
    case Some(rv) =>
      Some(ToReviewDto(LoadedReview(rv, FindUser(db.users, rv.userId), FindMovie(db.movies, rv.movieId), [])))
  }

  /** A review of the movie page, with its author's ratings of this movie loaded (the filtered `ThenInclude`). */
  function MovieReviewRow(db: Db, movieId: int, rv: Review): LoadedReview {
    LoadedReview(rv, FindUser(db.users, rv.userId), FindMovie(db.movies, movieId),
                 Where(db.ratings, (rt: Rating) => rt.userId == rv.userId && rt.movieId == movieId))
  }

  /** `GetReviewsForMovieAsync`: the movie's reviews, newest first, one page, each with its author's rating. */
  function GetReviewsForMovie(db: Db, movieId: int, page: int, pageSize: int): (r: seq<ReviewDto>)
    requires page >= 1 && pageSize >= 1
    ensures |r| <= pageSize
    ensures forall i :: 0 <= i < |r| ==> r[i].movieId == movieId
    ensures forall i, j :: 0 <= i < j < |r| ==> r[i].createdDate >= r[j].createdDate
    ensures r != [] <==> page <= CeilDiv(GetReviewsCountForMovie(db, movieId), pageSize)
    ensures var rows := Page(OrderBy(ReviewsOfMovie(db.reviews, movieId), ReviewDateKey, false), page, pageSize);
      |r| == |rows| && forall k :: 0 <= k < |r| ==> r[k] == ToReviewDto(MovieReviewRow(db, movieId, rows[k]))
  {
    var rows := NewestReviews(ReviewsOfMovie(db.reviews, movieId), page, pageSize);
    Select(rows, (rv: Review) => ToReviewDto(MovieReviewRow(db, movieId, rv)))
  }

  /** Paging through the movie's reviews shows every one of them, each on one of the pages. */
  lemma EveryReviewOfMovieIsListed(db: Db, movieId: int, rv: Review, pageSize: int)
    requires rv in db.reviews && rv.movieId == movieId && pageSize >= 1
    ensures exists p :: (1 <= p <= CeilDiv(GetReviewsCountForMovie(db, movieId), pageSize) &&
        ToReviewDto(MovieReviewRow(db, movieId, rv)) in GetReviewsForMovie(db, movieId, p, pageSize))
  {
    WhereMembers(db.reviews, (rv: Review) => rv.movieId == movieId);
    var p, j := OrderedPagePosition(ReviewsOfMovie(db.reviews, movieId), ReviewDateKey, false, rv, pageSize);
    assert GetReviewsForMovie(db, movieId, p, pageSize)[j] == ToReviewDto(MovieReviewRow(db, movieId, rv));
  }

  /** With the filtered `ThenInclude`, a review row carries its author's rating of the movie. */
  lemma RowShowsOwnRating(db: Db, movieId: int, rv: Review)
    requires rv.movieId == movieId && UserExists(db.users, rv.userId) && DistinctBy(db.ratings, RatingPair)
    ensures ToReviewDto(MovieReviewRow(db, movieId, rv)).ratingValue == RatingOf(db.ratings, rv.userId, movieId)
  {
    if RatingOf(db.ratings, rv.userId, movieId).None? {
      RowShowsNoRating(db, movieId, rv);
    } else {
      RowShowsTheRating(db, movieId, rv);
    }
  }

  lemma RowShowsNoRating(db: Db, movieId: int, rv: Review)
    requires rv.movieId == movieId && RatingOf(db.ratings, rv.userId, movieId).None?
    ensures ToReviewDto(MovieReviewRow(db, movieId, rv)).ratingValue.None?
  {
    var us := MovieReviewRow(db, movieId, rv).userRatings;
    forall m | 0 <= m < |us| ensures us[m].movieId != movieId {
      assert us[m] in db.ratings;
    }
  }

  lemma RowShowsTheRating(db: Db, movieId: int, rv: Review)
    requires rv.movieId == movieId && UserExists(db.users, rv.userId) && DistinctBy(db.ratings, RatingPair)
    requires RatingOf(db.ratings, rv.userId, movieId).Some?
    ensures ToReviewDto(MovieReviewRow(db, movieId, rv)).ratingValue == RatingOf(db.ratings, rv.userId, movieId)
  {
    var lr := MovieReviewRow(db, movieId, rv);
    var us := lr.userRatings;
    var own := RatingOf(db.ratings, rv.userId, movieId);
    var j :| 0 <= j < |db.ratings| && RatingPair(db.ratings[j]) == (rv.userId, movieId) && db.ratings[j].value == own.value;
    assert db.ratings[j] in us;
    var v := ToReviewDto(lr).ratingValue;
    assert v.Some?;
    var m :| 0 <= m < |us| && us[m].movieId == movieId && us[m].value == v.value;
    assert us[m] in db.ratings && us[m].userId == rv.userId;
    var n :| 0 <= n < |db.ratings| && db.ratings[n] == us[m];
    assert RatingPair(db.ratings[n]) == RatingPair(db.ratings[j]);
  }

  /**
   * On the movie page every review shows its author's own rating of the movie, or null when
   * the author has not rated it.
   */
  lemma ReviewsShowOwnRating(db: Db, movieId: int, page: int, pageSize: int)
    requires page >= 1 && pageSize >= 1
    requires Consistent(db)
    ensures var r := GetReviewsForMovie(db, movieId, page, pageSize);
      forall i :: 0 <= i < |r| ==> exists rv | rv in db.reviews ::
        rv.id == r[i].reviewId && rv.movieId == movieId && r[i].ratingValue == RatingOf(db.ratings, rv.userId, movieId)
  {
    var r := GetReviewsForMovie(db, movieId, page, pageSize);
    forall i | 0 <= i < |r| ensures exists rv | rv in db.reviews ::
        rv.id == r[i].reviewId && rv.movieId == movieId && r[i].ratingValue == RatingOf(db.ratings, rv.userId, movieId) {
      ReviewShowsOwnRatingAt(db, movieId, page, pageSize, i);
    }
  }

  lemma ReviewShowsOwnRatingAt(db: Db, movieId: int, page: int, pageSize: int, i: nat)
    requires page >= 1 && pageSize >= 1
    requires Consistent(db)
    requires i < |GetReviewsForMovie(db, movieId, page, pageSize)|
    ensures var r := GetReviewsForMovie(db, movieId, page, pageSize);
      exists rv | rv in db.reviews ::
        rv.id == r[i].reviewId && rv.movieId == movieId && r[i].ratingValue == RatingOf(db.ratings, rv.userId, movieId)
  {
    var rows := NewestReviews(ReviewsOfMovie(db.reviews, movieId), page, pageSize);
    var r := GetReviewsForMovie(db, movieId, page, pageSize);
    var rv := rows[i];
    assert rv in ReviewsOfMovie(db.reviews, movieId);
    assert r[i] == ToReviewDto(MovieReviewRow(db, movieId, rv));
    var k :| 0 <= k < |db.reviews| && db.reviews[k] == rv;
    assert UserExists(db.users, rv.userId);
    RowShowsOwnRating(db, movieId, rv);
  }

  /**
   * `GetReviewsByUserAsync`: the user's reviews, newest first, one page. The user's ratings
   * are not loaded, so every rating value is null.
   */
  function GetReviewsByUser(db: Db, userId: UserId, page: int, pageSize: int): (r: seq<ReviewDto>)
    requires page >= 1 && pageSize >= 1
    ensures |r| <= pageSize
    ensures forall i :: 0 <= i < |r| ==> r[i].ratingValue.None?
    ensures forall i :: 0 <= i < |r| ==> exists rv | rv in db.reviews :: rv.id == r[i].reviewId && rv.userId == userId
    ensures forall i, j :: 0 <= i < j < |r| ==> r[i].createdDate >= r[j].createdDate
    ensures r != [] <==> page <= CeilDiv(GetReviewsCountByUser(db, userId), pageSize)
    ensures var rows := Page(OrderBy(ReviewsByUser(db.reviews, userId), ReviewDateKey, false), page, pageSize);
      |r| == |rows| && forall k :: 0 <= k < |r| ==> r[k] == ToReviewDto(UserReviewRow(db, rows[k]))
  {
    var rows := NewestReviews(ReviewsByUser(db.reviews, userId), page, pageSize);
    var r := Select(rows, (rv: Review) => ToReviewDto(UserReviewRow(db, rv)));
    assert forall i :: 0 <= i < |r| ==> rows[i] in ReviewsByUser(db.reviews, userId);
    r
  }

  /** A review of the user's list, with its author and movie and no ratings loaded. */
  function UserReviewRow(db: Db, rv: Review): LoadedReview {
    LoadedReview(rv, FindUser(db.users, rv.userId), FindMovie(db.movies, rv.movieId), [])
  }

  /** Paging through the user's reviews shows every one of them, each on one of the pages. */
  lemma EveryReviewByUserIsListed(db: Db, userId: UserId, rv: Review, pageSize: int)
    requires rv in db.reviews && rv.userId == userId && pageSize >= 1
    ensures exists p :: (1 <= p <= CeilDiv(GetReviewsCountByUser(db, userId), pageSize) &&
        ToReviewDto(UserReviewRow(db, rv)) in GetReviewsByUser(db, userId, p, pageSize))
  {
    WhereMembers(db.reviews, (rv: Review) => rv.userId == userId);
    var p, j := OrderedPagePosition(ReviewsByUser(db.reviews, userId), ReviewDateKey, false, rv, pageSize);
    assert GetReviewsByUser(db, userId, p, pageSize)[j] == ToReviewDto(UserReviewRow(db, rv));
  }

  /** `GetReviewsCountForMovieAsync`. */
  function GetReviewsCountForMovie(db: Db, movieId: int): (r: nat)
    ensures r <= |db.reviews|
    ensures r == 0 <==> forall i :: 0 <= i < |db.reviews| ==> db.reviews[i].movieId != movieId
  {
    var p := (rv: Review) => rv.movieId == movieId;
    WhereEmptyIffNone(db.reviews, p);
    |ReviewsOfMovie(db.reviews, movieId)|
  }

  /** `GetReviewsCountByUserAsync`. */
  function GetReviewsCountByUser(db: Db, userId: UserId): (r: nat)
    ensures r <= |db.reviews|
    ensures r == 0 <==> forall i :: 0 <= i < |db.reviews| ==> db.reviews[i].userId != userId
  {
    var p := (rv: Review) => rv.userId == userId;
    WhereEmptyIffNone(db.reviews, p);
    |ReviewsByUser(db.reviews, userId)|
  }

  /** `CanUserReviewMovieAsync`: the user has no review of the movie yet. */
  function CanUserReviewMovie(db: Db, userId: UserId, movieId: int): (r: bool)
    ensures r <==> !HasReviewed(db.reviews, userId, movieId)
  {
    !AnyWhere(db.reviews, (rv: Review) => rv.userId == userId && rv.movieId == movieId)
  }
}

=== FILE: reviews_controller.dfy ===
/**
 * `ReviewsController`: the paged lists of a movie's and of the caller's reviews (five to a
 * page unless asked otherwise), a single review, the "may I review this movie" question,
 * and the caller's create, edit and delete, each shaped into its response.
 */
module ReviewsController {
  import opened Wrappers
  import opened Query
  import opened Paging
  import opened Entities
  import opened Schema
  import opened Mapping
  import opened Store
  import opened Responses
  import opened ReviewService

  const DefaultPage := 1
  const DefaultPageSize := 5

  // --------------------------------------------------------------- request body

  /** The fields of a `CreateReviewRequest` / `UpdateReviewRequest` that break their annotations. */
  function ReviewRequestErrors(text: string): (r: seq<string>)
    ensures r == [] <==> RequiredText(text) && |text| <= ReviewTextMaxLength
    ensures r != [] ==> r == ["ReviewText"]
  {
    if RequiredText(text) && |text| <= 2000 then [] else ["ReviewText"]
  }

  /** An accepted text fits the column and is never blank. */
  lemma AcceptedTextFits(text: string, id: int, now: int, movieId: int, userId: UserId)
    requires ReviewRequestErrors(text) == []
    ensures ReviewFits(Review(id, text, now, movieId, userId)) && text != []
  {
  }

  // ---------------------------------------------------------------- read actions

  /** `GET /api/reviews/{id}`: the review, or 404. */
  function GetById(db: Db, id: int): (r: Response<ReviewDto>)
    ensures r.Ok? || r.NotFound?
    ensures r.NotFound? <==> forall i :: 0 <= i < |db.reviews| ==> db.reviews[i].id != id
    ensures r.Ok? ==> r.body.reviewId == id && Some(r.body) == GetReviewById(db, id)
  {
    match GetReviewById(db, id)
    case None => NotFound
    case Some(d) => Ok(d)
  }

  /** `GET /api/reviews/movie/{movieId}`: one page of the movie's reviews in the paging envelope. */
  function GetByMovie(db: Db, movieId: int, page: Option<int>, pageSize: Option<int>): (r: Response<Paged<ReviewDto>>)
    requires Arg(page, DefaultPage) >= 1 && Arg(pageSize, DefaultPageSize) >= 1
    ensures r.Ok?
    ensures r.body.currentPage == Arg(page, DefaultPage) && r.body.pageSize == Arg(pageSize, DefaultPageSize)
    ensures r.body.totalCount == |ReviewsOfMovie(db.reviews, movieId)|
    ensures |r.body.items| <= r.body.pageSize
    ensures forall i :: 0 <= i < |r.body.items| ==> r.body.items[i].movieId == movieId
    ensures r.body.items != [] <==> r.body.currentPage <= r.body.totalPages
  {
    var p := Arg(page, DefaultPage);
    var size := Arg(pageSize, DefaultPageSize);
    Ok(Envelope(GetReviewsForMovie(db, movieId, p, size), GetReviewsCountForMovie(db, movieId), p, size))
  }

  /** `GET /api/reviews/user`: one page of the caller's reviews in the paging envelope. */
  function GetUserReviews(db: Db, caller: UserId, page: Option<int>, pageSize: Option<int>): (r: Response<Paged<ReviewDto>>)
    requires Arg(page, DefaultPage) >= 1 && Arg(pageSize, DefaultPageSize) >= 1
    ensures r.Ok?
    ensures r.body.currentPage == Arg(page, DefaultPage) && r.body.pageSize == Arg(pageSize, DefaultPageSize)
    ensures r.body.totalCount == |ReviewsByUser(db.reviews, caller)|
    ensures |r.body.items| <= r.body.pageSize
    ensures forall i :: 0 <= i < |r.body.items| ==>
      exists rv | rv in db.reviews :: rv.id == r.body.items[i].reviewId && rv.userId == caller
    ensures r.body.items != [] <==> r.body.currentPage <= r.body.totalPages
  {
    var p := Arg(page, DefaultPage);
    var size := Arg(pageSize, DefaultPageSize);
    Ok(Envelope(GetReviewsByUser(db, caller, p, size), GetReviewsCountByUser(db, caller), p, size))
  }

  /** `GET /api/reviews/can-review/{movieId}`: true exactly when the caller has no review of the movie. */
  function CanUserReview(db: Db, caller: UserId, movieId: int): (r: Response<bool>)
    ensures r.Ok?
    ensures r.body <==> !HasReviewed(db.reviews, caller, movieId)
  {
    Ok(CanUserReviewMovie(db, caller, movieId))
  }

  // -------------------------------------------------------------- write actions

  /**
   * What `GetReviewByIdAsync` shows of a stored review: its own columns, its author's name
   * and its movie's title, and never a rating value.
   */
  lemma ReviewShown(db: Db, k: nat)
    requires k < |db.reviews| && DistinctBy(db.reviews, ReviewKey)
    requires UserExists(db.users, db.reviews[k].userId) && MovieExists(db.movies, db.reviews[k].movieId)
    ensures var r := GetReviewById(db, db.reviews[k].id);
      && r.Some?
      && r.value.reviewText == db.reviews[k].text && r.value.movieId == db.reviews[k].movieId
      && r.value.createdDate == db.reviews[k].createdDate
      && r.value.userName.Some? && r.value.movieTitle.Some? && r.value.ratingValue.None?
  {
    var rv := db.reviews[k];
    var f := FirstWhere(db.reviews, (x: Review) => x.id == rv.id);
    var j :| 0 <= j < |db.reviews| && db.reviews[j] == f.value;
    assert ReviewKey(db.reviews[j]) == ReviewKey(rv);
    assert FindUser(db.users, rv.userId).Some?;
    assert FindMovie(db.movies, rv.movieId).Some?;
  }

  /**
   * `POST /api/reviews/movie/{movieId}`: a 400 for a blank or over-long text; a 400 with the
   * service's message for a missing movie, a second review, or a caller who is not a user;
   * otherwise a 201 pointing at the new review, whose body shows the text, the author and
   * the movie title but no rating value.
   */
  method Create(ctx: Context, movieId: int, text: string, caller: UserId, now: int) returns (r: Response<Option<ReviewDto>>)
    requires ctx.Valid()
    modifies ctx
    ensures ctx.Valid()
    ensures ReviewRequestErrors(text) != [] ==>
      r == ValidationProblem(["ReviewText"]) && ctx.State() == old(ctx.State())
    ensures ReviewRequestErrors(text) == [] && !MovieExists(old(ctx.movies), movieId) ==>
      r == BadRequest(Message(MovieNotFound)) && ctx.State() == old(ctx.State())
    ensures ReviewRequestErrors(text) == [] && MovieExists(old(ctx.movies), movieId)
            && HasReviewed(old(ctx.reviews), caller, movieId) ==>
      r == BadRequest(Message(AlreadyReviewed)) && ctx.State() == old(ctx.State())
    ensures ReviewRequestErrors(text) == [] && MovieExists(old(ctx.movies), movieId)
            && !HasReviewed(old(ctx.reviews), caller, movieId) && !UserExists(old(ctx.users), caller) ==>
      r == BadRequest(Message(SaveRejected)) && ctx.State() == old(ctx.State())
    ensures ReviewRequestErrors(text) == [] && MovieExists(old(ctx.movies), movieId)
            && !HasReviewed(old(ctx.reviews), caller, movieId) && UserExists(old(ctx.users), caller) ==>
      && r.CreatedAt? && r.id == old(ctx.nextReviewId)
      && r.created == GetReviewById(ctx.State(), r.id) && r.created.Some?
      && r.created.value.reviewText == text && r.created.value.movieId == movieId
      && r.created.value.createdDate == now
      && r.created.value.userName.Some? && r.created.value.movieTitle.Some? && r.created.value.ratingValue.None?
      && HasReviewed(ctx.reviews, caller, movieId)
  {
    var errors := ReviewRequestErrors(text);
    if errors != [] {
      return ValidationProblem(errors);
    }
    AcceptedTextFits(text, ctx.nextReviewId, now, movieId, caller);
    var outcome := CreateReview(ctx, movieId, text, caller, now);
    match outcome
    case Failure(f) =>
      r := BadRequest(Message(f));
    case Success(rv) =>
      ReviewShown(ctx.State(), |ctx.reviews| - 1);
      r := CreatedAt(rv.id, GetReviewById(ctx.State(), rv.id));
  }

  /**
   * `PUT /api/reviews/{id}`: a 400 for a blank or over-long text, a 404 unless the review is
   * the caller's, and otherwise the review as it now reads.
   */
  method Update(ctx: Context, id: int, text: string, caller: UserId) returns (r: Response<Option<ReviewDto>>)
    requires ctx.Valid()
    modifies ctx
    ensures ctx.Valid()
    ensures ReviewRequestErrors(text) != [] ==>
      r == ValidationProblem(["ReviewText"]) && ctx.State() == old(ctx.State())
    ensures ReviewRequestErrors(text) == [] && OwnedReviewIndex(old(ctx.reviews), id, caller).None? ==>
      r == NotFound && ctx.State() == old(ctx.State())
    ensures ReviewRequestErrors(text) == [] && OwnedReviewIndex(old(ctx.reviews), id, caller).Some? ==>
      && r.Ok? && r.body == GetReviewById(ctx.State(), id) && r.body.Some?
      && r.body.value.reviewText == text
  {
    var errors := ReviewRequestErrors(text);
    if errors != [] {
      return ValidationProblem(errors);
    }
    var found := OwnedReviewIndex(ctx.reviews, id, caller);
    if found.Some? {
      var old_ := ctx.reviews[found.value];
      AcceptedTextFits(text, old_.id, old_.createdDate, old_.movieId, old_.userId);
    }
    var outcome := UpdateReview(ctx, id, text, caller);
    match outcome
    case Failure(f) =>
      r := BadRequest(Message(f));
    case Success(None) =>
      r := NotFound;
    case Success(Some(rv)) =>
      ReviewShown(ctx.State(), found.value);
      r := Ok(GetReviewById(ctx.State(), rv.id));
  }

  /** `DELETE /api/reviews/{id}`: 204 when the caller's review was removed, else 404. */
  method Delete(ctx: Context, id: int, caller: UserId) returns (r: Response<()>)
    requires ctx.Valid()
    modifies ctx
    ensures ctx.Valid()
    ensures r.NoContent? || r.NotFound?
    ensures r.NoContent? <==> OwnedReviewIndex(old(ctx.reviews), id, caller).Some?
    ensures r.NoContent? ==> ctx.State() == old(ctx.State()).(reviews := WithoutReview(old(ctx.reviews), id))
    ensures r.NotFound? ==> ctx.State() == old(ctx.State())
  {
    var deleted := DeleteReview(ctx, id, caller);
    if !deleted {
      return NotFound;
    }
    return NoContent;
  }
}

=== FILE: schema.dfy ===
/**
 * What the database enforces, as configured in `OnModelCreating`: column lengths, unique
 * keys and the (UserId, MovieId) unique indexes, foreign keys, cascading deletes from a
 * movie and restricted deletes of a user.
 */
module Schema {
  import opened Wrappers
  import opened Query
  import opened Entities

  const TitleMaxLength := 200
  const DirectorMaxLength := 100
  const GenreMaxLength := 50
  const DescriptionMaxLength := 1000
  const ReviewTextMaxLength := 2000
  const NameMaxLength := 50

  /** An optional column holds null or a string of at most `max` characters. */
  predicate FitsOptional(s: Option<string>, max: nat) {
    s.None? || |s.value| <= max
  }

  /** The `nvarchar` widths of the Movies columns. */
  predicate MovieFits(m: Movie) {
    && |m.title| <= TitleMaxLength
    && |m.director| <= DirectorMaxLength
    && FitsOptional(m.genre, GenreMaxLength)
    && FitsOptional(m.description, DescriptionMaxLength)
  }

  predicate ReviewFits(r: Review) {
    |r.text| <= ReviewTextMaxLength
  }

  predicate UserFits(u: User) {
    FitsOptional(u.firstName, NameMaxLength) && FitsOptional(u.lastName, NameMaxLength)
  }

  predicate UserExists(users: seq<User>, id: UserId) {
    exists i | 0 <= i < |users| :: users[i].id == id
  }

  predicate MovieExists(movies: seq<Movie>, id: int) {
    exists i | 0 <= i < |movies| :: movies[i].id == id
  }

  /** Primary keys and the two (UserId, MovieId) unique indexes. */
  predicate KeysUnique(db: Db) {
    && DistinctBy(db.users, UserKey)
    && DistinctBy(db.movies, MovieKey)
    && DistinctBy(db.reviews, ReviewKey)
    && DistinctBy(db.ratings, RatingKey)
    && DistinctBy(db.reviews, ReviewPair)
    && DistinctBy(db.ratings, RatingPair)
  }

  /** Every row fits its columns. */
  predicate ColumnsFit(db: Db) {
    && (forall i :: 0 <= i < |db.users| ==> UserFits(db.users[i]))
    && (forall i :: 0 <= i < |db.movies| ==> MovieFits(db.movies[i]))
    && (forall i :: 0 <= i < |db.reviews| ==> ReviewFits(db.reviews[i]))
  }

  /** Every foreign key names an existing row. */
  predicate ReferencesResolve(db: Db) {
    && (forall i :: 0 <= i < |db.movies| ==> UserExists(db.users, db.movies[i].createdBy))
    && (forall i :: 0 <= i < |db.reviews| ==>
          MovieExists(db.movies, db.reviews[i].movieId) && UserExists(db.users, db.reviews[i].userId))
    && (forall i :: 0 <= i < |db.ratings| ==>
          MovieExists(db.movies, db.ratings[i].movieId) && UserExists(db.users, db.ratings[i].userId))
  }

  /** A database state the configured constraints admit. */
  predicate Consistent(db: Db) {
    KeysUnique(db) && ColumnsFit(db) && ReferencesResolve(db)
  }

  /** A review or rating row that belongs to the movie. */
  predicate Dependent(db: Db, movieId: int) {
    || (exists i | 0 <= i < |db.reviews| :: db.reviews[i].movieId == movieId)
    || (exists i | 0 <= i < |db.ratings| :: db.ratings[i].movieId == movieId)
  }

  /** Deleting a movie: its row goes, and by `OnDelete(Cascade)` its reviews and ratings too. */
  function DeleteMovieCascade(db: Db, movieId: int): (r: Db)
    ensures r.users == db.users
  {
    Db(db.users,
       Where(db.movies, (m: Movie) => m.id != movieId),
       Where(db.reviews, (rv: Review) => rv.movieId != movieId),
       Where(db.ratings, (rt: Rating) => rt.movieId != movieId))
  }

  /**
   * After the cascade nothing of the movie is left, and every other movie, review and
   * rating is still there.
   */
  lemma CascadeRemovesExactly(db: Db, movieId: int)
    ensures var r := DeleteMovieCascade(db, movieId);
      && !MovieExists(r.movies, movieId) && !Dependent(r, movieId)
      && (forall m :: m in r.movies <==> m in db.movies && m.id != movieId)
      && (forall rv :: rv in r.reviews <==> rv in db.reviews && rv.movieId != movieId)
      && (forall rt :: rt in r.ratings <==> rt in db.ratings && rt.movieId != movieId)
  {
    WhereMembers(db.movies, (m: Movie) => m.id != movieId);
    WhereMembers(db.reviews, (rv: Review) => rv.movieId != movieId);
    WhereMembers(db.ratings, (rt: Rating) => rt.movieId != movieId);
  }

  /** The cascade leaves a consistent database consistent. */
  lemma CascadeKeepsConsistent(db: Db, movieId: int)
    requires Consistent(db)
    ensures Consistent(DeleteMovieCascade(db, movieId))
  {
    CascadeKeepsKeys(db, movieId);
    CascadeKeepsColumns(db, movieId);
    CascadeKeepsReferences(db, movieId);
  }

  lemma CascadeKeepsKeys(db: Db, movieId: int)
    requires KeysUnique(db)
    ensures KeysUnique(DeleteMovieCascade(db, movieId))
  {
    WhereKeepsDistinct(db.movies, (m: Movie) => m.id != movieId, MovieKey);
    WhereKeepsDistinct(db.reviews, (rv: Review) => rv.movieId != movieId, ReviewKey);
    WhereKeepsDistinct(db.reviews, (rv: Review) => rv.movieId != movieId, ReviewPair);
    WhereKeepsDistinct(db.ratings, (rt: Rating) => rt.movieId != movieId, RatingKey);
    WhereKeepsDistinct(db.ratings, (rt: Rating) => rt.movieId != movieId, RatingPair);
  }

  lemma CascadeKeepsColumns(db: Db, movieId: int)
    requires ColumnsFit(db)
    ensures ColumnsFit(DeleteMovieCascade(db, movieId))
  {
    var r := DeleteMovieCascade(db, movieId);
    forall i | 0 <= i < |r.movies| ensures MovieFits(r.movies[i]) {
      var k :| 0 <= k < |db.movies| && db.movies[k] == r.movies[i];
    }
    forall i | 0 <= i < |r.reviews| ensures ReviewFits(r.reviews[i]) {
      var k :| 0 <= k < |db.reviews| && db.reviews[k] == r.reviews[i];
    }
  }

  lemma CascadeKeepsReferences(db: Db, movieId: int)
    requires ReferencesResolve(db)
    ensures ReferencesResolve(DeleteMovieCascade(db, movieId))
  {
    var r := DeleteMovieCascade(db, movieId);
    forall i | 0 <= i < |r.movies| ensures UserExists(r.users, r.movies[i].createdBy) {
      var k :| 0 <= k < |db.movies| && db.movies[k] == r.movies[i];
    }
    forall i | 0 <= i < |r.reviews|
      ensures MovieExists(r.movies, r.reviews[i].movieId) && UserExists(r.users, r.reviews[i].userId)
    {
      var k :| 0 <= k < |db.reviews| && db.reviews[k] == r.reviews[i];
      SurvivingMovieStays(db, movieId, db.reviews[k].movieId);
    }
    forall i | 0 <= i < |r.ratings|
      ensures MovieExists(r.movies, r.ratings[i].movieId) && UserExists(r.users, r.ratings[i].userId)
    {
      var k :| 0 <= k < |db.ratings| && db.ratings[k] == r.ratings[i];
      SurvivingMovieStays(db, movieId, db.ratings[k].movieId);
    }
  }

  /** A movie other than the deleted one is still there after the cascade. */
  lemma SurvivingMovieStays(db: Db, movieId: int, other: int)
    requires MovieExists(db.movies, other) && other != movieId
    ensures MovieExists(DeleteMovieCascade(db, movieId).movies, other)
  {
    var movies := DeleteMovieCascade(db, movieId).movies;
    var j :| 0 <= j < |db.movies| && db.movies[j].id == other;
    var j' :| 0 <= j' < |movies| && movies[j'] == db.movies[j];
  }

  /** Some movie, review or rating points at the user. */
  predicate Referenced(db: Db, userId: UserId) {
    || (exists i | 0 <= i < |db.movies| :: db.movies[i].createdBy == userId)
    || (exists i | 0 <= i < |db.reviews| :: db.reviews[i].userId == userId)
    || (exists i | 0 <= i < |db.ratings| :: db.ratings[i].userId == userId)
  }

  /** Removing a user's row, leaving every other table as it is. */
  function DeleteUser(db: Db, userId: UserId): (r: Db)
    ensures !UserExists(r.users, userId)
    ensures r.movies == db.movies && r.reviews == db.reviews && r.ratings == db.ratings
  {
    db.(users := Where(db.users, (u: User) => u.id != userId))
  }

  /**
   * `OnDelete(Restrict)` on all three user foreign keys: the database admits the deletion of
   * a user exactly when no movie, review or rating refers to them.
   */
  lemma DeleteUserAllowedIff(db: Db, userId: UserId)
    requires Consistent(db)
    ensures Consistent(DeleteUser(db, userId)) <==> !Referenced(db, userId)
  {
    var r := DeleteUser(db, userId);
    var keep := (u: User) => u.id != userId;
    WhereKeepsDistinct(db.users, keep, UserKey);
    if !Referenced(db, userId) {
      forall id | UserExists(db.users, id) && id != userId ensures UserExists(r.users, id) {
        var k :| 0 <= k < |db.users| && db.users[k].id == id;
        var j :| 0 <= j < |r.users| && r.users[j] == db.users[k];
      }
      forall i | 0 <= i < |r.users| ensures UserFits(r.users[i]) {
        var k :| 0 <= k < |db.users| && db.users[k] == r.users[i];
      }
    } else if exists i | 0 <= i < |db.movies| :: db.movies[i].createdBy == userId {
      var i :| 0 <= i < |db.movies| && db.movies[i].createdBy == userId;
      assert !UserExists(r.users, r.movies[i].createdBy);
    } else if exists i | 0 <= i < |db.reviews| :: db.reviews[i].userId == userId {
      var i :| 0 <= i < |db.reviews| && db.reviews[i].userId == userId;
      assert !UserExists(r.users, r.reviews[i].userId);
    } else {
      var i :| 0 <= i < |db.ratings| && db.ratings[i].userId == userId;
      assert !UserExists(r.users, r.ratings[i].userId);
    }
  }
}

=== FILE: store.dfy ===
/**
 * The `ApplicationDbContext` as mutable state: the four tables and the identity counters
 * the database draws new keys from. `Valid()` is what the configured constraints
 * guarantee of every committed state.
 */
module Store {
  import opened Wrappers
  import opened Query
  import opened Entities
  import opened Schema

  /** Why a service call did not commit. */
  datatype Failure =
    | MovieNotFound      // ArgumentException thrown by the review and rating services
    | AlreadyReviewed    // InvalidOperationException thrown by the review service
    | SaveRejected       // DbUpdateException: the database refused the row

  /** The exception message a controller copies into its BadRequest. */
  function Message(f: Failure): (m: string)
    ensures m != []
  {
    match f
    case MovieNotFound => "Movie not found"
    case AlreadyReviewed => "User has already reviewed this movie."
    case SaveRejected => "An error occurred while saving the entity changes. See the inner exception for details."
  }

  /** Every key drawn so far lies in [1, next). */
  predicate IdsBelow(db: Db, nextMovieId: int, nextReviewId: int, nextRatingId: int) {
    && 1 <= nextMovieId && 1 <= nextReviewId && 1 <= nextRatingId
    && (forall i :: 0 <= i < |db.movies| ==> 1 <= db.movies[i].id < nextMovieId)
    && (forall i :: 0 <= i < |db.reviews| ==> 1 <= db.reviews[i].id < nextReviewId)
    && (forall i :: 0 <= i < |db.ratings| ==> 1 <= db.ratings[i].id < nextRatingId)
  }

  class Context {
    var users: seq<User>
    var movies: seq<Movie>
    var reviews: seq<Review>
    var ratings: seq<Rating>
    var nextMovieId: int
    var nextReviewId: int
    var nextRatingId: int

    function State(): Db
      reads this
    {
      Db(users, movies, reviews, ratings)
    }

    predicate Valid()
      reads this
    {
      Consistent(State()) && IdsBelow(State(), nextMovieId, nextReviewId, nextRatingId)
    }

    /** A database holding the given users and nothing else. */
    constructor(initialUsers: seq<User>)
      requires Consistent(Db(initialUsers, [], [], []))
      ensures Valid()
      ensures State() == Db(initialUsers, [], [], [])
    {
      users := initialUsers;
      movies := [];
      reviews := [];
      ratings := [];
      nextMovieId := 1;
      nextReviewId := 1;
      nextRatingId := 1;
    }

    /**
     * `SaveChangesAsync` for a change set that leaves all tables within their constraints:
     * the tables become `db` and the identity counters move on to the given values.
     */
    method Commit(db: Db, nm: int, nr: int, nt: int)
      requires Consistent(db) && IdsBelow(db, nm, nr, nt)
      modifies this
      ensures Valid() && State() == db
      ensures nextMovieId == nm && nextReviewId == nr && nextRatingId == nt
    {
      nextMovieId, nextReviewId, nextRatingId := nm, nr, nt;
      users, movies, reviews, ratings := db.users, db.movies, db.reviews, db.ratings;
    }
  }

  // How single-row changes keep the constraints.

  lemma AddMovieKeepsConsistent(db: Db, m: Movie)
    requires Consistent(db)
    requires MovieFits(m) && UserExists(db.users, m.createdBy)
    requires forall i :: 0 <= i < |db.movies| ==> db.movies[i].id != m.id
    ensures Consistent(db.(movies := db.movies + [m]))
  {
    var r := db.(movies := db.movies + [m]);
    forall i | 0 <= i < |r.reviews| ensures MovieExists(r.movies, r.reviews[i].movieId) {
      assert MovieExists(db.movies, db.reviews[i].movieId);
      var j :| 0 <= j < |db.movies| && db.movies[j].id == db.reviews[i].movieId;
      assert r.movies[j] == db.movies[j];
    }
    forall i | 0 <= i < |r.ratings| ensures MovieExists(r.movies, r.ratings[i].movieId) {
      assert MovieExists(db.movies, db.ratings[i].movieId);
      var j :| 0 <= j < |db.movies| && db.movies[j].id == db.ratings[i].movieId;
      assert r.movies[j] == db.movies[j];
    }
  }

  /** Rewriting the columns of movie `k`, keeping its key and creator. */
  lemma ReplaceMovieKeepsConsistent(db: Db, k: nat, m: Movie)
    requires Consistent(db) && k < |db.movies|
    requires MovieFits(m) && m.id == db.movies[k].id && m.createdBy == db.movies[k].createdBy
    ensures Consistent(db.(movies := db.movies[k := m]))
  {
    var r := db.(movies := db.movies[k := m]);
    assert forall i :: 0 <= i < |r.movies| ==> r.movies[i].id == db.movies[i].id;
    forall i | 0 <= i < |r.reviews| ensures MovieExists(r.movies, r.reviews[i].movieId) {
      var j :| 0 <= j < |db.movies| && db.movies[j].id == db.reviews[i].movieId;
      assert r.movies[j].id == db.movies[j].id;
    }
    forall i | 0 <= i < |r.ratings| ensures MovieExists(r.movies, r.ratings[i].movieId) {
      var j :| 0 <= j < |db.movies| && db.movies[j].id == db.ratings[i].movieId;
      assert r.movies[j].id == db.movies[j].id;
    }
  }

  lemma AddReviewKeepsConsistent(db: Db, rv: Review)
    requires Consistent(db)
    requires ReviewFits(rv) && MovieExists(db.movies, rv.movieId) && UserExists(db.users, rv.userId)
    requires forall i :: 0 <= i < |db.reviews| ==> db.reviews[i].id != rv.id
    requires forall i :: 0 <= i < |db.reviews| ==> ReviewPair(db.reviews[i]) != ReviewPair(rv)
    ensures Consistent(db.(reviews := db.reviews + [rv]))
  {
  }

  /** Rewriting the text of review `k`. */
  lemma ReplaceReviewKeepsConsistent(db: Db, k: nat, rv: Review)
    requires Consistent(db) && k < |db.reviews|
    requires ReviewFits(rv) && rv == db.reviews[k].(text := rv.text)
    ensures Consistent(db.(reviews := db.reviews[k := rv]))
  {
    var r := db.(reviews := db.reviews[k := rv]);
    assert forall i :: 0 <= i < |r.reviews| ==>
      r.reviews[i].id == db.reviews[i].id && ReviewPair(r.reviews[i]) == ReviewPair(db.reviews[i]);
  }

  lemma RemoveReviewsKeepsConsistent(db: Db, keep: Review -> bool)
    requires Consistent(db)
    ensures Consistent(db.(reviews := Where(db.reviews, keep)))
  {
    var r := db.(reviews := Where(db.reviews, keep));
    WhereKeepsDistinct(db.reviews, keep, ReviewKey);
    WhereKeepsDistinct(db.reviews, keep, ReviewPair);
    forall i | 0 <= i < |r.reviews|
      ensures ReviewFits(r.reviews[i])
      ensures MovieExists(r.movies, r.reviews[i].movieId) && UserExists(r.users, r.reviews[i].userId)
    {
      var k :| 0 <= k < |db.reviews| && db.reviews[k] == r.reviews[i];
    }
  }

  lemma AddRatingKeepsConsistent(db: Db, rt: Rating)
    requires Consistent(db)
    requires MovieExists(db.movies, rt.movieId) && UserExists(db.users, rt.userId)
    requires forall i :: 0 <= i < |db.ratings| ==> db.ratings[i].id != rt.id
    requires forall i :: 0 <= i < |db.ratings| ==> RatingPair(db.ratings[i]) != RatingPair(rt)
    ensures Consistent(db.(ratings := db.ratings + [rt]))
  {
  }

  /** Rewriting the value and date of rating `k`. */
  lemma ReplaceRatingKeepsConsistent(db: Db, k: nat, rt: Rating)
    requires Consistent(db) && k < |db.ratings|
    requires rt == db.ratings[k].(value := rt.value, createdDate := rt.createdDate)
    ensures Consistent(db.(ratings := db.ratings[k := rt]))
  {
    var r := db.(ratings := db.ratings[k := rt]);
    assert forall i :: 0 <= i < |r.ratings| ==>
      r.ratings[i].id == db.ratings[i].id && RatingPair(r.ratings[i]) == RatingPair(db.ratings[i]);
  }

  lemma ReplaceRatingKeepsIds(db: Db, k: nat, rt: Rating, nm: int, nr: int, nt: int)
    requires IdsBelow(db, nm, nr, nt) && k < |db.ratings| && rt.id == db.ratings[k].id
    ensures IdsBelow(db.(ratings := db.ratings[k := rt]), nm, nr, nt)
  {
  }

  lemma RemoveRatingsKeepsConsistent(db: Db, keep: Rating -> bool)
    requires Consistent(db)
    ensures Consistent(db.(ratings := Where(db.ratings, keep)))
  {
    var r := db.(ratings := Where(db.ratings, keep));
    WhereKeepsDistinct(db.ratings, keep, RatingKey);
    WhereKeepsDistinct(db.ratings, keep, RatingPair);
    forall i | 0 <= i < |r.ratings|
      ensures MovieExists(r.movies, r.ratings[i].movieId) && UserExists(r.users, r.ratings[i].userId)
    {
      var k :| 0 <= k < |db.ratings| && db.ratings[k] == r.ratings[i];
    }
  }

  lemma CascadeKeepsIds(db: Db, movieId: int, nextMovieId: int, nextReviewId: int, nextRatingId: int)
    requires IdsBelow(db, nextMovieId, nextReviewId, nextRatingId)
    ensures IdsBelow(DeleteMovieCascade(db, movieId), nextMovieId, nextReviewId, nextRatingId)
  {
    var r := DeleteMovieCascade(db, movieId);
    forall i | 0 <= i < |r.movies| ensures 1 <= r.movies[i].id < nextMovieId {
      var k :| 0 <= k < |db.movies| && db.movies[k] == r.movies[i];
    }
    forall i | 0 <= i < |r.reviews| ensures 1 <= r.reviews[i].id < nextReviewId {
      var k :| 0 <= k < |db.reviews| && db.reviews[k] == r.reviews[i];
    }
    forall i | 0 <= i < |r.ratings| ensures 1 <= r.ratings[i].id < nextRatingId {
      var k :| 0 <= k < |db.ratings| && db.ratings[k] == r.ratings[i];
    }
  }
}

=== FILE: text.dfy ===
/**
 * String primitives of the two runtimes the application runs on: .NET on the server
 * (`string.Trim`, `string.IsNullOrWhiteSpace`, `ToLower`, `Contains`) and JavaScript in
 * the browser (`String.prototype.trim`). A string is a sequence of Dafny `char`s, that is of
 * Unicode scalar values, so every length here counts code points rather than the UTF-16 code
 * units both runtimes count.
 */
module Text {
  import opened Wrappers

  datatype Runtime = DotNet | JavaScript

  /**
   * White space as the runtime's trim sees it: the Unicode White_Space characters,
   * plus U+0085 for .NET's char.IsWhiteSpace and U+FEFF for ECMAScript's trim.
   */
  predicate IsSpace(rt: Runtime, c: char) {
    ('\t' <= c <= '\r') || c == ' ' || c == '\U{A0}' || c == '\U{1680}'
    || ('\U{2000}' <= c <= '\U{200A}') || c == '\U{2028}' || c == '\U{2029}'
    || c == '\U{202F}' || c == '\U{205F}' || c == '\U{3000}'
    || (rt == DotNet && c == '\U{85}')
    || (rt == JavaScript && c == '\U{FEFF}')
  }

  predicate AllSpace(rt: Runtime, s: string) {
    forall i :: 0 <= i < |s| ==> IsSpace(rt, s[i])
  }

  /** The string without its leading white space. */
  function TrimStart(rt: Runtime, s: string): (r: string)
    ensures |r| <= |s|
  {
    if s == [] || !IsSpace(rt, s[0]) then s else TrimStart(rt, s[1..])
  }

  /** `TrimStart` removes a prefix of white space, and what it keeps starts with a non-space. */
  lemma {:induction false} TrimStartDropsLeadingSpace(rt: Runtime, s: string)
    ensures var r := TrimStart(rt, s);
      && r == s[|s| - |r|..]
      && AllSpace(rt, s[..|s| - |r|])
      && (r == [] || !IsSpace(rt, r[0]))
    decreases |s|
  {
    if s != [] && IsSpace(rt, s[0]) {
      var r := TrimStart(rt, s[1..]);
      TrimStartDropsLeadingSpace(rt, s[1..]);
      var k := |s| - |r|;
      assert s[1..][k - 1..] == s[k..];
      forall i | 0 <= i < k ensures IsSpace(rt, s[i]) {
        if i > 0 {
          assert s[i] == s[1..][..k - 1][i - 1];
        }
      }
      assert forall i :: 0 <= i < k ==> s[..k][i] == s[i];
    }
  }

  /** The string without its trailing white space. */
  function TrimEnd(rt: Runtime, s: string): (r: string)
    ensures |r| <= |s|
  {
    if s == [] || !IsSpace(rt, s[|s| - 1]) then s else TrimEnd(rt, s[..|s| - 1])
  }

  /** `TrimEnd` removes a suffix of white space, and what it keeps ends with a non-space. */
  lemma {:induction false} TrimEndDropsTrailingSpace(rt: Runtime, s: string)
    ensures var r := TrimEnd(rt, s);
      && r == s[..|r|]
      && AllSpace(rt, s[|r|..])
      && (r == [] || !IsSpace(rt, r[|r| - 1]))
    decreases |s|
  {
    if s != [] && IsSpace(rt, s[|s| - 1]) {
      var r := TrimEnd(rt, s[..|s| - 1]);
      TrimEndDropsTrailingSpace(rt, s[..|s| - 1]);
      assert s[|r|..] == s[..|s| - 1][|r|..] + [s[|s| - 1]];
    }
  }

  /** `s.Trim()` in C#, `s.trim()` in JavaScript. */
  function Trim(rt: Runtime, s: string): string {
    TrimEnd(rt, TrimStart(rt, s))
  }

  /** Trimming leaves nothing exactly when the string is all white space. */
  lemma TrimEmptyIffAllSpace(rt: Runtime, s: string)
    ensures Trim(rt, s) == [] <==> AllSpace(rt, s)
  {
    var t := TrimStart(rt, s);
    TrimStartDropsLeadingSpace(rt, s);
    TrimEndDropsTrailingSpace(rt, t);
    var k := |s| - |t|;
    assert t == s[k..];
    if Trim(rt, s) == [] {
      assert t[0..] == t;
      assert t == [];
      forall i | 0 <= i < |s| ensures IsSpace(rt, s[i]) {
        assert s[i] == s[..k][i];
      }
    } else {
      var r := Trim(rt, s);
      assert r[0] == t[0];
      assert s[k] == t[0];
    }
  }

  /** Trimming twice is trimming once. */
  lemma TrimIdempotent(rt: Runtime, s: string)
    ensures Trim(rt, Trim(rt, s)) == Trim(rt, s)
  {
    var r := Trim(rt, s);
    var t := TrimStart(rt, s);
    TrimStartDropsLeadingSpace(rt, s);
    TrimEndDropsTrailingSpace(rt, t);
    if r != [] {
      TrimStartDropsLeadingSpace(rt, r);
      TrimEndDropsTrailingSpace(rt, r);
      assert r[0] == t[0];
      assert TrimStart(rt, r) == r;
    }
  }

  /** C#'s `string.IsNullOrWhiteSpace`. */
  predicate IsNullOrWhiteSpace(s: Option<string>) {
    s.None? || AllSpace(DotNet, s.value)
  }

  /** C#'s `string.IsNullOrEmpty`. */
  predicate IsNullOrEmpty(s: Option<string>) {
    s.None? || s.value == []
  }

  /** JavaScript's truthiness of `s?.trim()`: defined and non-empty after trimming. */
  predicate TrimsToText(s: Option<string>) {
    s.Some? && Trim(JavaScript, s.value) != []
  }

  function LowerChar(c: char): char {
    if 'A' <= c <= 'Z' then (c as int + 32) as char else c
  }

  /** `ToLower()`, on the ASCII letters. */
  function Lower(s: string): (r: string)
    ensures |r| == |s|
    ensures forall i :: 0 <= i < |s| ==> r[i] == LowerChar(s[i])
  {
    seq(|s|, i requires 0 <= i < |s| => LowerChar(s[i]))
  }

  /** `hay.Contains(needle)`: ordinal substring test. */
  predicate Contains(hay: string, needle: string) {
    exists i | 0 <= i <= |hay| - |needle| :: OccursAt(hay, needle, i)
  }

  predicate OccursAt(hay: string, needle: string, i: int) {
    0 <= i <= |hay| - |needle| && hay[i..i + |needle|] == needle
  }
}

=== FILE: wrappers.dfy ===
/** Option and Result, the model's stand-ins for C#/TypeScript nulls and thrown exceptions. */
module Wrappers {

  datatype Option<+T> = None | Some(value: T) {
    /** The value, or `default` when absent (C#'s `??`). */
    function GetOr(default: T): T {
      match this
      case Some(v) => v
      case None => default
    }
  }

  datatype Result<+R, +E> = Success(value: R) | Failure(error: E)
}
